=== FILE: README.md ===
# FileMover in Dafny

FileMover is a CMS web service that copies files of the CMS data catalogue to
a local disk on behalf of users. A user asks for a logical file name (LFN).
The service then:

- finds a site that holds the file (through PhEDEx, DBS and SiteDB);
- starts one copy process per file and reports its status;
- keeps the copies in a directory that is cleaned by age and by size.

This project models the bookkeeping core of that service as pure Dafny
functions over immutable datatypes. Anything that touches the outside world
becomes a parameter: processes, the filesystem, HTTP services, the clock and
the regular-expression engine.

| module | file | what it models |
|---|---|---|
| `Lfn` | lfn.dfy | `validate_lfn`, as a scanner proved equal to the grammar of its regular expression |
| `FileManager` | file_manager.dfy | the request table: `request`, `cancel`, `status`, `_fail_lfn`, `getPfn`, `configure` and the invariants they keep |
| `Eviction` | eviction.dfy | the choice of files `clean_dir` deletes to get back under the quota |
| `FileMover` | file_mover.dfy | one transfer: `FileMover.request/start/cancel/status`, the `TransferWrapper` status machine, the `launch` loop and the copy command's argument vector |
| `MappingManager` | mapping_manager.dfy | the reference-counted cache behind `acquireValue` and `releaseKey` |
| `FileLookup` | file_lookup.dfy | `pickSite`, the priority rules, bad-site removal, the ten-second PFN cache, site-name clean-up and the SURL guard |
| `ThreadPool` | thread_pool.dfy | the worker pool's queue, `drain`, `kill` and one worker step |
| `Status` | status.dfy | the status codes, `isFailure` and `isRunning` |
| `FileMoverService` | file_mover_service.dfy | the per-user quota of the web front end (`addLfn`, `delLfn`, `nActiveDownloads`) and its text helpers |
| `Utils` | utils.dfy | natural sorting, `getPercentageDone`, the name in a certificate DN and the per-day size cache |
| `Cleaner` | cleaner.dfy | the age threshold and the link rules of the clean-up tool |
| `Dbs2` | dbs2.dfy | DBS2 instance names, URLs, parser choice, the `getFiles` query and the scans over instances |
| `SiteDb` | sitedb.dfy | SiteDB row shaping, the storage-element mapping and its timed refresh |
| `Cli` | cli.dfy | the command-line client: site search, node names, PFN deduplication and the copy commands |
| `Strings`, `Wrappers` | strings.dfy, wrappers.dfy | the Python `str` behaviour the source relies on, and `Result`/`Option`/`Outcome` |

A Python exception is an `Err` or `Fail` value. A method of a class that
changes the object is a function from the old state to the new state and
its answer.

Each locked region of `FileManager`, `ThreadPool` and `MappingManager` is
one atomic transition. `request`, `cancel` and `status` each run under the
request lock, so this is faithful for them.

## Behaviour reproduced as written

The model follows the code where it differs from what the comments or the
names suggest.

- `validate_lfn` accepts one trailing newline, because Python's `$` matches
  before a final `\n`.
- `isFailure` recognises only FAILED (3). A transfer that fails in the copy
  process (TRANSFER_FAILED, 5) therefore never reaches `failed_lfns`.
- `isRunning` raises NotImplementedError for every code.
- The guard in `FileMover.status` that should stop retrying once every
  replica was tried compares a method with a list, so it never holds.
- `FileMover.status` retries after a failure by calling `start()`. That call
  always raises, because a wrapper already exists.
- A PFN-cache hit in `getPFN` answers an empty site.
- `cancel` reads `user_requests[user]` before the root check. It raises
  KeyError for any user without an entry, root included.
- A retry in `acquireValue` that succeeds stores the value with two
  references. It then raises KeyError, because the retry already deleted the
  outer call's in-flight marker.
- `delLfn` removes a status by value, not by position. When an earlier LFN
  has the same status, that LFN loses its status and the later ones pair
  with the wrong status.
- `addLfn` checks the per-day count only when the stored day is not today,
  so on the same day the count never refuses a request.
- `LfnInfoCache` never updates its stored day. Once the date changes, every
  `getSize` call empties the cache and asks PhEDEx again.
- `SiteDBManager` never renews its timestamp, so once one lookup refreshes,
  every later one does too.
- DBS server versions are compared as strings, so `DBS_2_0_10` gets the
  parser for `DBS_2_0_5` and older.
- In the cleaner, an expired soft link takes its hard link along whatever
  the hard link's age.
- When a user other than root cancels while others are still interested,
  `cancel` logs their names with `', '.join`. Once one of them is the
  anonymous user `None` this raises TypeError, after both user maps were
  already updated.
- The first status read in `TransferWrapper.launch` sits outside its `try`.
  A read that raises there (a failing `waitpid`, an undecodable wait status,
  or a failing `stat` of the destination) escapes `launch` and `start`, with
  the new wrapper already stored. Inside the loop the same raise is caught
  and cancels the wrapper.

## Model

| member | source | states |
|---|---|---|
| Lfn.ValidateLfn | src/python/fm/core/FileManager.py:20-23 | `validate_lfn` passes exactly the names in the language of `^/store(/[A-Za-z0-9][-A-Za-z0-9_.]*)+\.root$` (one trailing newline allowed by `$`) and raises with the name otherwise |
| Lfn.ValidLfnIffGrammar | src/python/fm/core/FileManager.py:20 | the hand-written scanner accepts exactly the language of the regular expression |
| Lfn.ValidLfnInGrammar | src/python/fm/core/FileManager.py:20 | every name the scanner accepts is built from well-formed segments |
| Lfn.GrammarIsValidLfn | src/python/fm/core/FileManager.py:20 | every name built from well-formed segments, with or without one final newline, passes the scanner |
| Lfn.SegmentsOf | src/python/fm/core/FileManager.py:20 | a scanned `(/segment)+` text splits back into at least one well-formed segment whose rendering is the text |
| Lfn.HeadSegment | src/python/fm/core/FileManager.py:20 | a scanned `(/segment)+` text starts with one well-formed segment followed by nothing or another scanned group |
| Lfn.ScanSlashSegments | src/python/fm/core/FileManager.py:20 | the rendering of well-formed segments passes the scanner |
| Lfn.GrammarPrefix | src/python/fm/core/FileManager.py:20 | every valid name starts with `/store` and is at least 12 characters long |
| Lfn.SingleSegment | src/python/fm/core/FileManager.py:20 | `/store/<segment>.root` is valid for every well-formed segment |
| Lfn.ExampleAccepted | src/python/fm/core/FileManager.py:20-23 | `/store/a/b/c.root` passes, and so does the same name with one trailing newline |
| Lfn.ExampleRejected | src/python/fm/core/FileManager.py:20-23 | `/store.root` (no segment), `/store/a//c.root` (an empty segment) and `/store/a/_b.root` (a segment starting with `_`) are refused |
| FileManager.NewManager | src/python/fm/core/FileManager.py:154-168 | a new manager is unconfigured, has no pool and satisfies the request-table invariant |
| FileManager.AddUserRequest | src/python/fm/core/FileManager.py:241-247 | `_add_user_request` adds exactly the pair (user, lfn) to both user maps and changes nothing else |
| FileManager.Register | src/python/fm/core/FileManager.py:258-260 | the new mover tracks the LFN; the user maps gain exactly the pair (user, LFN) and lose nothing; every other field is untouched |
| FileManager.StripLfn | src/python/fm/core/FileManager.py:289-293 | the LFN leaves the requests of exactly the given users; every other entry stays |
| FileManager.Request | src/python/fm/core/FileManager.py:249-265 | an invalid LFN raises and changes nothing; a valid one loses its failure record; a tracked LFN only gains the user's interest; an untracked one gets one new mover, whose failing `request()` changes nothing but the failure record and the handle counter; a passing one is tracked, the user maps gain exactly the pair (user, LFN), and it is queued once when the pool accepts it |
| FileManager.Submit | src/python/fm/core/FileManager.py:261 | queueing changes only the pool; it fails exactly when the pool is missing or draining; on success the mover joins the tail |
| FileManager.Cancel | src/python/fm/core/FileManager.py:267-310 | an invalid LFN raises; an untracked LFN, or a user other than root who never asked, changes nothing; a user with no entry makes the lookup raise; a missing interest entry raises after only the user's request is dropped; otherwise the mover is cancelled and forgotten exactly when root asks or nobody else is interested; another user's cancel drops exactly that user's pair from both maps and then raises exactly when one of the others still interested is the anonymous user `None`; root's cancel drops the LFN's interest entry and the LFN from its own and every interested user's requests, and leaves every other LFN's requests as they were |
| FileManager.Withdraw | src/python/fm/core/FileManager.py:279-308 | past its checks, `cancel` drops the user's interest; the mover is cancelled and forgotten exactly when root asks or nobody else is interested; another user's cancel drops exactly that pair from both maps and raises exactly when the anonymous user `None` is among those still interested; root's cancel drops the interest entry and the LFN from every interested user's requests |
| FileManager.FailLfn | src/python/fm/core/FileManager.py:228-239 | `_fail_lfn` forgets the mover; it raises exactly when the mover or the interest entry is missing, and then leaves the user maps alone; otherwise it drops the interest entry and removes the LFN from exactly the interested users' requests; other LFNs and every other field are untouched |
| FileManager.StatusOf | src/python/fm/core/FileManager.py:203-226 | a failure record answers first; an untracked LFN gets the not-requested message; a mover that raises gives the internal-error message; a failure status is recorded and then `_fail_lfn` runs: the mover is forgotten, the interest entry goes and no interested user still requests the LFN, other LFNs are untouched, and the reply is the status, or the internal-error message when the interest entry was missing |
| FileManager.AddUserRequestKeepsLink | src/python/fm/core/FileManager.py:241-247 | `_add_user_request` keeps the two user maps describing the same relation |
| FileManager.RegisterKeepsInv | src/python/fm/core/FileManager.py:256-260 | tracking a new mover keeps the invariant |
| FileManager.RequestKeepsInv | src/python/fm/core/FileManager.py:249-265 | `request` keeps the invariant: the user maps agree, every tracked LFN has an interest entry, and no LFN is both tracked and failed |
| FileManager.NewRequestKeepsInv | src/python/fm/core/FileManager.py:255-261 | the branch that creates a mover keeps the invariant |
| FileManager.RootCancelLink | src/python/fm/core/FileManager.py:279-294 | root's cancel keeps the two user maps in agreement |
| FileManager.UserCancelLink | src/python/fm/core/FileManager.py:279-287 | another user's cancel keeps the two user maps in agreement |
| FileManager.CancelKeepsInv | src/python/fm/core/FileManager.py:267-310 | `cancel` keeps the invariant |
| FileManager.StatusKeepsInv | src/python/fm/core/FileManager.py:203-226 | `status` keeps the invariant, including when it fails an LFN |
| FileManager.InvAvoidsInternalError | src/python/fm/core/FileManager.py:228-239 | under the invariant `_fail_lfn` always finds the interest entry, so a mover that answered never yields the internal-error message |
| FileManager.InvCancelNeverMissesUsers | src/python/fm/core/FileManager.py:283 | under the invariant `cancel` always finds the interest entry |
| FileManager.RequestThenCancel | src/python/fm/core/FileManager.py:249-304 | a user's request followed by that user's cancel, with nobody else interested, cancels exactly the mover the request created |
| FileManager.Configure | src/python/fm/core/FileManager.py:181-196 | a second `configure` does nothing; the base directory defaults to /var/www/html; `max_size_gb` (default 50) that does not parse as a number is the reported error; the manager is configured exactly when both numbers parse, and then its quota is that many GiB and its empty, non-draining pool has `max_movers` (default 5) workers, none when negative; the request maps are untouched |
| FileManager.ConfigureDefaults | src/python/fm/core/FileManager.py:187-192 | with no options set, `configure` succeeds with a 50 GiB quota and five movers |
| FileManager.StripSlashes | src/python/fm/core/FileManager.py:199-200 | the result is a suffix without a leading slash, and only slashes were removed |
| FileManager.GetPfn | src/python/fm/core/FileManager.py:198-201 | `getPfn` starts with the base and ends with the LFN without its leading slashes |
| FileManager.GetPfnIgnoresLeadingSlashes | src/python/fm/core/FileManager.py:199-200 | an extra leading slash does not change `getPfn` |
| FileManager.GetPfnIsMoverDestination | src/python/fm/core/FileManager.py:198-201 | for a valid LFN, `getPfn` is exactly where the mover stores the file when its destination is the base |
| Eviction.SortByAtime | src/python/fm/core/FileManager.py:334 | the sort by access time is a permutation in ascending access-time order |
| Eviction.SortIsStable | src/python/fm/core/FileManager.py:334 | the sort is stable: files with equal access times keep their order |
| Eviction.TotalSizeOfSort | src/python/fm/core/FileManager.py:332-334 | sorting keeps the total size |
| Eviction.UnderPath | src/python/fm/core/FileManager.py:340-341 | only paths under the clean path are unlinked |
| Eviction.CoverPrefix | src/python/fm/core/FileManager.py:335-342 | the deletion loop pops the shortest prefix whose sizes reach the excess, and runs out exactly when the whole list is too small |
| Eviction.Evict | src/python/fm/core/FileManager.py:333-342 | nothing goes within the quota; otherwise the shortest oldest-first prefix covering the excess goes; the loop runs out exactly when the quota is negative |
| FileMover.NewWrapper | src/python/fm/core/FileMover.py:129-139 | a new wrapper has no pid, no final status and no kill flag |
| FileMover.WrapperStatus | src/python/fm/core/FileMover.py:187-248 | a recorded final status is returned unchanged; without a pid the answer is "process not started"; a running process reports code 2 with the progress text; an exit records DONE for 0 and TRANSFER_FAILED with the code otherwise; it raises exactly when a started process without a final status cannot be read, and then changes nothing |
| FileMover.WrapperStatusSticky | src/python/fm/core/FileMover.py:232-246 | once DONE or TRANSFER_FAILED is reported, every later call repeats it whatever the process does |
| FileMover.WrapperStatusCodes | src/python/fm/core/FileMover.py:234-246 | without a final status, an answer that does not raise has code 1, 2, 0 or 5; DONE exactly for a started process that exited with 0 |
| FileMover.WrapperCancel | src/python/fm/core/FileMover.py:250-281 | cancel raises the kill flag and forgets the pid; source, destination and final status stay |
| FileMover.WrapperCancelTwice | src/python/fm/core/FileMover.py:268-279 | a second cancel changes nothing |
| FileMover.TransferCommand | src/python/fm/core/FileMover.py:163-165 | the configured transfer command, or the srmcp default when none is configured |
| FileMover.Argv | src/python/fm/core/FileMover.py:166-180 | spawning fails on a blank command; otherwise the arguments are the process-group wrapper, the program name, every word of the command, then source and destination |
| FileMover.CanBuildArgvIff | src/python/fm/core/FileMover.py:166-168 | the arguments can be built exactly when the command has a word |
| FileMover.ArgvOfJoinedWords | src/python/fm/core/FileMover.py:166-168 | for a command of single-space-separated words, the middle arguments are exactly those words |
| FileMover.PollStep | src/python/fm/core/FileMover.py:147-153 | a status read that does not raise gives the new wrapper and code; an exception during a poll, the status read's included, cancels the wrapper and keeps the previous status; a cancel from another thread raises the kill flag |
| FileMover.RunLoop | src/python/fm/core/FileMover.py:144-153 | the loop takes at most one turn per observation and, when it stops early, the status is no longer 2 or the kill flag is up |
| FileMover.LaunchLoop | src/python/fm/core/FileMover.py:141-155 | `launch`'s loop computes the reference loop; it stops early only when the status is no longer 2 or the kill flag is up |
| FileMover.KillFlagStopsLoop | src/python/fm/core/FileMover.py:146 | with the kill flag up the loop takes no turn |
| FileMover.CancelEndsLoop | src/python/fm/core/FileMover.py:146-153 | a cancel during the sleep ends the loop after that turn |
| FileMover.ExitEndsLoop | src/python/fm/core/FileMover.py:146-151 | a zero exit ends the loop after one turn with DONE |
| FileMover.UnreadablePollCancels | src/python/fm/core/FileMover.py:146-153 | a status read that raises inside the loop cancels the wrapper and ends the loop after that turn, the status still 2 |
| FileMover.NewMover | src/python/fm/core/FileMover.py:23-34 | a new mover has no LFN, no wrapper, is not cached and has tried no site |
| FileMover.DropFirst | src/python/fm/core/FileMover.py:70 | Python's `s[1:]`, empty for an empty text |
| FileMover.FileUrl | src/python/fm/core/FileMover.py:88 | the destination is `file:///` followed by the local path |
| FileMover.AddExcluded | src/python/fm/core/FileMover.py:43-44 | after recording, the site is tried; nothing else is added; a known site changes nothing and a new one goes at the end |
| FileMover.AddExcludedNoRepeats | src/python/fm/core/FileMover.py:43-44 | recording a site keeps the tried list free of repeats |
| FileMover.MoverRequest | src/python/fm/core/FileMover.py:36-47 | `request` remembers the LFN and destination; a file already present needs no lookup; a lookup exception is passed on; otherwise the source is taken and the site recorded, and an empty site raises after being recorded |
| FileMover.MoverStart | src/python/fm/core/FileMover.py:75-90 | `start` without an LFN raises; with a wrapper present it raises; a present file marks the mover cached; otherwise a wrapper for `file:///<dest>/<lfn>` is created, and it gets a pid exactly when the copy could be spawned |
| FileMover.MoverCancel | src/python/fm/core/FileMover.py:92-100 | cancel is forwarded to the wrapper when there is one and is a no-op otherwise |
| FileMover.MoverStatus | src/python/fm/core/FileMover.py:102-124 | a cached mover reports DONE and clears the tried sites; without a wrapper the report is "not launched"; a wrapper status that raises escapes with the mover unchanged; otherwise the wrapper's status is passed on unless it is TRANSFER_FAILED; then a raising re-lookup raises its error, and a successful one records the new source and site and raises what `start` raises |
| FileMover.WrapperLaunch | src/python/fm/core/FileMover.py:141-155 | `launch` after the spawn reads the status once and raises, changing nothing, exactly when that read raises; otherwise it polls: a process already gone gives DONE or TRANSFER_FAILED with no turn, an unstarted one gives "not started" with no turn, and the loop stops early only when the status is no longer 2 or the kill flag is up; the wrapper keeps its source and destination |
| FileMover.LaunchStored | src/python/fm/core/FileMover.py:86-89 | `start` stores a wrapper for `file:///<dest>/<lfn>` and runs `launch` on it: the first read raises exactly for a started process whose state cannot be read; an exit already seen gives DONE or TRANSFER_FAILED with no turn; an unstarted process gives "not started" with no turn |
| FileMover.MoverStartLaunch | src/python/fm/core/FileMover.py:75-155 | `start` reaches `launch` exactly for a requested, unlaunched, uncached file with a source and a spawned process; when the first status read of a started process raises, `start` raises with `start`'s mover; otherwise `launch` polls: a process already gone gives DONE or TRANSFER_FAILED with no turn, and the loop stops early only when the status is no longer 2 or the kill flag is up; the outcome and the other fields are those of `start` |
| FileMover.FailedTransferRetryRaises | src/python/fm/core/FileMover.py:109-121 | after a failed transfer the retry records a new source and site but always raises "already launched", because the failed wrapper is never cleared |
| FileMover.CachedStatusStable | src/python/fm/core/FileMover.py:104-106 | while cached, `status` keeps answering DONE with an empty tried list |
| FileMover.ExcludeSitesNoRepeats | src/python/fm/core/FileMover.py:43-119 | no mover operation puts a site twice in the tried list |
| FileMover.CachedFileNeedsNoTransfer | src/python/fm/core/FileMover.py:41-86 | a request for a file already on disk needs no lookup, and `start` marks it cached without creating a wrapper |
| Status.IsRunning | src/python/fm/core/Status.py:51-54 | `isRunning` raises for every code |
| Status.CodesDistinctAndDense | src/python/fm/core/Status.py:35-49 | the thirteen status codes are distinct and cover exactly -1 through 11 |
| Status.FailureCodes | src/python/fm/core/Status.py:56-61 | only FAILED counts as a failure; TRANSFER_FAILED does not |
| ThreadPool.NewPool | src/python/fm/core/ThreadPool.py:10-25 | a new pool has an empty queue, nothing running, neither flag set, and the requested number of workers |
| ThreadPool.Evaluate | src/python/fm/core/ThreadPool.py:27-29 | `evaluate` returns the head of the queue and the queue without it |
| ThreadPool.Queue | src/python/fm/core/ThreadPool.py:31-38 | `queue` raises exactly while the pool drains; otherwise the object joins the tail and nothing else changes |
| ThreadPool.Kill | src/python/fm/core/ThreadPool.py:76-77 | `kill` sets the kill flag and changes nothing else |
| ThreadPool.Drain | src/python/fm/core/ThreadPool.py:79-80 | `drain` sets the graceful flag and changes nothing else |
| ThreadPool.Take | src/python/fm/core/ThreadPool.py:43-62 | a worker leaves on the kill flag before anything else; with an empty queue it leaves when draining and waits otherwise; else it pops the head and records it as running |
| ThreadPool.Finish | src/python/fm/core/ThreadPool.py:65-73 | after `start()` returns or raises the worker's entry leaves the running map and nothing else changes |
| ThreadPool.IterationSurvivesExceptions | src/python/fm/core/ThreadPool.py:60-73 | an iteration whose `start()` raises leaves the pool as one that returns: head consumed, running map restored |
| ThreadPool.ServeIsFifo | src/python/fm/core/ThreadPool.py:27-29 | a worker's first n iterations take exactly the first n queued objects |
| ThreadPool.QueueAllAppends | src/python/fm/core/ThreadPool.py:31-38 | outside drain mode queueing several objects appends them in submission order |
| ThreadPool.SubmissionOrder | src/python/fm/core/ThreadPool.py:31-62 | objects queued on an idle pool are served in submission order |
| ThreadPool.KillStopsWorkers | src/python/fm/core/ThreadPool.py:44-54 | after `kill` a worker exits at its next check even with work queued, and the queue is untouched |
| ThreadPool.DrainServesBacklog | src/python/fm/core/ThreadPool.py:47-62 | after `drain` the backlog queued before it is still served in full, in order |
| ThreadPool.DrainedWorkerExits | src/python/fm/core/ThreadPool.py:55-59 | a draining worker with an empty queue exits |
| MappingManager.Empty | src/python/fm/core/MappingManager.py:22-31 | a new manager holds nothing and satisfies the reference-count invariant |
| MappingManager.Store | src/python/fm/core/MappingManager.py:75-83 | the success block counts one reference, stores the value and deletes the marker, raising KeyError when the marker is already gone |
| MappingManager.Acquire | src/python/fm/core/MappingManager.py:33-118 | `acquireValue` calls `_lookup` at most `can_recurse + 1` times; it waits exactly when the key is unmapped and a lookup is in flight; it keeps the invariant; an acquired value is the mapped one; a re-raised lookup failure leaves the cache unchanged |
| MappingManager.Release | src/python/fm/core/MappingManager.py:121-142 | `releaseKey` always calls `_release`; an unheld key changes nothing else; other keys are untouched; the invariant is kept |
| MappingManager.AcquireHit | src/python/fm/core/MappingManager.py:43-46 | a hit returns the cached value with one more reference and no `_lookup` call |
| MappingManager.AcquireFirstTry | src/python/fm/core/MappingManager.py:55-97 | a first lookup that succeeds stores the value with one reference and clears the marker |
| MappingManager.AcquireAllFail | src/python/fm/core/MappingManager.py:58-100 | when every attempt fails `_lookup` runs `can_recurse + 1` times, the exception is re-raised and the cache is unchanged |
| MappingManager.AcquireRetrySucceeds | src/python/fm/core/MappingManager.py:61-83 | a failed first attempt followed by a successful retry stores the value with two references and raises KeyError from the outer frame's marker deletion |
| MappingManager.ReleaseUnheld | src/python/fm/core/MappingManager.py:138-142 | releasing an unheld key changes nothing but the hook log |
| MappingManager.ReleaseHeld | src/python/fm/core/MappingManager.py:132-137 | releasing a held key drops one reference; the last one forgets the key |
| MappingManager.AcquireThenRelease | src/python/fm/core/MappingManager.py:43-137 | acquiring a held key then releasing it restores the cache |
| MappingManager.FirstTryThenRelease | src/python/fm/core/MappingManager.py:55-137 | a value stored by a first-try lookup is forgotten by one release |
| FileLookup.PickSite | src/python/fm/core/FileLookup.py:141-159 | `pickSite` succeeds exactly when some replica is neither excluded nor rejected by some priority's pattern; it returns the first such replica under the smallest such priority; otherwise it raises the no-match error |
| FileLookup.PickedByUnique | src/python/fm/core/FileLookup.py:141-159 | at most one site satisfies the description of `pickSite`'s choice |
| FileLookup.LeadingDigits | src/python/fm/core/FileLookup.py:104 | the digit group of `priority_([0-9]+)` is the longest run of digits at that point |
| FileLookup.PriorityOfRendered | src/python/fm/core/FileLookup.py:114-117 | a rule named `priority_<n><non-digit text>` gives priority n: the match is not anchored at the end |
| FileLookup.PriorityOf | src/python/fm/core/FileLookup.py:104-117 | a rule name gives a priority exactly when it starts with `priority_` followed by a digit, and the priority is never negative |
| FileLookup.AddRule | src/python/fm/core/FileLookup.py:111-118 | every value is stripped and compiled, even a skipped one, and a bad pattern raises; a priority-named rule overwrites the priority's entry; any other rule leaves the table unchanged |
| FileLookup.ParseRules | src/python/fm/core/FileLookup.py:111-119 | the loop succeeds exactly when every value compiles |
| FileLookup.ParseRulesFirstError | src/python/fm/core/FileLookup.py:111-113 | the error reported is the first pattern that does not compile |
| FileLookup.ParseRulesKeys | src/python/fm/core/FileLookup.py:114-118 | the parsed priorities are exactly those some rule names |
| FileLookup.ParseRulesLastWins | src/python/fm/core/FileLookup.py:118 | when several rules name one priority, the last one's pattern wins |
| FileLookup.ParsePriorityRules | src/python/fm/core/FileLookup.py:101-119 | a missing or empty section raises; otherwise the result is that of the rule loop |
| FileLookup.RemoveBadSites | src/python/fm/core/FileLookup.py:129-139 | `removeBadSites` keeps exactly the sites that are not down, each as often as given, and never grows the list |
| FileLookup.RemoveBadSitesAppend | src/python/fm/core/FileLookup.py:135-139 | filtering distributes over concatenation, so the input order is kept |
| FileLookup.RemoveBadSitesIdempotent | src/python/fm/core/FileLookup.py:135-139 | filtering twice is filtering once |
| FileLookup.MaxLex | src/python/fm/core/FileLookup.py:239-240 | sorting and taking the last element yields a member that is at least every member under string order |
| FileLookup.NonT0 | src/python/fm/core/FileLookup.py:236-237 | the candidate names are exactly those without `T0_` |
| FileLookup.SdbSite | src/python/fm/core/FileLookup.py:227-241 | the loop answers "" when no storage element has a non-Tier-0 name; otherwise the largest such name of the first storage element that has one |
| FileLookup.T1Buffer | src/python/fm/core/FileLookup.py:245-247 | the Tier-1 rename appends `_Buffer` exactly when the name starts with T1 and lacks `Buffer`; the result extends the name |
| FileLookup.T1BufferIdempotent | src/python/fm/core/FileLookup.py:245-247 | renaming twice is renaming once |
| FileLookup.SiteFromSdb | src/python/fm/core/FileLookup.py:222-248 | `getSiteFromSDB` is empty exactly when the loop found nothing, extends the loop's name, and is already renamed |
| FileLookup.CacheLookup | src/python/fm/core/FileLookup.py:190-193 | a cached PFN is used exactly when it is stored under (lfn, protocol) and younger than ten seconds |
| FileLookup.StoreThenLookup | src/python/fm/core/FileLookup.py:190-219 | a PFN stored at time t is answered until ten seconds have passed; other keys are unaffected |
| FileLookup.EffectiveProtocol | src/python/fm/core/FileLookup.py:163-164 | with no protocol (None or empty) `mapLFN` uses srmv2, otherwise the given one |
| FileLookup.SeList | src/python/fm/core/FileLookup.py:204 | the storage elements are the second halves of the block/site pairs, in order |
| FileLookup.GetPfn | src/python/fm/core/FileLookup.py:179-220 | `getPFN` answers a fresh cache hit with an empty site and no change; a result it computes is the site's PhEDEx mapping, cached at `now`; a failure changes nothing; on the PhEDEx route the site `pickSite` picks is mapped and answered with it, a raising mapping raising; without that route the DBS/SiteDB fallback raises the DBS error, raises when SiteDB gives no site, and otherwise maps and answers the SiteDB site |
| FileLookup.SurlScannerSound | src/python/fm/core/FileLookup.py:256 | what the hand-written scanner accepts is in the language of `(sfn\|srm)://[a-zA-Z0-9].*.*root$` |
| FileLookup.SurlScannerComplete | src/python/fm/core/FileLookup.py:256 | everything in that language passes the scanner |
| FileLookup.SurlPatternIff | src/python/fm/core/FileLookup.py:256-257 | the scanner accepts exactly the language of the expression |
| FileLookup.Lookup | src/python/fm/core/FileLookup.py:250-274 | `_lookup` raises "Bad SURL" exactly for SURLs that match the pattern; a failed command without a gsiftp answer raises; a TURL it returns is the stripped output |
| FileLookup.SurlExamples | src/python/fm/core/FileLookup.py:256-258 | a well-formed srm SURL is refused while a gsiftp URL goes on to `lcg-getturls` |
| FileMoverService.Minify | src/python/fm/web/FileMoverService.py:67-75 | `minify` leaves no newline or tab and never lengthens the text |
| FileMoverService.ParseArgs | src/python/fm/web/FileMoverService.py:82-87 | every parameter yields at least one argument |
| FileMoverService.ParseArgsAppend | src/python/fm/web/FileMoverService.py:87 | splitting distributes over concatenation of the parameters, so their order is kept |
| FileMoverService.ParseArgsSingle | src/python/fm/web/FileMoverService.py:87 | joining one parameter's pieces with `_and_` gives the parameter back |
| FileMoverService.ParseArgsWithoutAnd | src/python/fm/web/FileMoverService.py:87 | parameters without `_and_` pass through unchanged |
| FileMoverService.SpanId | src/python/fm/web/FileMoverService.py:132-134 | the span id never contains a `/`; for an LFN without `/` it is the LFN cut at every `.root` and glued back together, that is, with each `.root` removed |
| FileMoverService.SpanIdOfPath | src/python/fm/web/FileMoverService.py:132-134 | for `dir/name` with a `/`-free name the span id is the name cut at every `.root` and glued back together: the last path segment with each `.root` removed |
| FileMoverService.SpanIdOfRootFile | src/python/fm/web/FileMoverService.py:132-134 | for `dir/stem.root` with a dot-free stem the id is the stem |
| FileMoverService.DayCheck | src/python/fm/web/FileMoverService.py:347-357 | a user is refused for the day exactly when the stored day is not today and the stored count exceeds the daily limit; otherwise the entry is dated today, its count reset on a new day, and other users are untouched |
| FileMoverService.AddLfn | src/python/fm/web/FileMoverService.py:344-371 | an invalid LFN raises; a refused day answers 0 with no change; otherwise 0 when the user already has the at-once maximum, 2 for a duplicate, and 1 with the LFN appended with status "requested"; only an added LFN changes the lists; once the day check passes, the per-day record is the checked one (reset to zero on a new day), plus one for today exactly when the LFN was added |
| FileMoverService.SameDayNeverRefused | src/python/fm/web/FileMoverService.py:349-365 | on the same day the count never blocks a request, and an added request increments it |
| FileMoverService.NewDayResetsCount | src/python/fm/web/FileMoverService.py:349-365 | on a new day a user over the daily limit is refused unchanged, and one within it restarts the count at one |
| FileMoverService.RemoveFirst | src/python/fm/web/FileMoverService.py:379-380 | `list.remove` drops exactly the first occurrence |
| FileMoverService.DelLfn | src/python/fm/web/FileMoverService.py:373-381 | `delLfn` raises for an invalid LFN or an unknown user; an absent LFN changes nothing; otherwise the first occurrence is removed and one status equal to the one at its position goes; other users are untouched; equal list lengths are kept |
| FileMoverService.AddLfnKeepsAligned | src/python/fm/web/FileMoverService.py:362-363 | `addLfn` keeps each user's two lists the same length |
| FileMoverService.DelLfnMayShiftStatuses | src/python/fm/web/FileMoverService.py:378-380 | removing the status by value drops the first equal status, which may belong to an earlier LFN |
| FileMoverService.DelLfnRemovesAt | src/python/fm/web/FileMoverService.py:376-380 | the entry left after a removal is the LFN list without the LFN and the status list without the first status equal to the LFN's |
| FileMoverService.ActiveCount | src/python/fm/web/FileMoverService.py:339-341 | the count of statuses without "Download" is at most the number of statuses |
| FileMoverService.NActiveDownloads | src/python/fm/web/FileMoverService.py:335-342 | `nActiveDownloads` raises exactly for an unknown user and otherwise counts the statuses without "Download" |
| FileMoverService.RequestedIsActive | src/python/fm/web/FileMoverService.py:363 | the status "requested" does not mention "Download" |
| FileMoverService.AddedRequestIsActive | src/python/fm/web/FileMoverService.py:340-363 | an added request counts as one more active download |
| Utils.DigitRun | src/python/fm/utils/Utils.py:23 | the `\d+` match at a position is the longest run of digits there |
| Utils.ZFill | src/python/fm/utils/Utils.py:64 | `zfill` pads with zeros on the left to the width and keeps the text as a suffix |
| Utils.RunTag | src/python/fm/utils/Utils.py:64 | the length tag is all digits, three of them for runs shorter than a thousand |
| Utils.Decor | src/python/fm/utils/Utils.py:62-64 | `decor` never shortens its input |
| Utils.Undecor | src/python/fm/utils/Utils.py:66-72 | `undecor` never lengthens its input |
| Utils.DecorRun | src/python/fm/utils/Utils.py:64 | a maximal digit run is rewritten as its three-digit length followed by the run |
| Utils.DecorOther | src/python/fm/utils/Utils.py:64 | non-digit characters are copied |
| Utils.DecorNoDigits | src/python/fm/utils/Utils.py:64 | text without digits is unchanged |
| Utils.UndecorTagged | src/python/fm/utils/Utils.py:66-72 | `undecor` drops the three leading characters of a digit run |
| Utils.UndecorDecor | src/python/fm/utils/Utils.py:62-72 | `undecor` inverts `decor` whenever every digit run is shorter than a thousand characters |
| Utils.MapSeq | src/python/fm/utils/Utils.py:82 | the list comprehension keeps the length |
| Utils.MapSeqAt | src/python/fm/utils/Utils.py:82 | element i of the mapped list is f of element i |
| Utils.SortLexSpec | src/python/fm/utils/Utils.py:77 | `sort` on strings yields an ordered permutation |
| Utils.DecoratedSortPermutes | src/python/fm/utils/Utils.py:74-82 | decorate, sort, undecorate permutes a list whenever undecorating inverts decorating on its elements |
| Utils.NatSortPermutes | src/python/fm/utils/Utils.py:84-88 | `natsort` returns a permutation of its input when no digit run reaches a thousand characters |
| Utils.NatSortOrdered | src/python/fm/utils/Utils.py:84-88 | `natsort`'s result is ordered by decorated string |
| Utils.NatSortExample | src/python/fm/utils/Utils.py:84-88 | "a2" sorts before "a10", because runs of one and two digits get the length tags 001 and 002, so `decor` gives `a0012` and `a00210` |
| Utils.FloorDiv | src/python/fm/utils/Utils.py:206 | Python 2's `/` on longs rounds towards minus infinity |
| Utils.GetPercentageDone | src/python/fm/utils/Utils.py:203-208 | when both values are numbers and the file size is not zero, the answer is the floored percentage with `.0`; otherwise it is `t/f` |
| Utils.FloorPercentBounded | src/python/fm/utils/Utils.py:206 | the floored percentage of a part of a whole lies between 0 and 100 |
| Utils.PercentageBounded | src/python/fm/utils/Utils.py:203-206 | while the transferred size is at most the file size, the percentage shown lies between 0 and 100 |
| Utils.KeepNames | src/python/fm/utils/Utils.py:46-49 | the name keeps exactly the tokens the numeric pattern does not match, in order |
| Utils.DnNameWords | src/python/fm/utils/Utils.py:42-50 | the words of `parse_dn`'s name are exactly the non-numeric tokens of the DN's last part once `CN=` is removed |
| Utils.DnNameHasNoSlash | src/python/fm/utils/Utils.py:42-50 | the name never contains a `/` |
| Utils.NewInfoCache | src/python/fm/utils/Utils.py:214-217 | a new size cache is empty and remembers today |
| Utils.GetSize | src/python/fm/utils/Utils.py:219-229 | `getSize` asks PhEDEx exactly when the day changed or the LFN is unknown; it stores and returns what it fetched; the stored day never advances; a new day empties the cache |
| Utils.SameDayRepeatIsCached | src/python/fm/utils/Utils.py:222-225 | on the cache's own day a second request for the same LFN is answered from the cache |
| Utils.StaleCacheAlwaysFetches | src/python/fm/utils/Utils.py:221-229 | once the date has moved on, every call empties the cache and asks PhEDEx again, because the stored day is never updated |
| Cleaner.Threshold | src/python/fm/tools/fm_cleaner.py:94-113 | `threshold` succeeds exactly for a value ending in `h`, `d` or `m` whose prefix `int()` accepts and is not zero, with the prefix times an hour, a day or thirty days; an empty value and an unreadable number are distinct errors |
| Cleaner.ThresholdOfRendering | src/python/fm/tools/fm_cleaner.py:94-113 | writing a non-zero count with a unit suffix and reading it back gives the count times the unit |
| Cleaner.DefaultThreshold | src/python/fm/tools/fm_cleaner.py:84-86 | the default `3m` is three 30-day months |
| Cleaner.CheckFile | src/python/fm/tools/fm_cleaner.py:20-29 | `check_file` answers the path or nothing, and the path exactly when it cannot be stat'ed or its access time plus the threshold lies before now |
| Cleaner.HardLinkDropsParent | src/python/fm/tools/fm_cleaner.py:37-38 | for `<dir>/<parent>/<name>` the hard link is `<dir>/<name>` |
| Cleaner.HardLink | src/python/fm/tools/fm_cleaner.py:37-38 | the hard link ends with the soft link's file name |
| Cleaner.SoftLinks | src/python/fm/tools/fm_cleaner.py:33-36 | the soft links visited are exactly the files of the walked directories that have no sub-directories |
| Cleaner.Select | src/python/fm/tools/fm_cleaner.py:36-54 | a path that is not a soft link raises; a hard link is selected exactly when it is a candidate (the soft link or the hard link expired) and is a regular file with at most two links, and a candidate hard link that cannot be stat'ed raises; the pool file is selected exactly when the link's target expired and is a regular file |
| Cleaner.ExpiredSoftLinkSelectsHardLink | src/python/fm/tools/fm_cleaner.py:42-50 | an expired soft link selects its hard link whatever the hard link's age, unless it has more than two links or is not a regular file |
| Cleaner.YoungLinksKeepHardLink | src/python/fm/tools/fm_cleaner.py:41-50 | a young soft link with a young hard link selects neither |
| Cleaner.YoungLinkOldHardLinkSelectsHardLink | src/python/fm/tools/fm_cleaner.py:41-50 | a young soft link whose hard link is old selects the hard link, unless it has more than two links or is not a regular file |
| Cleaner.RemovePath | src/python/fm/tools/fm_cleaner.py:66 | `os.remove` on a soft link drops exactly that link and leaves every entry alone; on any other path it drops exactly that entry and leaves the links alone |
| Cleaner.CleanOne | src/python/fm/tools/fm_cleaner.py:62-76 | a dry run changes nothing and reports each of the three paths that is a soft link or regular file at that point; a real run drops exactly the removed paths from the links, drops a removed non-link from the entries, keeps every other entry with its contents, and does remove the soft link when it is a link, the hard link when it is a regular file other than the soft link, and the pool file when it is a regular file that is not a link and is neither of the other two |
| Cleaner.Clean | src/python/fm/tools/fm_cleaner.py:56-76 | `cleaner` only ever removes entries, and when it finishes without error every path it visited was a soft link |
| Cleaner.DryRunRemovesNothing | src/python/fm/tools/fm_cleaner.py:63-64 | a dry run leaves the disk as it was and only reports |
| Cleaner.RealRunRemovesExisting | src/python/fm/tools/fm_cleaner.py:65-76 | a real run never reports and removes only paths that existed when it started |
| Cleaner.Act | src/python/fm/tools/fm_cleaner.py:62-66 | with a false condition nothing happens; with a true one a dry run reports the path and leaves the disk, and a real run removes it with `RemovePath` and records the removal |
| Cleaner.CleanStep | src/python/fm/tools/fm_cleaner.py:61-76 | one soft link's step succeeds exactly when `files` does, fails with `files`' error otherwise, and on success is `CleanOne` of `files`' selection |
| Dbs2.DbsInstances | src/python/fm/dbs/DBS2Interaction.py:20-35 | `dbsinstances` lists the four fixed instances and then local instances 1 to 10, numbered with two digits, fourteen names with no repeats |
| Dbs2.LocalInstanceShape | src/python/fm/dbs/DBS2Interaction.py:30-34 | a local instance name is the local prefix followed by its number in exactly two digits |
| Dbs2.LocalsDistinct | src/python/fm/dbs/DBS2Interaction.py:30-34 | different local numbers give different names |
| Dbs2.InstancesDistinct | src/python/fm/dbs/DBS2Interaction.py:25-35 | no name appears twice in the instance list |
| Dbs2.DbsUrl | src/python/fm/dbs/DBS2Interaction.py:116-124 | `getdbsurl` puts tier-0 instances under the tier-0 host and the others under the configured URL, and always ends in `/<instance>/servlet/DBSServlet` |
| Dbs2.InstanceOfUrl | src/python/fm/dbs/DBS2Interaction.py:116-124 | the instance is the third `/`-part from the end of its URL, so the URL determines it |
| Dbs2.ServerVersion | src/python/fm/dbs/DBS2Interaction.py:64-70 | `getDBSversion` finds no version exactly when no word of the answer mentions `server_version`; a version found holds no quote and no `=` |
| Dbs2.ChooseParser | src/python/fm/dbs/DBS2Interaction.py:72-83 | `dbsparser` raises exactly for a missing or empty version, and picks the old format exactly for versions at most `DBS_2_0_5` in string order |
| Dbs2.TenthReleaseUsesOldParser | src/python/fm/dbs/DBS2Interaction.py:80-83 | because the comparison is on strings, `DBS_2_0_10` gets the old format while `DBS_2_0_6` gets the new one |
| Dbs2.OldParserDownwardClosed | src/python/fm/dbs/DBS2Interaction.py:80-81 | every non-empty version string-below one given the old format is given it too |
| Dbs2.Condition | src/python/fm/dbs/DBS2Interaction.py:177-186 | a value with a wildcard is matched with `like`, any other with `=` |
| Dbs2.ClauseText | src/python/fm/dbs/DBS2Interaction.py:173-189 | the accumulated condition is empty exactly when no run, dataset or lumi is given |
| Dbs2.FilesQuery | src/python/fm/dbs/DBS2Interaction.py:168-196 | `getFiles` fails to build a query exactly when no run, dataset or lumi is given; a built query starts with the head and a space |
| Dbs2.ClauseTextPrefixed | src/python/fm/dbs/DBS2Interaction.py:173-189 | the accumulated text is the given conditions in order, each preceded by ` and ` |
| Dbs2.FilesQueryJoinsConditions | src/python/fm/dbs/DBS2Interaction.py:196 | cutting four characters leaves the head, a space and the conditions joined by ` and ` |
| Dbs2.DatasetPatternUsesLike | src/python/fm/dbs/DBS2Interaction.py:182-196 | a dataset with a wildcard alone gives `... where  dataset like <d>` |
| Dbs2.ScanFiles | src/python/fm/dbs/DBS2Interaction.py:200-214 | `getFiles` answers the list of the first instance with a non-empty answer, after only empty or failing ones, and an empty list exactly when every instance is empty or fails |
| Dbs2.BlockLookup | src/python/fm/dbs/DBS2Interaction.py:126-147 | `blockLookup` refuses a wildcard LFN; it answers nothing exactly when every instance answers an empty list; the first instance with a non-empty or failing answer decides: a single block is answered, a failure is raised, more than one block raises the many-blocks error |
| Dbs2.FirstBlock | src/python/fm/dbs/DBS2Interaction.py:136-147 | the instance scan answers nothing exactly when every instance is empty; the first instance that is not empty decides: one block is the answer, a failure or more than one block is the error |
| Dbs2.TwoBlocksRaise | src/python/fm/dbs/DBS2Interaction.py:141-145 | a file found in two blocks raises rather than choosing one |
| Dbs2.BlockSiteLookup | src/python/fm/dbs/DBS2Interaction.py:149-166 | `blockSiteLookup` refuses a wildcard LFN; the first instance that fails or answers a list starting with a list of columns decides: its failure is raised or its list is the answer; the answer is empty exactly when no instance does either |
| Dbs2.PairsArePassedOver | src/python/fm/dbs/DBS2Interaction.py:164 | an instance answering only a pair is skipped |
| SiteDb.RowDict | src/python/fm/core/SiteDB.py:20-25 | `rowdict` has exactly the columns that have a value at their position, the shorter of the two lists deciding |
| SiteDb.RowDictFirstWins | src/python/fm/core/SiteDB.py:23-24 | a value lands under its column unless that column appeared earlier (`setdefault`) |
| SiteDb.DuplicateColumnKeepsFirst | src/python/fm/core/SiteDB.py:23-24 | the value at a repeated column's later position is ignored |
| SiteDb.RowDicts | src/python/fm/core/SiteDB.py:33-36 | a described table gives one row dictionary per table row |
| SiteDb.Parse | src/python/fm/core/SiteDB.py:27-39 | `parser` raises exactly for a document that is not a dict; a described table gives one row per table row, and plain rows pass through unchanged |
| SiteDb.ParsedTableReadsBack | src/python/fm/core/SiteDB.py:33-36 | with distinct columns every cell can be read back from its row under its column |
| SiteDb.NamesFrom | src/python/fm/core/SiteDB.py:57-60 | building the name table fails exactly when some row lacks `alias` or `site_name`; otherwise each site holds the alias of the last row naming it, and other entries are kept |
| SiteDb.StoragePieces | src/python/fm/core/SiteDB.py:66-67 | an fqdn list gives at least one storage element name |
| SiteDb.StripAll | src/python/fm/core/SiteDB.py:66-67 | every comma-separated entry is stripped, none dropped |
| SiteDb.PutAll | src/python/fm/core/SiteDB.py:66-67 | every listed storage element maps to the site and every other entry is unchanged |
| SiteDb.ApplyRow | src/python/fm/core/SiteDB.py:64-67 | a resource row applies exactly when it has `fqdn` and `site_name` and its site is named; otherwise it raises the first missing key in reading order, or the unknown site; it maps every listed storage element to its site's alias and leaves every other entry unchanged |
| SiteDb.ApplyRows | src/python/fm/core/SiteDB.py:63-67 | the resource rows never remove an entry, and fail with the error of the first invalid row; on success each storage element holds the alias of the site of the last row listing it, and every element no row lists is unchanged |
| SiteDb.LastRowDecides | src/python/fm/core/SiteDB.py:53-67 | after a successful `init`, a storage element holds the alias the last name row gives to the site of the last resource row listing it |
| SiteDb.SiteNames | src/python/fm/core/SiteDB.py:56-60 | the name table is built exactly when the document is a dict and every row has a name and an alias; it holds exactly the named sites, each with the alias of the last row naming it |
| SiteDb.Init | src/python/fm/core/SiteDB.py:53-67 | `init` keeps every existing entry; it succeeds exactly when both documents parse and every resource row is valid; then each listed storage element holds the alias of its last listing row's site, and every other entry is unchanged |
| SiteDb.NewManager | src/python/fm/core/SiteDB.py:43-51 | the manager is built exactly when the first `init` succeeds, with the `/sitedb/data/prod/` URL, the current time and the threshold |
| SiteDb.GetName | src/python/fm/core/SiteDB.py:69-75 | `get_name` refreshes exactly for a non-empty name more than `threshold` seconds after the manager was built; it answers `None` for the empty name or an unknown one, and the stored site otherwise; only a refresh can raise |
| SiteDb.OnceStaleAlwaysRefreshes | src/python/fm/core/SiteDB.py:49-74 | since the timestamp is never renewed, once a lookup refreshes, every later lookup of a non-empty name refreshes too |
| SiteDb.FreshLookupFindsStored | src/python/fm/core/SiteDB.py:71-75 | while the mapping is fresh a stored storage element is answered without a refresh |
| Cli.TagName | src/python/fm/tools/fm_cli.py:46-49 | a tag without `_` is kept; a tag with one becomes an aggregate name without `_`, ending in `)` |
| Cli.AggregateTag | src/python/fm/tools/fm_cli.py:47-49 | the tag `f_x` reads as `f(x)` |
| Cli.AggregateTagDropsRest | src/python/fm/tools/fm_cli.py:48-49 | only the first two `_`-parts of a tag are used |
| Cli.TagNames | src/python/fm/tools/fm_cli.py:45-49 | each child of a row is named by its rewritten tag, in order |
| Cli.RowOf | src/python/fm/tools/fm_cli.py:44-50 | a row has exactly the rewritten tags of its children, and the last child's text stands under its name |
| Cli.RowsOf | src/python/fm/tools/fm_cli.py:43-51 | one row per row element, in order |
| Cli.ParseAnswer | src/python/fm/tools/fm_cli.py:35-51 | `parser` yields a row for every row element of every `results` child of the root, and nothing else |
| Cli.ResultRowsConcat | src/python/fm/tools/fm_cli.py:41-51 | the rows of a list of elements are those of its parts, in order |
| Cli.NoResultsNoRows | src/python/fm/tools/fm_cli.py:41-42 | an answer without a `results` child has no rows |
| Cli.SingleResults | src/python/fm/tools/fm_cli.py:35-51 | with one `results` child, `parser` yields one row per row element, other children ignored |
| Cli.FirstWithSites | src/python/fm/tools/fm_cli.py:66-91 | the site loop stops at the first instance whose site query has rows, after only empty ones, and finds none exactly when every instance is empty |
| Cli.SiteNames | src/python/fm/tools/fm_cli.py:98-113 | the site dictionary raises exactly when a row has no `site`; otherwise its keys are exactly the rows' sites that SiteDB names, each under that name |
| Cli.SiteNamesFrom | src/python/fm/tools/fm_cli.py:99-113 | each row adds its site when SiteDB names it and keeps what was there; no other key appears |
| Cli.NodeName | src/python/fm/tools/fm_cli.py:123-127 | the node name extends the CMS name: Tier-0 names get `_MSS`; a Tier-1 name already containing `Buffer` is kept and any other gets `_Buffer`; other names are unchanged |
| Cli.NodeNameTier1Idempotent | src/python/fm/tools/fm_cli.py:125-127 | renaming a Tier-1 node twice changes nothing more |
| Cli.DedupInto | src/python/fm/tools/fm_cli.py:135-138 | the PFN list only grows at its end, by PFNs not yet listed, holds every reported PFN and keeps its entries distinct |
| Cli.DedupKeepsFirstOrder | src/python/fm/tools/fm_cli.py:135-138 | new PFNs come in the order of their first report |
| Cli.NodePfns | src/python/fm/tools/fm_cli.py:134-143 | a node contributes only PFNs from its mapping, all of them when every item has one |
| Cli.TakeSome | src/python/fm/tools/fm_cli.py:135-143 | a node's loop takes its items' PFNs up to the first item without one, where the `KeyError` stops it |
| Cli.AllPfns | src/python/fm/tools/fm_cli.py:121-143 | a PFN is reported exactly when it is among the PFNs taken from the PhEDEx answer of some visited node |
| Cli.CollectPfns | src/python/fm/tools/fm_cli.py:121-143 | the PFN list holds exactly the PFNs the nodes report, with no repeats |
| Cli.CollectIsDedup | src/python/fm/tools/fm_cli.py:121-143 | collecting node by node is one deduplication of all reported PFNs |
| Cli.Commands | src/python/fm/tools/fm_cli.py:152-161 | two commands per PFN |
| Cli.CommandsAt | src/python/fm/tools/fm_cli.py:152-161 | the `srmcp` and `lcg-cp` commands of the `i`-th PFN come at positions `2i` and `2i+1` |
| Cli.FileName | src/python/fm/tools/fm_cli.py:153 | the file name of a PFN holds no `/` |
| Cli.FileNameOfPath | src/python/fm/tools/fm_cli.py:153 | the file name of `dir/name` is `name` |
| Cli.CommandTarget | src/python/fm/tools/fm_cli.py:155-160 | a command starts with its tool and ends with the PFN and `/tmp` with the PFN's file name |
| Cli.RunOn | src/python/fm/tools/fm_cli.py:53-161 | the run exits with "no site" exactly when no instance has sites and succeeds exactly when the site dictionary is built; it then prints an even number of commands: both copy commands of every PFN of every named site, and nothing else |
| Cli.Run | src/python/fm/tools/fm_cli.py:53-161 | over the thirteen DBS instances of the client, the run exits with "no site" exactly when none has sites, and otherwise prints both copy commands of every PFN of every named site, and nothing else |
| Cli.SiteTable | src/python/fm/tools/fm_cli.py:66-113 | there is no site exactly when every instance is empty; otherwise the result is `SiteNames` of the first instance with sites, which raises on a row without `site` and holds exactly the sites SiteDB names, under those names |
| Cli.NamedCommands | src/python/fm/tools/fm_cli.py:121-161 | when the dictionary is visited key by key, the commands are both copy commands of every PFN of every named site, and nothing else, in an even number |
| Cli.CommandsCover | src/python/fm/tools/fm_cli.py:152-161 | both commands of every listed PFN are printed, and every printed command is one of those of a listed PFN |
| Cli.RunCommandsArePerPfn | src/python/fm/tools/fm_cli.py:92-161 | a run prints the two commands of each distinct reported PFN, in first-report order |
| Cli.ValuesIn | src/python/fm/tools/fm_cli.py:122 | the nodes visited are exactly the values the site dictionary holds under the keys visited |
| Cli.ValuesInCount | src/python/fm/tools/fm_cli.py:122 | visiting every key once gives as many values as the dictionary has keys |

## Left out

- Concurrency: locks, condition waits and thread start-up are left out. Each locked region is one atomic step. The `MappingManager` branch that waits for a lookup another thread has in flight is reported as `MustWait` and not followed.
- `ThreadPool.join`, `SimpleCron` and `graceful_exit` only wait for threads, so they are left out.
- Process supervision: `os.spawnlp`, `waitpid` and the decoding of its status word are an oracle input, the process state: running, exited with a value, or unreadable when the read raises. Killing the process group is not modelled.
- `file_progress_status` reads the partial file's size. Its text is a parameter.
- Filesystem effects: `os.walk`, `unlink`, `makedirs`, `stat`, `readlink` and `FileMover._create_dest_dir` are not modelled. The cleaner receives a snapshot of the disk. `clean_dir` receives the files found under `<base>/store`.
- Soft links are followed one level deep, and link counts are taken as given.
- Network: HTTP requests to PhEDEx, DBS and SiteDB are left out. So are JSON and XML decoding, `parseDBSoutput`, the DBS parsers and the client's `eval` fallback. Their decoded answers are parameters.
- `LookupServer.configure`, `replicas()` and `mapLFN` are oracles.
- The clock is a parameter: `time.time()` becomes `now` and `strftime("%Y%m%d")` becomes `today`.
- Regular expressions are replaced by hand-written scanners. `Lfn` proves its scanner equal to the grammar of the expression. The priority patterns of `FileLookup` are an abstract type with a `matches` oracle.
- Floating point is left out. `%3.1f` turns the floored quotient into a float, and the model writes the integer followed by `.0`. The MB figure the client prints is not modelled.
- Utils.GetPercentageDone: the contract is exact only while the quotient is below 2^53 in magnitude. Above that the float conversion rounds. From 1e50 Python 2 prints an exponent form. Past the float range the conversion raises OverflowError, and the bare `except` answers `t/f`. The model writes the exact quotient in all these cases.
- Python's wider whitespace set and the trailing `L` of longs are not modelled. `Strip` and `Words` use the ASCII whitespace characters.
- Dictionary iteration order is a parameter where it matters: the client's `sitedict.values()` takes an `order` argument.
- HTML rendering, logging, configuration reading, option parsing, `main`, usage messages and verbose printing are left out. So are the client's `file.size` query and `genkey`'s md5.
- `DBS2.getfile_info` and the `dbsver` cache are left out. The cache is never filled, so every `dbsparser` call asks for the version.
- In SiteDB answers, a `desc` entry without `columns` and a document without `result` are not modelled. A decoded document is one of the `Payload` cases.
- FileManager.Configure: reads `max_size_gb` as a whole number of gigabytes, where the source uses `float`. A fractional value, an exponent form or `inf` is reported as a bad number instead of giving the quota `float` would. Surrounding whitespace is stripped for both numbers, as `float` and `int` do.
- Cleaner.Clean: does not state, for the whole run, which entries are removed. That is stated per soft link: `CleanStep` is exactly `CleanOne` applied to `Select`'s choice, and `Clean` applies `CleanStep` to the soft links from left to right.
- FileMoverService.DelLfn: the statuses after a removal are stated as a multiset. The exact list is stated by `DelLfnRemovesAt`.

=== FILE: cleaner.dfy ===
/** The clean-up tool fm/tools/fm_cleaner.py: it walks `<dir>/download`, where
    every user-visible file is a soft link `<...>/softlinks/<name>` next to a
    hard link `<...>/<name>`, and removes the soft link, the hard link and the
    pool file the soft link points to once they are older than a threshold.

    The filesystem is a snapshot passed in: the regular files with their
    access time, link count and kind, and the soft links with their targets.
    The clock is a parameter. */
module Cleaner {
  import opened Wrappers
  import opened Strings

  const ONE_HOUR: int := 60 * 60
  const ONE_DAY: int := 24 * 60 * 60
  const ONE_MONTH: int := 30 * 24 * 60 * 60

  // ---------------------------------------------------------------------------
  // The age threshold

  /** Why `threshold` raises: an empty value (`datevalue[-1]`), a number
      `int()` rejects, or a value that is not `Xh`/`Xd`/`Xm` or is zero. */
  datatype ThresholdError = EmptyValue | NotANumber | WrongFormat

  /** The seconds one unit of a suffix stands for, if it is a known suffix. */
  function UnitSeconds(c: char): Option<int> {
    if c == 'h' then Some(ONE_HOUR)
    else if c == 'd' then Some(ONE_DAY)
    else if c == 'm' then Some(ONE_MONTH)
    else None
  }

  /** Python's `int(s)`: decimal digits with an optional sign, surrounding
      whitespace ignored. */
  function PyInt(s: String): Option<int> {
    ParseInt(Strip(s))
  }

  /** `threshold`: the number of seconds `Xh`, `Xd` or `Xm` stands for. */
  function Threshold(value: String): (r: Result<int, ThresholdError>)
    ensures |value| == 0 ==> r == Err(EmptyValue)
    ensures r.Ok? <==>
      && |value| > 0
      && UnitSeconds(value[|value| - 1]).Some?
      && PyInt(value[..|value| - 1]).Some?
      && PyInt(value[..|value| - 1]).value != 0
    ensures r.Ok? ==> (r.value != 0 &&
      r.value == PyInt(value[..|value| - 1]).value * UnitSeconds(value[|value| - 1]).value)
    ensures r == Err(NotANumber) ==>
      (UnitSeconds(value[|value| - 1]).Some? && PyInt(value[..|value| - 1]).None?)
  {
    if |value| == 0 then Err(EmptyValue)
    else
      var unit := UnitSeconds(value[|value| - 1]);
      if unit.None? then Err(WrongFormat)
      else
        var n := PyInt(value[..|value| - 1]);
        if n.None? then Err(NotANumber)
        else if n.value * unit.value == 0 then Err(WrongFormat)
        else Ok(n.value * unit.value)
  }

  /** Writing a non-zero count with a known suffix and reading it back gives
      the count times the suffix's unit. */
  lemma ThresholdOfRendering(n: int, c: char)
    requires n != 0 && UnitSeconds(c).Some?
    ensures Threshold(IntToString(n) + [c]) == Ok(n * UnitSeconds(c).value)
  {
    var s := IntToString(n);
    var v := s + [c];
    assert v[..|v| - 1] == s;
    ParseIntToString(n);
    NoSpaceInNumber(n);
    StripNoSpace(s);
  }

  /** The rendering of an integer has no whitespace at either end. */
  lemma NoSpaceInNumber(n: int)
    ensures var s := IntToString(n); |s| > 0 && !IsSpace(s[0]) && !IsSpace(s[|s| - 1])
  {
    var m: nat := if n < 0 then -n else n;
    var ds := NatToString(m);
    assert IsDigit(ds[0]) && IsDigit(ds[|ds| - 1]);
  }

  lemma StripNoSpace(s: String)
    requires |s| > 0 && !IsSpace(s[0]) && !IsSpace(s[|s| - 1])
    ensures Strip(s) == s
  {
    var a, b := StripSpec(s);
  }

  /** The default `3m` is three months. */
  lemma DefaultThreshold()
    ensures Threshold("3m") == Ok(3 * ONE_MONTH)
  {
    ThresholdOfRendering(3, 'm');
    assert IntToString(3) + ['m'] == "3m";
  }

  // ---------------------------------------------------------------------------
  // Files on disk

  /** What `os.stat` and `os.path.isfile` report for a path. */
  datatype Node = Node(atime: int, nlink: nat, isFile: bool)

  /** Regular entries by path and soft links with their targets. */
  datatype Disk = Disk(nodes: map<String, Node>, links: map<String, String>)

  /** `os.stat`, following one soft link. */
  function Stat(d: Disk, p: String): Option<Node> {
    var q := if p in d.links then d.links[p] else p;
    if q in d.nodes then Some(d.nodes[q]) else None
  }

  /** `os.path.isfile`. */
  predicate IsFile(d: Disk, p: String) {
    Stat(d, p).Some? && Stat(d, p).value.isFile
  }

  /** `os.path.islink`. */
  predicate IsLink(d: Disk, p: String) {
    p in d.links
  }

  /** `check_file`: the path when it is older than the threshold or cannot be
      stat'ed (an orphan), otherwise the empty string. */
  function CheckFile(d: Disk, p: String, now: int, thr: int): (r: String)
    ensures r == p || r == []
    ensures |p| > 0 ==> (r == p <==> (Stat(d, p).None? || now - (Stat(d, p).value.atime + thr) > 0))
  {
    match Stat(d, p)
    case None => p
    case Some(n) => if now - (n.atime + thr) > 0 then p else []
  }

  // ---------------------------------------------------------------------------
  // Paths

  /** The hard link of a soft link: the path with its parent directory
      removed, `'/'.join(sarr[:-2])` joined with the base name. */
  function HardLink(sfile: String): (r: String)
    ensures EndsWith(r, Last(Split(sfile, '/')))
  {
    var parts := Split(sfile, '/');
    var keep := if |parts| >= 2 then |parts| - 2 else 0;
    PathJoin(Join("/", parts[..keep]), Last(parts))
  }

  /** For `<dir>/softlinks/<name>` the hard link is `<dir>/<name>`: the
      `softlinks` component (any parent directory) is dropped. */
  lemma HardLinkDropsParent(dir: String, parent: String, name: String)
    requires '/' !in parent && '/' !in name
    ensures HardLink(dir + "/" + parent + "/" + name) == PathJoin(dir, name)
  {
    var s := dir + "/" + parent + "/" + name;
    assert s == dir + ['/'] + (parent + ['/'] + name);
    SplitAround(dir, '/', parent + ['/'] + name);
    SplitAround(parent, '/', name);
    SplitWithoutSeparator(parent, '/');
    SplitWithoutSeparator(name, '/');
    var parts := Split(s, '/');
    assert parts == Split(dir, '/') + [parent, name];
    assert parts[..|parts| - 2] == Split(dir, '/');
    JoinSplitOn(dir, "/");
  }

  /** One entry of `os.walk`. */
  datatype WalkEntry = WalkEntry(dirpath: String, dirnames: seq<String>, filenames: seq<String>)

  /** `p` is a file of a directory the walk reports without sub-directories. */
  ghost predicate InLeafDir(walk: seq<WalkEntry>, p: String) {
    exists i, j :: 0 <= i < |walk| && |walk[i].dirnames| == 0 && 0 <= j < |walk[i].filenames|
      && p == PathJoin(walk[i].dirpath, walk[i].filenames[j])
  }

  /** The soft links `files` visits: every file of every directory without
      sub-directories, in walk order. */
  function SoftLinks(walk: seq<WalkEntry>): (r: seq<String>)
    ensures forall p :: p in r <==> InLeafDir(walk, p)
    decreases |walk|
  {
    if |walk| == 0 then []
    else
      var e := walk[0];
      var here := if |e.dirnames| == 0 then JoinAll(e.dirpath, e.filenames) else [];
      var rest := SoftLinks(walk[1..]);
      forall p | p in rest ensures InLeafDir(walk, p) {
        var i, j :| 0 <= i < |walk[1..]| && |walk[1..][i].dirnames| == 0 && 0 <= j < |walk[1..][i].filenames|
          && p == PathJoin(walk[1..][i].dirpath, walk[1..][i].filenames[j]);
        assert walk[1..][i] == walk[i + 1];
      }
      forall p | InLeafDir(walk, p) ensures p in here + rest {
        var i, j :| 0 <= i < |walk| && |walk[i].dirnames| == 0
          && 0 <= j < |walk[i].filenames| && p == PathJoin(walk[i].dirpath, walk[i].filenames[j]);
        if i > 0 {
          assert walk[1..][i - 1] == walk[i];
          assert InLeafDir(walk[1..], p);
        } else {
          assert here[j] == p;
        }
      }
      here + rest
  }

  /** Every name joined to the directory, in order. */
  function JoinAll(dir: String, names: seq<String>): (r: seq<String>)
    ensures |r| == |names| && forall j :: 0 <= j < |names| ==> r[j] == PathJoin(dir, names[j])
    decreases |names|
  {
    if |names| == 0 then [] else [PathJoin(dir, names[0])] + JoinAll(dir, names[1..])
  }

  // ---------------------------------------------------------------------------
  // Selection

  /** Why `files` stops: `os.readlink` on something that is not a soft link,
      or `os.stat` on a selected hard link that is gone. */
  datatype CleanError = NotALink(path: String) | HardLinkMissing(path: String)

  /** The three paths `files` yields for one soft link; an empty string means
      "keep". */
  datatype Selection = Selection(soft: String, hard: String, main: String)

  /** The hard link is looked at: its soft link expired, or it expired
      itself. */
  predicate HardCandidate(d: Disk, sfile: String, now: int, thr: int) {
    HardLink(sfile) != [] && (CheckFile(d, sfile, now, thr) != [] || CheckFile(d, HardLink(sfile), now, thr) != [])
  }

  /** The body of the loop in `files` for one soft link. The hard link is
      selected when it is looked at and is a regular file with at most two
      links; looking at one that is gone raises. The link target is selected
      when it expired and is a regular file. */
  function Select(d: Disk, sfile: String, now: int, thr: int): (r: Result<Selection, CleanError>)
    ensures sfile !in d.links <==> r == Err(NotALink(sfile))
    ensures r.Err? ==> r.error == NotALink(sfile) || r.error == HardLinkMissing(HardLink(sfile))
    ensures r == Err(HardLinkMissing(HardLink(sfile))) <==>
      sfile in d.links && HardCandidate(d, sfile, now, thr) && Stat(d, HardLink(sfile)).None?
    ensures r.Ok? ==> r.value.soft == CheckFile(d, sfile, now, thr)
    ensures r.Ok? && r.value.hard != [] ==>
      && r.value.hard == HardLink(sfile)
      && IsFile(d, r.value.hard) && Stat(d, r.value.hard).value.nlink <= 2
    ensures r.Ok? ==> (r.value.hard != [] <==>
      HardCandidate(d, sfile, now, thr) && IsFile(d, HardLink(sfile)) && Stat(d, HardLink(sfile)).value.nlink <= 2)
    ensures r.Ok? && r.value.main != [] ==> r.value.main == d.links[sfile] && IsFile(d, r.value.main)
    ensures r.Ok? ==> (r.value.main != [] <==>
      CheckFile(d, d.links[sfile], now, thr) != [] && IsFile(d, d.links[sfile]))
  {
    if sfile !in d.links then Err(NotALink(sfile))
    else
      var hfile := HardLink(sfile);
      var mfile := d.links[sfile];
      var soft := CheckFile(d, sfile, now, thr);
      var hard := if soft != [] then hfile else CheckFile(d, hfile, now, thr);
      if hard != [] && Stat(d, hard).None? then Err(HardLinkMissing(hard))
      else
        var hard' := if hard != [] && (Stat(d, hard).value.nlink > 2 || !IsFile(d, hard)) then [] else hard;
        var main := CheckFile(d, mfile, now, thr);
        var main' := if main != [] && !IsFile(d, main) then [] else main;
        Ok(Selection(soft, hard', main'))
  }

  /** An expired soft link takes its hard link along without looking at the
      hard link's age; only a link count above 2 or a non-regular file
      saves it. */
  lemma ExpiredSoftLinkSelectsHardLink(d: Disk, sfile: String, now: int, thr: int)
    requires sfile in d.links && |sfile| > 0
    requires CheckFile(d, sfile, now, thr) != []
    requires Stat(d, HardLink(sfile)).Some?
    ensures Select(d, sfile, now, thr).Ok?
    ensures var n := Stat(d, HardLink(sfile)).value;
      Select(d, sfile, now, thr).value.hard ==
        (if n.nlink > 2 || !n.isFile then [] else HardLink(sfile))
  {
  }

  /** A soft link that is still young keeps its hard link unless the hard
      link is old itself. */
  lemma YoungLinksKeepHardLink(d: Disk, sfile: String, now: int, thr: int)
    requires sfile in d.links && |sfile| > 0
    requires CheckFile(d, sfile, now, thr) == []
    requires Stat(d, HardLink(sfile)).Some? && now - (Stat(d, HardLink(sfile)).value.atime + thr) <= 0
    ensures Select(d, sfile, now, thr) == Ok(Selection([], [], Select(d, sfile, now, thr).value.main))
  {
  }

  /** A young soft link whose hard link is old selects the hard link, unless
      it has more than two links or is not a regular file. */
  lemma YoungLinkOldHardLinkSelectsHardLink(d: Disk, sfile: String, now: int, thr: int)
    requires sfile in d.links && |sfile| > 0
    requires CheckFile(d, sfile, now, thr) == []
    requires Stat(d, HardLink(sfile)).Some? && now - (Stat(d, HardLink(sfile)).value.atime + thr) > 0
    ensures Select(d, sfile, now, thr).Ok?
    ensures var n := Stat(d, HardLink(sfile)).value;
      Select(d, sfile, now, thr).value.hard ==
        (if n.nlink > 2 || !n.isFile then [] else HardLink(sfile))
  {
  }

  // ---------------------------------------------------------------------------
  // Removal

  /** What `cleaner` does with one path: delete it, or print it in a dry run. */
  datatype Action = Remove(path: String) | Report(path: String)

  /** `os.remove`: a soft link goes, or else the entry itself. */
  function RemovePath(d: Disk, p: String): (r: Disk)
    ensures !IsLink(r, p)
    ensures p !in d.links ==> p !in r.nodes
    ensures r.links == d.links - {p}
    ensures p in d.links ==> r.nodes == d.nodes
    ensures p !in d.links ==> r.nodes == d.nodes - {p}
  {
    if p in d.links then d.(links := d.links - {p}) else d.(nodes := d.nodes - {p})
  }

  /** Deletes (or reports) one path when the condition holds. */
  function Act(d: Disk, p: String, cond: bool, dryrun: bool): (r: (Disk, seq<Action>))
    ensures r.0.nodes.Keys <= d.nodes.Keys && r.0.links.Keys <= d.links.Keys
    ensures forall a :: a in r.1 ==> a.path == p && cond && (a.Report? <==> dryrun)
    ensures !cond ==> r == (d, [])
    ensures cond && dryrun ==> r == (d, [Report(p)])
    ensures cond && !dryrun ==> r == (RemovePath(d, p), [Remove(p)])
  {
    if !cond then (d, [])
    else if dryrun then (d, [Report(p)])
    else (RemovePath(d, p), [Remove(p)])
  }

  /** The body of `cleaner` for one selection: the soft link goes if it is a
      link, the hard link and the pool file if they are regular files. */
  function CleanOne(d: Disk, s: Selection, dryrun: bool): (r: (Disk, seq<Action>))
    ensures dryrun ==> r.0 == d
    ensures r.0.nodes.Keys <= d.nodes.Keys && r.0.links.Keys <= d.links.Keys
    ensures forall a :: a in r.1 ==> a.path in [s.soft, s.hard, s.main] && (a.Report? <==> dryrun)
    ensures forall a :: a in r.1 ==> a.path in d.links || a.path in d.nodes
    ensures dryrun ==> forall a :: a in r.1 ==> IsLink(d, a.path) || IsFile(d, a.path)
    ensures dryrun ==>
      && (IsLink(d, s.soft) ==> Report(s.soft) in r.1)
      && (IsFile(d, s.hard) ==> Report(s.hard) in r.1)
      && (IsFile(d, s.main) ==> Report(s.main) in r.1)
    ensures !dryrun ==> r.0.links == d.links - Paths(r.1)
    ensures !dryrun ==> forall q :: q in r.0.nodes ==> q in d.nodes && r.0.nodes[q] == d.nodes[q]
    ensures !dryrun ==> forall q :: q in d.nodes && q !in Paths(r.1) ==> q in r.0.nodes
    ensures !dryrun ==> forall q :: q in Paths(r.1) && q !in d.links ==> q !in r.0.nodes
    ensures !dryrun && IsLink(d, s.soft) ==> s.soft in Paths(r.1)
    ensures !dryrun && s.hard != s.soft && IsFile(d, s.hard) ==> s.hard in Paths(r.1)
    ensures (!dryrun && s.main != s.soft && s.main != s.hard && s.main !in d.links &&
             IsFile(d, s.main)) ==> s.main in Paths(r.1)
  {
    StepsShape(d, s, dryrun);
    StepsDry(d, s);
    StepsReal(d, s);
    Steps(d, s, dryrun)
  }

  /** The three `if` blocks of `cleaner`'s loop body, in order. */
  function Steps(d: Disk, s: Selection, dryrun: bool): (Disk, seq<Action>)
  {
    var (d1, a1) := Act(d, s.soft, IsLink(d, s.soft), dryrun);
    var (d2, a2) := Act(d1, s.hard, IsFile(d1, s.hard), dryrun);
    var (d3, a3) := Act(d2, s.main, IsFile(d2, s.main), dryrun);
    (d3, a1 + a2 + a3)
  }

  /** The paths the actions name. */
  function Paths(acts: seq<Action>): set<String> {
    set a | a in acts :: a.path
  }

  lemma PathsConcat(a1: seq<Action>, a2: seq<Action>, a3: seq<Action>)
    ensures Paths(a1 + a2 + a3) == Paths(a1) + Paths(a2) + Paths(a3)
    ensures forall a :: a in a1 + a2 + a3 <==> a in a1 || a in a2 || a in a3
  {
    assert forall a :: a in a1 + a2 + a3 <==> a in a1 || a in a2 || a in a3;
  }

  /** One real removal step: the links lose exactly the named path, the
      surviving entries keep their contents, and a named path that was not
      a link has left the entries. */
  predicate RemovedBy(d: Disk, d': Disk, acts: seq<Action>)
  {
    && d'.links == d.links - Paths(acts)
    && (forall q :: q in d'.nodes ==> q in d.nodes && d'.nodes[q] == d.nodes[q])
    && (forall q :: q in d.nodes && q !in Paths(acts) ==> q in d'.nodes)
    && (forall q :: q in Paths(acts) && q !in d.links ==> q !in d'.nodes)
  }

  lemma ActReal(d: Disk, p: String, cond: bool)
    ensures RemovedBy(d, Act(d, p, cond, false).0, Act(d, p, cond, false).1)
    ensures cond <==> p in Paths(Act(d, p, cond, false).1)
    ensures Paths(Act(d, p, cond, false).1) <= {p}
  {
    var acts := Act(d, p, cond, false).1;
    if cond {
      assert Remove(p) in acts;
      assert Paths(acts) == {p};
    } else {
      assert Paths(acts) == {};
    }
  }

  lemma RemovedByChain(d: Disk, d1: Disk, d2: Disk, d3: Disk, a1: seq<Action>, a2: seq<Action>, a3: seq<Action>)
    requires RemovedBy(d, d1, a1) && RemovedBy(d1, d2, a2) && RemovedBy(d2, d3, a3)
    ensures RemovedBy(d, d3, a1 + a2 + a3)
  {
    PathsConcat(a1, a2, a3);
  }

  lemma StepsReal(d: Disk, s: Selection)
    ensures RemovedBy(d, Steps(d, s, false).0, Steps(d, s, false).1)
    ensures IsLink(d, s.soft) ==> s.soft in Paths(Steps(d, s, false).1)
    ensures s.hard != s.soft && IsFile(d, s.hard) ==> s.hard in Paths(Steps(d, s, false).1)
    ensures (s.main != s.soft && s.main != s.hard && s.main !in d.links &&
             IsFile(d, s.main)) ==> s.main in Paths(Steps(d, s, false).1)
  {
    var (d1, a1) := Act(d, s.soft, IsLink(d, s.soft), false);
    var (d2, a2) := Act(d1, s.hard, IsFile(d1, s.hard), false);
    var (d3, a3) := Act(d2, s.main, IsFile(d2, s.main), false);
    ActReal(d, s.soft, IsLink(d, s.soft));
    ActReal(d1, s.hard, IsFile(d1, s.hard));
    ActReal(d2, s.main, IsFile(d2, s.main));
    RemovedByChain(d, d1, d2, d3, a1, a2, a3);
    PathsConcat(a1, a2, a3);
    if s.hard != s.soft {
      LinkRemovalKeepsFiles(d, s.soft, s.hard);
    }
    if s.main != s.soft && s.main != s.hard && s.main !in d.links && IsFile(d, s.main) {
      LinkRemovalKeepsFiles(d, s.soft, s.main);
      StatAfterRemoval(d1, d2, a2, s.main);
    }
  }

  lemma StepsShape(d: Disk, s: Selection, dryrun: bool)
    ensures var r := Steps(d, s, dryrun);
      && r.0.nodes.Keys <= d.nodes.Keys && r.0.links.Keys <= d.links.Keys
      && (forall a :: a in r.1 ==> a.path in [s.soft, s.hard, s.main] && (a.Report? <==> dryrun))
      && (forall a :: a in r.1 ==> a.path in d.links || a.path in d.nodes)
  {
    var (d1, a1) := Act(d, s.soft, IsLink(d, s.soft), dryrun);
    var (d2, a2) := Act(d1, s.hard, IsFile(d1, s.hard), dryrun);
    var (d3, a3) := Act(d2, s.main, IsFile(d2, s.main), dryrun);
    PathsConcat(a1, a2, a3);
  }

  /** Removing a soft link leaves every other path's `isfile` as it was. */
  lemma LinkRemovalKeepsFiles(d: Disk, p: String, q: String)
    requires q != p
    ensures IsFile(Act(d, p, IsLink(d, p), false).0, q) == IsFile(d, q)
  {
  }

  /** A regular file that is not one of the removed paths (and, if it is a
      link, whose target survived) is still a regular file. */
  lemma StatAfterRemoval(d: Disk, d': Disk, acts: seq<Action>, p: String)
    requires RemovedBy(d, d', acts)
    requires p !in Paths(acts) && p !in d.links && IsFile(d, p)
    ensures IsFile(d', p)
  {
  }

  lemma StepsDry(d: Disk, s: Selection)
    ensures Steps(d, s, true).0 == d
    ensures forall a :: a in Steps(d, s, true).1 ==> IsLink(d, a.path) || IsFile(d, a.path)
    ensures IsLink(d, s.soft) ==> Report(s.soft) in Steps(d, s, true).1
    ensures IsFile(d, s.hard) ==> Report(s.hard) in Steps(d, s, true).1
    ensures IsFile(d, s.main) ==> Report(s.main) in Steps(d, s, true).1
  {
    var (d1, a1) := Act(d, s.soft, IsLink(d, s.soft), true);
    var (d2, a2) := Act(d1, s.hard, IsFile(d1, s.hard), true);
    var (d3, a3) := Act(d2, s.main, IsFile(d2, s.main), true);
    PathsConcat(a1, a2, a3);
  }

  /** One soft link: its selection, then its removals. */
  function CleanStep(d: Disk, sfile: String, now: int, thr: int, dryrun: bool): (r: Result<(Disk, seq<Action>), CleanError>)
    ensures r.Ok? ==> sfile in d.links
    ensures r.Ok? ==> r.value.0.nodes.Keys <= d.nodes.Keys && r.value.0.links.Keys <= d.links.Keys
    ensures r.Ok? <==> Select(d, sfile, now, thr).Ok?
    ensures r.Err? ==> r.error == Select(d, sfile, now, thr).error
    ensures r.Ok? ==> r.value == CleanOne(d, Select(d, sfile, now, thr).value, dryrun)
  {
    match Select(d, sfile, now, thr)
    case Err(e) => Err(e)
    case Ok(s) => Ok(CleanOne(d, s, dryrun))
  }

  /** `cleaner`: walks the soft links in order, selecting and removing as it
      goes, and stops at the first error `files` raises. */
  function Clean(d: Disk, sfiles: seq<String>, now: int, thr: int, dryrun: bool)
    : (r: (Disk, seq<Action>, Option<CleanError>))
    ensures r.0.nodes.Keys <= d.nodes.Keys && r.0.links.Keys <= d.links.Keys
    ensures r.2.None? ==> forall i :: 0 <= i < |sfiles| ==> sfiles[i] in d.links
    decreases |sfiles|
  {
    if |sfiles| == 0 then (d, [], None)
    else
      match CleanStep(d, sfiles[0], now, thr, dryrun)
      case Err(e) => (d, [], Some(e))
      case Ok(step) =>
        var r := Clean(step.0, sfiles[1..], now, thr, dryrun);
        TailAllLinks(sfiles, step.0, d);
        (r.0, step.1 + r.1, r.2)
  }

  /** Paths that are links of a smaller disk, after a head that is a link of
      the larger one, are all links of the larger one. */
  lemma TailAllLinks(sfiles: seq<String>, d1: Disk, d: Disk)
    requires |sfiles| > 0 && sfiles[0] in d.links && d1.links.Keys <= d.links.Keys
    ensures (forall i :: 0 <= i < |sfiles[1..]| ==> sfiles[1..][i] in d1.links) ==>
      forall i :: 0 <= i < |sfiles| ==> sfiles[i] in d.links
  {
    assert forall i :: 1 <= i < |sfiles| ==> sfiles[i] == sfiles[1..][i - 1];
  }

  /** A dry run removes nothing: the disk is unchanged and every action is a
      report. */
  lemma {:induction false} DryRunRemovesNothing(d: Disk, sfiles: seq<String>, now: int, thr: int)
    ensures var r := Clean(d, sfiles, now, thr, true);
      r.0 == d && forall a :: a in r.1 ==> a.Report?
    decreases |sfiles|
  {
    if |sfiles| > 0 {
      if Select(d, sfiles[0], now, thr).Ok? {
        DryRunRemovesNothing(d, sfiles[1..], now, thr);
      }
    }
  }

  /** A real run prints nothing, and only removes paths that were on the disk
      when it started. */
  lemma {:induction false} RealRunRemovesExisting(d: Disk, sfiles: seq<String>, now: int, thr: int)
    ensures var r := Clean(d, sfiles, now, thr, false);
      forall a :: a in r.1 ==> a.Remove? && (a.path in d.links || a.path in d.nodes)
    decreases |sfiles|
  {
    if |sfiles| > 0 {
      var sel := Select(d, sfiles[0], now, thr);
      if sel.Ok? {
        var d1 := CleanOne(d, sel.value, false).0;
        RealRunRemovesExisting(d1, sfiles[1..], now, thr);
      }
    }
  }
}

=== FILE: cli.dfy ===
/** The command-line client of fm/tools/fm_cli.py: it finds the sites of an
    LFN in DBS, names them through SiteDB, asks PhEDEx for the physical file
    names (PFNs) on each node, and prints an `srmcp` and an `lcg-cp` command
    per PFN.

    The three services are oracles: the DBS answer of each instance, the
    SiteDB name of each storage element and the PhEDEx answer of each node.
    The XML and JSON decoding before them is outside the model. */
module Cli {
  import opened Wrappers
  import opened Strings

  // ---------------------------------------------------------------------------
  // The DBS XML answer

  /** An XML element: its tag, its text (`None` when empty) and its children. */
  datatype Elem = Elem(tag: String, text: Option<String>, children: seq<Elem>)

  /** A column tag of the form `f_x...` names an aggregate and becomes `f(x)`;
      other tags are kept. */
  function TagName(tag: String): (r: String)
    ensures '_' !in tag ==> r == tag
    ensures '_' in tag ==> '_' !in r && EndsWith(r, ")")
  {
    if '_' in tag then
      var parts := Split(tag, '_');
      SplitHasTwo(tag, '_');
      SplitPiecesAvoidSeparator(tag, '_');
      assert parts[0] in parts && parts[1] in parts;
      parts[0] + "(" + parts[1] + ")"
    else tag
  }

  /** A text containing the separator splits into at least two pieces. */
  lemma SplitHasTwo(s: String, c: char)
    requires c in s
    ensures |Split(s, c)| >= 2
  {
    var i :| 0 <= i < |s| && s[i] == c;
    assert s == s[..i] + [c] + s[i + 1..];
    SplitAround(s[..i], c, s[i + 1..]);
  }

  /** A tag `f_x` reads as the aggregate `f(x)`. */
  lemma AggregateTag(f: String, x: String)
    requires '_' !in f && '_' !in x
    ensures TagName(f + "_" + x) == f + "(" + x + ")"
  {
    assert f + "_" + x == f + ['_'] + x;
    assert (f + "_" + x)[|f|] == '_';
    SplitAround(f, '_', x);
    SplitWithoutSeparator(f, '_');
    SplitWithoutSeparator(x, '_');
  }

  /** Only the first two `_`-separated parts are used. */
  lemma AggregateTagDropsRest(f: String, x: String, rest: String)
    requires '_' !in f && '_' !in x
    ensures TagName(f + "_" + x + "_" + rest) == f + "(" + x + ")"
  {
    var tag := f + "_" + x + "_" + rest;
    assert tag == f + ['_'] + (x + ['_'] + rest);
    assert tag[|f|] == '_';
    SplitAround(f, '_', x + ['_'] + rest);
    SplitAround(x, '_', rest);
    SplitWithoutSeparator(f, '_');
    SplitWithoutSeparator(x, '_');
  }

  /** The rewritten tags of a row's children, in order. */
  function TagNames(fields: seq<Elem>): (r: seq<String>)
    ensures |r| == |fields|
    ensures forall i :: 0 <= i < |fields| ==> r[i] == TagName(fields[i].tag)
    decreases |fields|
  {
    if |fields| == 0 then [] else TagNames(fields[..|fields| - 1]) + [TagName(fields[|fields| - 1].tag)]
  }

  /** One row: each child's text under its rewritten tag; a later child with
      the same name overwrites an earlier one. */
  function RowOf(fields: seq<Elem>): (r: map<String, Option<String>>)
    ensures forall k :: k in r <==> k in TagNames(fields)
    ensures |fields| > 0 ==> r[TagName(fields[|fields| - 1].tag)] == fields[|fields| - 1].text
    decreases |fields|
  {
    if |fields| == 0 then map[]
    else
      var n := |fields| - 1;
      assert TagNames(fields) == TagNames(fields[..n]) + [TagName(fields[n].tag)];
      RowOf(fields[..n])[TagName(fields[n].tag) := fields[n].text]
  }

  function RowsOf(rows: seq<Elem>): (r: seq<map<String, Option<String>>>)
    ensures |r| == |rows|
    ensures forall i :: 0 <= i < |rows| ==> r[i] == RowOf(rows[i].children)
    decreases |rows|
  {
    if |rows| == 0 then [] else [RowOf(rows[0].children)] + RowsOf(rows[1..])
  }

  /** `parser`: the rows of every `results` child of the root, in order;
      other children are ignored. */
  function ParseAnswer(root: Elem): (r: seq<map<String, Option<String>>>)
    ensures forall e, row :: e in root.children && e.tag == "results" && row in e.children ==> RowOf(row.children) in r
    ensures forall x :: x in r ==> exists e, row :: e in root.children && e.tag == "results" && row in e.children && x == RowOf(row.children)
  {
    ResultRowsMembers(root.children);
    ResultRows(root.children)
  }

  function ResultRows(elems: seq<Elem>): (r: seq<map<String, Option<String>>>)
    decreases |elems|
  {
    if |elems| == 0 then []
    else ResultsOf(elems[0]) + ResultRows(elems[1..])
  }

  /** The rows one child of the root contributes. */
  function ResultsOf(e: Elem): seq<map<String, Option<String>>> {
    if e.tag == "results" then RowsOf(e.children) else []
  }

  /** The rows are exactly those of the row elements of `results` children. */
  lemma {:induction false} ResultRowsMembers(elems: seq<Elem>)
    ensures forall e, row :: e in elems && e.tag == "results" && row in e.children ==> RowOf(row.children) in ResultRows(elems)
    ensures forall x :: x in ResultRows(elems) ==>
      exists e, row :: e in elems && e.tag == "results" && row in e.children && x == RowOf(row.children)
    decreases |elems|
  {
    if |elems| > 0 {
      ResultRowsMembers(elems[1..]);
      var first := ResultsOf(elems[0]);
      assert ResultRows(elems) == first + ResultRows(elems[1..]);
      assert forall e :: e in elems <==> e == elems[0] || e in elems[1..];
      RowsOfMembers(elems[0].children);
    }
  }

  /** The rows of a list of row elements are exactly theirs. */
  lemma RowsOfMembers(rows: seq<Elem>)
    ensures forall row :: row in rows ==> RowOf(row.children) in RowsOf(rows)
    ensures forall x :: x in RowsOf(rows) ==> exists row :: row in rows && x == RowOf(row.children)
  {
    forall x | x in RowsOf(rows)
      ensures exists row :: row in rows && x == RowOf(row.children)
    {
      var i :| 0 <= i < |rows| && RowsOf(rows)[i] == x;
      assert rows[i] in rows;
    }
    forall row | row in rows
      ensures RowOf(row.children) in RowsOf(rows)
    {
      var i :| 0 <= i < |rows| && rows[i] == row;
      assert RowsOf(rows)[i] == RowOf(row.children);
    }
  }

  /** The rows of a list of elements are those of its parts, in order. */
  lemma {:induction false} ResultRowsConcat(a: seq<Elem>, b: seq<Elem>)
    ensures ResultRows(a + b) == ResultRows(a) + ResultRows(b)
    decreases |a|
  {
    if |a| == 0 {
      assert a + b == b;
    } else {
      assert a + b == [a[0]] + (a[1..] + b);
      assert a == [a[0]] + a[1..];
      ResultRowsCons(a[0], a[1..] + b);
      ResultRowsCons(a[0], a[1..]);
      ResultRowsConcat(a[1..], b);
      ConcatAssoc(ResultsOf(a[0]), ResultRows(a[1..]), ResultRows(b));
    }
  }

  lemma ConcatAssoc<T>(x: seq<T>, y: seq<T>, z: seq<T>)
    ensures (x + y) + z == x + (y + z)
  {
  }

  lemma ResultRowsCons(e: Elem, es: seq<Elem>)
    ensures ResultRows([e] + es) == ResultsOf(e) + ResultRows(es)
  {
    assert ([e] + es)[0] == e && ([e] + es)[1..] == es;
  }

  /** A root with no `results` child has no rows. */
  lemma {:induction false} NoResultsNoRows(elems: seq<Elem>)
    requires forall i :: 0 <= i < |elems| ==> elems[i].tag != "results"
    ensures ResultRows(elems) == []
    decreases |elems|
  {
    if |elems| > 0 {
      NoResultsNoRows(elems[1..]);
    }
  }

  /** One `results` child with its rows: one parsed row per row element. */
  lemma SingleResults(rows: seq<Elem>, other: Elem, i: nat)
    requires other.tag != "results" && i < |rows|
    ensures var r := ParseAnswer(Elem("ddresponse", None, [other, Elem("results", None, rows)]));
      |r| == |rows| && r[i] == RowOf(rows[i].children)
  {
    var es := [other, Elem("results", None, rows)];
    assert es[1..][1..] == [];
    assert ResultRows(es) == ResultRows(es[1..]);
  }

  // ---------------------------------------------------------------------------
  // Finding the sites

  /** The DBS instances the client asks, in order. */
  const CLI_INSTANCES: seq<String> := [
    "cms_dbs_prod_global", "cms_dbs_caf_analysis_01",
    "cms_dbs_ph_analysis_01", "cms_dbs_ph_analysis_02",
    "cms_dbs_prod_local_01", "cms_dbs_prod_local_02",
    "cms_dbs_prod_local_03", "cms_dbs_prod_local_04",
    "cms_dbs_prod_local_05", "cms_dbs_prod_local_06",
    "cms_dbs_prod_local_07", "cms_dbs_prod_local_08",
    "cms_dbs_prod_local_09"]

  type Row = map<String, Option<String>>

  /** The position of the first instance whose site query has rows; the
      loop stops there. */
  function FirstWithSites(instances: seq<String>, sites: String -> seq<Row>): (r: Option<nat>)
    ensures r.None? <==> forall i :: 0 <= i < |instances| ==> sites(instances[i]) == []
    ensures r.Some? ==> (r.value < |instances| && sites(instances[r.value]) != []
      && forall j :: 0 <= j < r.value ==> sites(instances[j]) == [])
    decreases |instances|
  {
    if |instances| == 0 then None
    else if sites(instances[0]) != [] then Some(0)
    else
      var r := FirstWithSites(instances[1..], sites);
      assert forall i :: 1 <= i < |instances| ==> instances[i] == instances[1..][i - 1];
      if r.None? then None else Some(r.value + 1)
  }

  // ---------------------------------------------------------------------------
  // Naming the sites

  datatype CliError =
    | NoSite         // `No site found for given lfn`, exit status 1
    | MissingSite    // a DBS row without a `site` column

  /** The SiteDB step: each row's `site` to its CMS name; a site SiteDB does
      not name is skipped. A row without `site` raises. */
  function SiteNames(rows: seq<Row>, cmsName: Option<String> -> Option<String>): (r: Result<map<Option<String>, String>, CliError>)
    ensures r.Err? <==> exists i :: 0 <= i < |rows| && "site" !in rows[i]
    ensures r.Err? ==> r.error == MissingSite
    ensures r.Ok? ==> forall k :: k in r.value ==> cmsName(k) == Some(r.value[k])
    ensures r.Ok? ==> forall i :: 0 <= i < |rows| ==> (rows[i]["site"] in r.value <==> cmsName(rows[i]["site"]).Some?)
    ensures r.Ok? ==> forall k :: k in r.value ==> exists i :: 0 <= i < |rows| && "site" in rows[i] && rows[i]["site"] == k
  {
    SiteNamesFrom(map[], rows, cmsName)
  }

  function SiteNamesFrom(acc: map<Option<String>, String>, rows: seq<Row>, cmsName: Option<String> -> Option<String>): (r: Result<map<Option<String>, String>, CliError>)
    requires forall k :: k in acc ==> cmsName(k) == Some(acc[k])
    ensures r.Err? <==> exists i :: 0 <= i < |rows| && "site" !in rows[i]
    ensures r.Err? ==> r.error == MissingSite
    ensures r.Ok? ==> forall k :: k in r.value ==> cmsName(k) == Some(r.value[k])
    ensures r.Ok? ==> forall k :: k in acc ==> k in r.value
    ensures r.Ok? ==> forall i :: 0 <= i < |rows| ==> (rows[i]["site"] in r.value <==> cmsName(rows[i]["site"]).Some?)
    ensures r.Ok? ==> forall k :: k in r.value ==>
      k in acc || exists i :: 0 <= i < |rows| && "site" in rows[i] && rows[i]["site"] == k
    decreases |rows|
  {
    if |rows| == 0 then Ok(acc)
    else if "site" !in rows[0] then Err(MissingSite)
    else
      var site := rows[0]["site"];
      var acc1 := if cmsName(site).Some? then acc[site := cmsName(site).value] else acc;
      var r := SiteNamesFrom(acc1, rows[1..], cmsName);
      assert forall i :: 1 <= i < |rows| ==> rows[i] == rows[1..][i - 1];
      if r.Ok? then SiteNamesKeysStep(acc, acc1, rows, r.value); r else r
  }

  /** The keys after the first row come from the accumulator, that row's site
      or a later row's site. */
  lemma SiteNamesKeysStep(acc: map<Option<String>, String>, acc1: map<Option<String>, String>,
                          rows: seq<Row>, names: map<Option<String>, String>)
    requires |rows| > 0 && "site" in rows[0]
    requires forall k :: k in acc1 ==> k in acc || k == rows[0]["site"]
    requires forall k :: k in names ==>
      k in acc1 || exists i :: 0 <= i < |rows[1..]| && "site" in rows[1..][i] && rows[1..][i]["site"] == k
    ensures forall k :: k in names ==>
      k in acc || exists i :: 0 <= i < |rows| && "site" in rows[i] && rows[i]["site"] == k
  {
    forall k | k in names && k !in acc
      ensures exists i :: 0 <= i < |rows| && "site" in rows[i] && rows[i]["site"] == k
    {
      if k in acc1 {
        assert rows[0]["site"] == k;
      } else {
        var i :| 0 <= i < |rows[1..]| && "site" in rows[1..][i] && rows[1..][i]["site"] == k;
        assert rows[i + 1] == rows[1..][i];
      }
    }
  }

  // ---------------------------------------------------------------------------
  // Node names and PFNs

  /** The PhEDEx node of a CMS name: Tier-0 names get `_MSS`, Tier-1 names
      without `Buffer` get `_Buffer`. */
  function NodeName(cmsName: String): (r: String)
    ensures StartsWith(r, cmsName)
    ensures StartsWith(cmsName, "T0") ==> r == cmsName + "_MSS"
    ensures StartsWith(cmsName, "T1") ==> Contains(r, "Buffer")
    ensures StartsWith(cmsName, "T1") ==> r == if Contains(cmsName, "Buffer") then cmsName else cmsName + "_Buffer"
    ensures !StartsWith(cmsName, "T0") && !StartsWith(cmsName, "T1") ==> r == cmsName
  {
    var n := if StartsWith(cmsName, "T0") then cmsName + "_MSS" else cmsName;
    assert n[..|cmsName|] == cmsName;
    assert StartsWith(cmsName, "T0") ==> n[..2] == cmsName[..2];
    if StartsWith(n, "T1") && !Contains(n, "Buffer") then
      var r := n + "_Buffer";
      assert OccursAt(r, "Buffer", |n| + 1);
      assert r[..|cmsName|] == cmsName;
      r
    else
      assert StartsWith(cmsName, "T0") ==> n[..|cmsName|] == cmsName;
      n
  }

  /** A Tier-1 node name is left alone the second time: the rewrite is
      idempotent there. */
  lemma NodeNameTier1Idempotent(c: String)
    requires StartsWith(c, "T1")
    ensures NodeName(NodeName(c)) == NodeName(c)
  {
    var n := NodeName(c);
    assert n[..2] == c[..2];
  }

  /** PhEDEx's answer for a node: no `mapping` list, or its items, where
      `None` is an item without a `pfn` key. */
  datatype PhedexAnswer = Unmapped | Mapping(items: seq<Option<String>>)

  predicate Distinct<T(==)>(xs: seq<T>) {
    forall i, j :: 0 <= i < j < |xs| ==> xs[i] != xs[j]
  }

  /** Appending each PFN that is not yet listed. */
  function DedupInto(acc: seq<String>, xs: seq<String>): (r: seq<String>)
    ensures |acc| <= |r| && r[..|acc|] == acc
    ensures forall x :: x in r <==> x in acc || x in xs
    ensures forall i :: |acc| <= i < |r| ==> r[i] in xs && r[i] !in acc
    ensures Distinct(acc) ==> Distinct(r)
    decreases |xs|
  {
    if |xs| == 0 then acc
    else
      var acc1 := if xs[0] in acc then acc else acc + [xs[0]];
      var r := DedupInto(acc1, xs[1..]);
      assert forall x :: x in xs <==> x == xs[0] || x in xs[1..];
      assert r[..|acc1|][..|acc|] == acc;
      r
  }

  /** The new PFNs come in the order of their first occurrences. */
  lemma {:induction false} DedupKeepsFirstOrder(acc: seq<String>, xs: seq<String>)
    ensures FirstOrder(acc, xs, DedupInto(acc, xs))
    decreases |xs|
  {
    if |xs| > 0 {
      var acc1 := if xs[0] in acc then acc else acc + [xs[0]];
      var r := DedupInto(acc1, xs[1..]);
      assert DedupInto(acc, xs) == r;
      DedupKeepsFirstOrder(acc1, xs[1..]);
      forall i, j | |acc| <= i < j < |r| ensures IndexOf(xs, r[i]) < IndexOf(xs, r[j]) {
        IndexOfTail(xs, r[j]);
        if i >= |acc1| {
          IndexOfTail(xs, r[i]);
        } else {
          assert r[..|acc1|][i] == xs[0];
        }
      }
    }
  }

  /** The entries of `r` after `acc` are ordered by first occurrence in `xs`. */
  ghost predicate FirstOrder(acc: seq<String>, xs: seq<String>, r: seq<String>)
    requires forall i :: |acc| <= i < |r| ==> r[i] in xs
  {
    forall i, j :: |acc| <= i < j < |r| ==> IndexOf(xs, r[i]) < IndexOf(xs, r[j])
  }

  lemma IndexOfTail(xs: seq<String>, x: String)
    requires x in xs && x != xs[0]
    ensures x in xs[1..] && IndexOf(xs, x) == 1 + IndexOf(xs[1..], x)
  {
  }

  /** The PFNs a node contributes: its items up to the first one without a
      `pfn`, whose `KeyError` ends the node's loop. */
  function NodePfns(a: PhedexAnswer): (r: seq<String>)
    ensures a.Mapping? && (forall i :: 0 <= i < |a.items| ==> a.items[i].Some?) ==> |r| == |a.items|
    ensures forall x :: x in r ==> a.Mapping? && Some(x) in a.items
  {
    match a
    case Unmapped => []
    case Mapping(items) => TakeSome(items)
  }

  function TakeSome(items: seq<Option<String>>): (r: seq<String>)
    ensures |r| <= |items|
    ensures forall i :: 0 <= i < |r| ==> items[i] == Some(r[i])
    ensures |r| < |items| ==> items[|r|].None?
    decreases |items|
  {
    if |items| == 0 || items[0].None? then [] else [items[0].value] + TakeSome(items[1..])
  }

  /** Every PFN the nodes report, node after node. */
  function AllPfns(nodes: seq<String>, phedex: String -> PhedexAnswer): (r: seq<String>)
    ensures forall x :: x in r <==> exists v :: v in nodes && x in NodePfns(phedex(NodeName(v)))
    decreases |nodes|
  {
    if |nodes| == 0 then []
    else
      assert forall v :: v in nodes <==> v == nodes[0] || v in nodes[1..];
      NodePfns(phedex(NodeName(nodes[0]))) + AllPfns(nodes[1..], phedex)
  }

  /** The PFN loop: each node's PFNs appended to the list unless listed. */
  function CollectPfns(acc: seq<String>, nodes: seq<String>, phedex: String -> PhedexAnswer): (r: seq<String>)
    ensures Distinct(acc) ==> Distinct(r)
    ensures forall x :: x in r <==> x in acc || x in AllPfns(nodes, phedex)
    decreases |nodes|
  {
    if |nodes| == 0 then acc
    else
      var r := CollectPfns(DedupInto(acc, NodePfns(phedex(NodeName(nodes[0])))), nodes[1..], phedex);
      assert forall x :: x in AllPfns(nodes, phedex) <==>
        x in NodePfns(phedex(NodeName(nodes[0]))) || x in AllPfns(nodes[1..], phedex);
      r
  }

  /** Collecting node by node is one deduplication of all reported PFNs. */
  lemma {:induction false} CollectIsDedup(acc: seq<String>, nodes: seq<String>, phedex: String -> PhedexAnswer)
    ensures CollectPfns(acc, nodes, phedex) == DedupInto(acc, AllPfns(nodes, phedex))
    decreases |nodes|
  {
    if |nodes| > 0 {
      var first := NodePfns(phedex(NodeName(nodes[0])));
      CollectIsDedup(DedupInto(acc, first), nodes[1..], phedex);
      DedupIntoConcat(acc, first, AllPfns(nodes[1..], phedex));
    }
  }

  lemma {:induction false} DedupIntoConcat(acc: seq<String>, xs: seq<String>, ys: seq<String>)
    ensures DedupInto(acc, xs + ys) == DedupInto(DedupInto(acc, xs), ys)
    decreases |xs|
  {
    if |xs| == 0 {
      assert xs + ys == ys;
    } else {
      var acc1 := if xs[0] in acc then acc else acc + [xs[0]];
      assert (xs + ys)[0] == xs[0] && (xs + ys)[1..] == xs[1..] + ys;
      DedupIntoConcat(acc1, xs[1..], ys);
    }
  }

  // ---------------------------------------------------------------------------
  // The commands

  /** The last `/`-separated segment of a PFN. */
  function FileName(pfn: String): (r: String)
    ensures '/' !in r
  {
    var parts := Split(pfn, '/');
    SplitPiecesAvoidSeparator(pfn, '/');
    assert Last(parts) in parts;
    Last(parts)
  }

  /** The two copy tools with their options. */
  const SRMCP: String := "srmcp " + "-debug=true -srm_protocol_version=2 -retry_num=1 -streams_num=1"
  const LCG_CP: String := "lcg-cp " + "--verbose --vo cms"

  /** A copy of the PFN to `/tmp`, under its file name. */
  function CopyCommand(tool: String, pfn: String): String {
    tool + " " + pfn + " file:////tmp/" + FileName(pfn)
  }

  function SrmcpCommand(pfn: String): String {
    CopyCommand(SRMCP, pfn)
  }

  function LcgCpCommand(pfn: String): String {
    CopyCommand(LCG_CP, pfn)
  }

  /** The yielded commands: for each PFN, `srmcp` then `lcg-cp`. */
  function Commands(pfns: seq<String>): (r: seq<String>)
    ensures |r| == 2 * |pfns|
    decreases |pfns|
  {
    if |pfns| == 0 then [] else [SrmcpCommand(pfns[0]), LcgCpCommand(pfns[0])] + Commands(pfns[1..])
  }

  /** The commands are the two copies of each PFN and nothing else. */
  lemma {:induction false} CommandsCover(pfns: seq<String>)
    ensures forall p :: p in pfns ==> SrmcpCommand(p) in Commands(pfns) && LcgCpCommand(p) in Commands(pfns)
    ensures forall c :: c in Commands(pfns) ==> exists p :: p in pfns && (c == SrmcpCommand(p) || c == LcgCpCommand(p))
    decreases |pfns|
  {
    if |pfns| > 0 {
      CommandsCover(pfns[1..]);
      assert forall p :: p in pfns <==> p == pfns[0] || p in pfns[1..];
    }
  }

  /** The two commands of the `i`-th PFN sit at positions `2i` and `2i + 1`. */
  lemma {:induction false} CommandsAt(pfns: seq<String>, i: nat)
    requires i < |pfns|
    ensures Commands(pfns)[2 * i] == SrmcpCommand(pfns[i])
    ensures Commands(pfns)[2 * i + 1] == LcgCpCommand(pfns[i])
    decreases i
  {
    if i > 0 {
      CommandsAt(pfns[1..], i - 1);
      assert 2 * i == 2 * (i - 1) + 2;
    }
  }

  /** The file name of `dir/name` is `name`. */
  lemma FileNameOfPath(dir: String, name: String)
    requires '/' !in name
    ensures FileName(dir + "/" + name) == name
  {
    assert dir + "/" + name == dir + ['/'] + name;
    SplitLastPiece(dir, '/', name);
  }

  lemma Affixes(a: String, b: String)
    ensures StartsWith(a + b, a) && EndsWith(a + b, b)
  {
    assert (a + b)[..|a|] == a;
    assert (a + b)[|a + b| - |b|..] == b;
  }

  /** A copy command names the tool, then the PFN, then `/tmp` and the PFN's
      file name. */
  lemma CommandTarget(tool: String, dir: String, name: String)
    requires '/' !in name
    ensures var pfn := dir + "/" + name;
      && StartsWith(CopyCommand(tool, pfn), tool + " ")
      && EndsWith(CopyCommand(tool, pfn), " " + pfn + " file:////tmp/" + name)
  {
    var pfn := dir + "/" + name;
    FileNameOfPath(dir, name);
    var tail := pfn + " file:////tmp/" + name;
    assert CopyCommand(tool, pfn) == (tool + " ") + tail;
    assert CopyCommand(tool, pfn) == tool + (" " + tail);
    Affixes(tool + " ", tail);
    Affixes(tool, " " + tail);
  }

  // ---------------------------------------------------------------------------
  // The whole run

  /** `order` lists every key of the site dictionary once: the order in
      which Python iterates over it. */
  ghost predicate KeyOrder(order: seq<Option<String>>, names: map<Option<String>, String>) {
    Distinct(order) && forall k :: k in order <==> k in names
  }

  /** The site dictionary: the SiteDB names of the sites of the first
      instance whose site query has rows. */
  function SiteTable(instances: seq<String>, sites: String -> seq<Row>, cmsName: Option<String> -> Option<String>)
    : (r: Result<map<Option<String>, String>, CliError>)
    ensures r == Err(NoSite) <==> forall i :: 0 <= i < |instances| ==> sites(instances[i]) == []
    ensures r.Err? ==> r.error in {NoSite, MissingSite}
    ensures r.Ok? ==> forall k :: k in r.value ==> cmsName(k) == Some(r.value[k])
    ensures r.Ok? ==> exists i :: (0 <= i < |instances| && sites(instances[i]) != [] &&
      forall j :: 0 <= j < |sites(instances[i])| ==>
        ("site" in sites(instances[i])[j] &&
         (sites(instances[i])[j]["site"] in r.value <==> cmsName(sites(instances[i])[j]["site"]).Some?)))
    ensures forall k :: (0 <= k < |instances| && sites(instances[k]) != [] &&
      (forall j :: 0 <= j < k ==> sites(instances[j]) == [])) ==> r == SiteNames(sites(instances[k]), cmsName)
  {
    match FirstWithSites(instances, sites)
    case None => Err(NoSite)
    case Some(k) => SiteNames(sites(instances[k]), cmsName)
  }

  /** A named site's PFN: one PhEDEx reports it for the site's node. */
  ghost predicate NamedPfn(names: map<Option<String>, String>, phedex: String -> PhedexAnswer, x: String) {
    exists k :: k in names && x in NodePfns(phedex(NodeName(names[k])))
  }

  /** `srmcp` for one LFN. `sites` is each instance's site query, `cmsName`
      SiteDB's name of a site, `order` the iteration order of the site
      dictionary's keys and `phedex` PhEDEx's answer for a node. No site
      means exit status 1; otherwise both commands are printed for every PFN
      of every named site, and for nothing else. */
  function Run(sites: String -> seq<Row>, cmsName: Option<String> -> Option<String>,
               order: seq<Option<String>>, phedex: String -> PhedexAnswer): (r: Result<seq<String>, CliError>)
    requires SiteTable(CLI_INSTANCES, sites, cmsName).Ok? ==> KeyOrder(order, SiteTable(CLI_INSTANCES, sites, cmsName).value)
    ensures r == Err(NoSite) <==> forall i :: 0 <= i < |CLI_INSTANCES| ==> sites(CLI_INSTANCES[i]) == []
    ensures r.Ok? <==> SiteTable(CLI_INSTANCES, sites, cmsName).Ok?
    ensures r.Ok? ==> forall x :: NamedPfn(SiteTable(CLI_INSTANCES, sites, cmsName).value, phedex, x) ==>
      SrmcpCommand(x) in r.value && LcgCpCommand(x) in r.value
    ensures r.Ok? ==> forall c :: c in r.value ==> exists x ::
      NamedPfn(SiteTable(CLI_INSTANCES, sites, cmsName).value, phedex, x) && (c == SrmcpCommand(x) || c == LcgCpCommand(x))
  {
    RunOn(CLI_INSTANCES, sites, cmsName, order, phedex)
  }

  /** The run over a given list of DBS instances. */
  function RunOn(instances: seq<String>, sites: String -> seq<Row>, cmsName: Option<String> -> Option<String>,
                 order: seq<Option<String>>, phedex: String -> PhedexAnswer): (r: Result<seq<String>, CliError>)
    requires SiteTable(instances, sites, cmsName).Ok? ==> KeyOrder(order, SiteTable(instances, sites, cmsName).value)
    ensures r == Err(NoSite) <==> forall i :: 0 <= i < |instances| ==> sites(instances[i]) == []
    ensures r.Ok? <==> SiteTable(instances, sites, cmsName).Ok?
    ensures r.Ok? ==> |r.value| % 2 == 0
    ensures r.Ok? ==> forall x :: NamedPfn(SiteTable(instances, sites, cmsName).value, phedex, x) ==>
      SrmcpCommand(x) in r.value && LcgCpCommand(x) in r.value
    ensures r.Ok? ==> forall c :: c in r.value ==> exists x ::
      NamedPfn(SiteTable(instances, sites, cmsName).value, phedex, x) && (c == SrmcpCommand(x) || c == LcgCpCommand(x))
  {
    match SiteTable(instances, sites, cmsName)
    case Err(e) => Err(e)
    case Ok(names) => Ok(NamedCommands(order, names, phedex))
  }

  /** The commands printed for a site dictionary: both copies of every PFN
      of every named site, and nothing else. */
  function NamedCommands(order: seq<Option<String>>, names: map<Option<String>, String>, phedex: String -> PhedexAnswer)
    : (cs: seq<String>)
    requires KeyOrder(order, names)
    ensures |cs| % 2 == 0
    ensures forall x :: NamedPfn(names, phedex, x) ==> SrmcpCommand(x) in cs && LcgCpCommand(x) in cs
    ensures forall c :: c in cs ==> exists x :: NamedPfn(names, phedex, x) && (c == SrmcpCommand(x) || c == LcgCpCommand(x))
  {
    var pfns := CollectPfns([], ValuesIn(order, names), phedex);
    NamedPfns(order, names, phedex);
    CommandsOfNamed(pfns, names, phedex);
    DoubleIsEven(|pfns|);
    Commands(pfns)
  }

  lemma DoubleIsEven(n: nat)
    ensures (2 * n) % 2 == 0
  {
  }

  lemma CommandsOfNamed(pfns: seq<String>, names: map<Option<String>, String>, phedex: String -> PhedexAnswer)
    requires forall x :: x in pfns <==> NamedPfn(names, phedex, x)
    ensures forall x :: NamedPfn(names, phedex, x) ==> SrmcpCommand(x) in Commands(pfns) && LcgCpCommand(x) in Commands(pfns)
    ensures forall c :: c in Commands(pfns) ==>
      exists x :: NamedPfn(names, phedex, x) && (c == SrmcpCommand(x) || c == LcgCpCommand(x))
  {
    CommandsCover(pfns);
    forall c | c in Commands(pfns)
      ensures exists x :: NamedPfn(names, phedex, x) && (c == SrmcpCommand(x) || c == LcgCpCommand(x))
    {
      var p :| p in pfns && (c == SrmcpCommand(p) || c == LcgCpCommand(p));
      assert NamedPfn(names, phedex, p);
    }
  }

  /** The dictionary's values, visited in the given key order; keys the
      dictionary does not hold are skipped. */
  function ValuesIn(order: seq<Option<String>>, names: map<Option<String>, String>): (r: seq<String>)
    ensures forall x :: x in r <==> exists k :: k in order && k in names && names[k] == x
    decreases |order|
  {
    if |order| == 0 then []
    else
      assert forall k :: k in order <==> k == order[0] || k in order[1..];
      (if order[0] in names then [names[order[0]]] else []) + ValuesIn(order[1..], names)
  }

  /** Visiting every key once gives one value per key. */
  lemma {:induction false} ValuesInCount(order: seq<Option<String>>, names: map<Option<String>, String>)
    requires KeyOrder(order, names)
    ensures |ValuesIn(order, names)| == |names|
    decreases |order|
  {
    if |order| == 0 {
      assert forall k :: k in names ==> k in order;
    } else {
      var rest := names - {order[0]};
      assert order[0] in order;
      assert forall k :: k in order <==> k == order[0] || k in order[1..];
      assert KeyOrder(order[1..], rest);
      ValuesInCount(order[1..], rest);
      ValuesInOutside(order[1..], names, order[0]);
    }
  }

  /** The PFNs collected over the visited values are those of the named sites. */
  lemma NamedPfns(order: seq<Option<String>>, names: map<Option<String>, String>, phedex: String -> PhedexAnswer)
    requires KeyOrder(order, names)
    ensures forall x :: x in CollectPfns([], ValuesIn(order, names), phedex) <==> NamedPfn(names, phedex, x)
  {
    forall x | NamedPfn(names, phedex, x)
      ensures x in AllPfns(ValuesIn(order, names), phedex)
    {
      var k :| k in names && x in NodePfns(phedex(NodeName(names[k])));
      assert k in order;
      assert names[k] in ValuesIn(order, names);
    }
  }

  /** A key the order does not list does not affect the visited values. */
  lemma ValuesInOutside(order: seq<Option<String>>, names: map<Option<String>, String>, k: Option<String>)
    requires k !in order
    ensures ValuesIn(order, names - {k}) == ValuesIn(order, names)
    decreases |order|
  {
    if |order| > 0 {
      ValuesInOutside(order[1..], names, k);
    }
  }

  /** Every PFN is printed once, as two commands. */
  lemma {:induction false} RunCommandsArePerPfn(instances: seq<String>, sites: String -> seq<Row>, cmsName: Option<String> -> Option<String>,
                                               order: seq<Option<String>>, phedex: String -> PhedexAnswer)
    requires SiteTable(instances, sites, cmsName).Ok? ==> KeyOrder(order, SiteTable(instances, sites, cmsName).value)
    requires RunOn(instances, sites, cmsName, order, phedex).Ok?
    ensures var names := SiteTable(instances, sites, cmsName).value;
      var pfns := DedupInto([], AllPfns(ValuesIn(order, names), phedex));
      && RunOn(instances, sites, cmsName, order, phedex).value == Commands(pfns)
      && Distinct(pfns)
  {
    var names := SiteTable(instances, sites, cmsName).value;
    CollectIsDedup([], ValuesIn(order, names), phedex);
  }
}

=== FILE: dbs2.dfy ===
/** Queries against the DBS2 data bookkeeping service
    (fm/dbs/DBS2Interaction.py): the list of instances, their URLs, the choice
    of response parser by server version, the `getFiles` query text, and the
    scans over instances that stop at the first useful answer.

    HTTP requests and XML parsing are not modelled: what an instance answers,
    already parsed, is a parameter. */
module Dbs2 {
  import opened Wrappers
  import opened Strings

  // ---------------------------------------------------------------------------
  // Instances and URLs

  const GLOBAL_INSTANCES: seq<String> := [
    "cms_dbs_prod_global", "cms_dbs_caf_analysis_01",
    "cms_dbs_ph_analysis_01", "cms_dbs_ph_analysis_02"]

  const LOCAL_PREFIX: String := "cms_dbs_prod_local_"

  /** The name `dbsinstances` gives local instance `i`: `_0i` below ten. */
  function LocalInstance(i: nat): String {
    if i < 10 then LOCAL_PREFIX + "0" + NatToString(i) else LOCAL_PREFIX + NatToString(i)
  }

  /** `dbsinstances`: the four fixed instances, then the ten local ones. */
  method DbsInstances() returns (r: seq<String>)
    ensures |r| == 14
    ensures r[..4] == GLOBAL_INSTANCES
    ensures forall i :: 1 <= i <= 10 ==> r[3 + i] == LocalInstance(i)
    ensures forall i, j :: 0 <= i < j < |r| ==> r[i] != r[j]
  {
    r := GLOBAL_INSTANCES;
    for i := 1 to 11
      invariant |r| == 3 + i
      invariant r[..4] == GLOBAL_INSTANCES
      invariant forall k :: 1 <= k < i ==> r[3 + k] == LocalInstance(k)
    {
      if i < 10 {
        r := r + [LOCAL_PREFIX + "0" + NatToString(i)];
      } else {
        r := r + [LOCAL_PREFIX + NatToString(i)];
      }
    }
    InstancesDistinct(r);
  }

  /** Local names carry their number after the prefix, in two digits. */
  lemma LocalInstanceShape(i: nat)
    requires 1 <= i <= 10
    ensures var n := LocalInstance(i);
      |n| == |LOCAL_PREFIX| + 2 && n[..|LOCAL_PREFIX|] == LOCAL_PREFIX
      && n[|LOCAL_PREFIX|..] == (if i < 10 then ['0', DigitChar(i)] else "10")
  {
    if i == 10 {
      assert NatToString(10) == NatToString(1) + [DigitChar(0)];
    }
  }

  /** No fixed instance starts with the local prefix. */
  lemma GlobalIsNotLocal(i: nat, n: String)
    requires i < 4 && |n| >= |LOCAL_PREFIX| && n[..|LOCAL_PREFIX|] == LOCAL_PREFIX
    ensures GLOBAL_INSTANCES[i] != n
  {
    assert n[8] == 'p' && n[9] == 'r' && n[13] == 'l';
    if i == 0 {
      assert GLOBAL_INSTANCES[0][13] == 'g';
    } else if i == 1 {
      assert GLOBAL_INSTANCES[1][8] == 'c';
    } else {
      assert GLOBAL_INSTANCES[i][9] == 'h';
    }
  }

  /** Different local numbers give different names. */
  lemma LocalsDistinct(i: nat, j: nat)
    requires 1 <= i < j <= 10
    ensures LocalInstance(i) != LocalInstance(j)
  {
    var p := |LOCAL_PREFIX|;
    LocalInstanceShape(i);
    LocalInstanceShape(j);
    if j < 10 {
      assert LocalInstance(i)[p + 1] == DigitChar(i) && LocalInstance(j)[p + 1] == DigitChar(j);
    } else {
      assert LocalInstance(i)[p] == '0' && LocalInstance(j)[p] == '1';
    }
  }

  lemma InstancesDistinct(r: seq<String>)
    requires |r| == 14 && r[..4] == GLOBAL_INSTANCES
    requires forall i :: 1 <= i <= 10 ==> r[3 + i] == LocalInstance(i)
    ensures forall i, j :: 0 <= i < j < |r| ==> r[i] != r[j]
  {
    forall i, j | 0 <= i < j < |r| ensures r[i] != r[j] {
      if j >= 4 {
        if i >= 4 {
          LocalsDistinct(i - 3, j - 3);
        } else {
          LocalInstanceShape(j - 3);
          assert r[i] == r[..4][i];
          GlobalIsNotLocal(i, r[j]);
        }
      } else {
        assert r[i] == r[..4][i] && r[j] == r[..4][j];
      }
    }
  }

  const TIER0_URL: String := "http://cmst0dbs.cern.ch"
  const SERVLET: String := "/servlet/DBSServlet"

  /** `getdbsurl`: tier-0 instances live on their own host, the others under
      the configured global URL. */
  function DbsUrl(globalUrl: String, dbs: String): (r: String)
    ensures Contains(dbs, "tier0") ==> StartsWith(r, TIER0_URL + "/" + dbs)
    ensures !Contains(dbs, "tier0") ==> StartsWith(r, globalUrl + "/" + dbs)
    ensures EndsWith(r, "/" + dbs + SERVLET)
  {
    var host := if Contains(dbs, "tier0") then TIER0_URL else globalUrl;
    var r := host + "/" + dbs + SERVLET;
    assert r[..|host + "/" + dbs|] == host + "/" + dbs;
    assert r[|r| - |"/" + dbs + SERVLET|..] == "/" + dbs + SERVLET;
    r
  }

  /** Two slash-free names joined by a `/` split back into the two names. */
  lemma SplitPair(a: String, b: String)
    requires '/' !in a && '/' !in b
    ensures Split(a + "/" + b, '/') == [a, b]
  {
    assert a + "/" + b == a + ['/'] + b;
    SplitAround(a, '/', b);
    SplitWithoutSeparator(a, '/');
    SplitWithoutSeparator(b, '/');
  }

  /** The instance can be read back from its URL: it is the third `/` part
      from the end. */
  lemma InstanceOfUrl(globalUrl: String, dbs: String)
    requires '/' !in dbs
    ensures var parts := Split(DbsUrl(globalUrl, dbs), '/');
      |parts| >= 4 && parts[|parts| - 3] == dbs
  {
    var host := if Contains(dbs, "tier0") then TIER0_URL else globalUrl;
    var tail := "servlet" + "/" + "DBSServlet";
    assert SERVLET == ['/'] + tail;
    var url := host + "/" + dbs + SERVLET;
    assert url == host + ['/'] + (dbs + ['/'] + tail);
    SplitAround(host, '/', dbs + ['/'] + tail);
    SplitAround(dbs, '/', tail);
    SplitWithoutSeparator(dbs, '/');
    SplitPair("servlet", "DBSServlet");
    var parts := Split(url, '/');
    assert parts == Split(host, '/') + [dbs] + ["servlet", "DBSServlet"];
  }

  // ---------------------------------------------------------------------------
  // Server version and parser choice

  /** `getDBSversion` on a response body: the value after the last `=` of the
      first word mentioning `server_version`, quotes removed. */
  function ServerVersion(body: String): (r: Option<String>)
    ensures r.Some? ==> '\'' !in r.value && '"' !in r.value && '=' !in r.value
    ensures r.None? <==> NoVersionWord(Words(body))
  {
    VersionIn(Words(body))
  }

  /** No word mentions `server_version`. */
  ghost predicate NoVersionWord(words: seq<String>) {
    forall w :: w in words ==> !Contains(w, "server_version")
  }

  function VersionIn(words: seq<String>): (r: Option<String>)
    ensures r.Some? ==> '\'' !in r.value && '"' !in r.value && '=' !in r.value
    ensures r.None? <==> NoVersionWord(words)
    decreases |words|
  {
    if |words| == 0 then None
    else if Contains(words[0], "server_version") then
      assert words[0] in words;
      var v := Last(Split(words[0], '='));
      SplitPiecesAvoidSeparator(words[0], '=');
      assert v in Split(words[0], '=');
      var v1 := ReplaceAll(v, "'", "");
      ReplaceAllRemovesChar(v, '\'', "");
      ReplaceAllKeepsAbsent(v, "'", "", '=');
      var v2 := ReplaceAll(v1, "\"", "");
      ReplaceAllRemovesChar(v1, '"', "");
      ReplaceAllKeepsAbsent(v1, "\"", "", '\'');
      ReplaceAllKeepsAbsent(v1, "\"", "", '=');
      Some(v2)
    else
      var r := VersionIn(words[1..]);
      assert forall w :: w in words[1..] ==> w in words;
      r
  }

  /** The two response formats. */
  datatype Parser = Parser205 | Parser206

  datatype DbsError =
    | NoVersion              // `dbsparser`: the server version is unknown
    | WildcardLfn(lfn: String)
    | ManyBlocks(lfn: String)
    | NoClause               // `getFiles` without run, dataset or lumi
    | Upstream               // a request or parse failure that propagates

  /** `dbsparser`'s choice: versions up to `DBS_2_0_5` in string order use the
      old format. An unknown or empty version raises. */
  function ChooseParser(version: Option<String>): (r: Result<Parser, DbsError>)
    ensures r == Err(NoVersion) <==> (version.None? || version.value == [])
    ensures r == Ok(Parser205) <==> (version.Some? && version.value != [] && LexLe(version.value, "DBS_2_0_5"))
  {
    if version.None? || version.value == [] then Err(NoVersion)
    else if LexLe(version.value, "DBS_2_0_5") then Ok(Parser205)
    else Ok(Parser206)
  }

  /** The comparison is on strings, so `DBS_2_0_10` gets the old parser. */
  lemma TenthReleaseUsesOldParser()
    ensures ChooseParser(Some("DBS_2_0_10")) == Ok(Parser205)
    ensures ChooseParser(Some("DBS_2_0_6")) == Ok(Parser206)
  {
    assert "DBS_2_0_10"[8] == '1' && "DBS_2_0_5"[8] == '5';
    assert "DBS_2_0_10"[..8] == "DBS_2_0_5"[..8];
  }

  /** Every version string-below one that gets the old parser gets it too. */
  lemma OldParserDownwardClosed(v: String, w: String)
    requires v != [] && LexLe(v, w) && ChooseParser(Some(w)) == Ok(Parser205)
    ensures ChooseParser(Some(v)) == Ok(Parser205)
  {
    LexLeTransitive(v, w, "DBS_2_0_5");
  }

  // ---------------------------------------------------------------------------
  // The getFiles query

  /** A run argument: absent, a number, or text such as `12*`. */
  datatype RunArg = NoRun | RunNum(n: int) | RunText(s: String)

  /** Python truthiness of the run argument. */
  predicate RunGiven(run: RunArg) {
    match run
    case NoRun => false
    case RunNum(n) => n != 0
    case RunText(s) => s != []
  }

  /** `str(run)`. */
  function RunText(run: RunArg): String {
    match run
    case NoRun => "None"
    case RunNum(n) => IntToString(n)
    case RunText(s) => s
  }

  predicate Given(v: Option<String>) {
    v.Some? && v.value != []
  }

  /** One condition: `like` for a value with a wildcard, `=` otherwise. */
  function Condition(name: String, value: String): (r: String)
    ensures Contains(value, "*") ==> r == name + " like " + value
    ensures !Contains(value, "*") ==> r == name + "=" + value
  {
    if Contains(value, "*") then name + " like " + value else name + "=" + value
  }

  /** The conditions `getFiles` puts in its query, in order. */
  function Conditions(run: RunArg, dataset: Option<String>, lumi: Option<String>): seq<String> {
    (if RunGiven(run) then [Condition("run", RunText(run))] else [])
    + (if Given(dataset) then [Condition("dataset", dataset.value)] else [])
    + (if Given(lumi) then ["lumi=" + lumi.value + " "] else [])
  }

  /** The `cond` string `getFiles` accumulates. */
  function ClauseText(run: RunArg, dataset: Option<String>, lumi: Option<String>): (r: String)
    ensures r == [] <==> (!RunGiven(run) && !Given(dataset) && !Given(lumi))
    ensures r != [] ==> |r| >= 5 && r[4] == ' '
  {
    (if RunGiven(run) then " and " + Condition("run", RunText(run)) else [])
    + (if Given(dataset) then " and " + Condition("dataset", dataset.value) else [])
    + (if Given(lumi) then " and lumi=" + lumi.value + " " else [])
  }

  const QUERY_HEAD: String := "find file,file.size where "

  /** The query text `getFiles` builds: each given condition appended as
      ` and <condition>`, then the first four characters cut off. */
  function FilesQuery(run: RunArg, dataset: Option<String>, lumi: Option<String>): (r: Result<String, DbsError>)
    ensures r.Err? <==> (!RunGiven(run) && !Given(dataset) && !Given(lumi))
    ensures r.Err? ==> r.error == NoClause
    ensures r.Ok? ==> StartsWith(r.value, QUERY_HEAD + " ")
  {
    var cond := ClauseText(run, dataset, lumi);
    if cond == [] then Err(NoClause)
    else
      var q := QUERY_HEAD + cond[4..];
      assert q[..|QUERY_HEAD| + 1] == QUERY_HEAD + [cond[4]];
      Ok(q)
  }

  /** The accumulated text is every condition preceded by ` and `. */
  lemma ClauseTextPrefixed(run: RunArg, dataset: Option<String>, lumi: Option<String>)
    ensures ClauseText(run, dataset, lumi) == Prefixed(Conditions(run, dataset, lumi))
  {
    var l1 := if RunGiven(run) then [Condition("run", RunText(run))] else [];
    var l2 := if Given(dataset) then [Condition("dataset", dataset.value)] else [];
    var l3 := if Given(lumi) then ["lumi=" + lumi.value + " "] else [];
    PrefixedOne(l1);
    PrefixedOne(l2);
    PrefixedOne(l3);
    if Given(lumi) {
      assert " and lumi=" + lumi.value + " " == " and " + ("lumi=" + lumi.value + " ");
    }
    PrefixedConcat(l1, l2);
    PrefixedConcat(l1 + l2, l3);
  }

  /** Cutting four characters removes exactly the leading ` and`: the query is
      the head, a space, and the conditions joined by ` and `. */
  lemma FilesQueryJoinsConditions(run: RunArg, dataset: Option<String>, lumi: Option<String>)
    requires RunGiven(run) || Given(dataset) || Given(lumi)
    ensures FilesQuery(run, dataset, lumi) == Ok(QUERY_HEAD + " " + Join(" and ", Conditions(run, dataset, lumi)))
  {
    var cs := Conditions(run, dataset, lumi);
    ClauseTextPrefixed(run, dataset, lumi);
    PrefixedJoin(cs);
    DropLeadingAnd(ClauseText(run, dataset, lumi), Join(" and ", cs));
  }

  /** Cutting four characters off ` and <rest>` leaves ` <rest>`. */
  lemma DropLeadingAnd(cond: String, j: String)
    requires cond == " and " + j
    ensures QUERY_HEAD + cond[4..] == QUERY_HEAD + " " + j
  {
    assert cond[4..] == " " + j;
  }

  /** Each piece preceded by ` and `. */
  function Prefixed(cs: seq<String>): String
    decreases |cs|
  {
    if |cs| == 0 then [] else " and " + cs[0] + Prefixed(cs[1..])
  }

  lemma PrefixedOne(cs: seq<String>)
    requires |cs| <= 1
    ensures Prefixed(cs) == if |cs| == 0 then [] else " and " + cs[0]
  {
    if |cs| == 1 {
      assert Prefixed(cs[1..]) == [];
    }
  }

  lemma {:induction false} PrefixedConcat(a: seq<String>, b: seq<String>)
    ensures Prefixed(a + b) == Prefixed(a) + Prefixed(b)
    decreases |a|
  {
    if |a| == 0 {
      assert a + b == b;
    } else {
      assert (a + b)[1..] == a[1..] + b;
      PrefixedConcat(a[1..], b);
    }
  }

  lemma {:induction false} PrefixedJoin(cs: seq<String>)
    requires |cs| > 0
    ensures Prefixed(cs) == " and " + Join(" and ", cs)
    decreases |cs|
  {
    if |cs| > 1 {
      PrefixedJoin(cs[1..]);
    } else {
      assert Prefixed(cs[1..]) == [];
    }
  }

  /** A dataset pattern with a wildcard is matched with `like`. */
  lemma DatasetPatternUsesLike(d: String)
    requires Contains(d, "*") && d != []
    ensures FilesQuery(NoRun, Some(d), None) == Ok(QUERY_HEAD + " dataset like " + d)
  {
    FilesQueryJoinsConditions(NoRun, Some(d), None);
    assert "dataset" + " like " + d == "dataset like " + d;
    assert Conditions(NoRun, Some(d), None) == ["dataset like " + d];
    assert QUERY_HEAD + " " + ("dataset like " + d) == QUERY_HEAD + " dataset like " + d;
  }

  // ---------------------------------------------------------------------------
  // Scans over instances

  /** One parsed result row: a plain value, a pair from the old format, or a
      list of columns from the new format. */
  datatype Item = Scalar(s: String) | Pair(a: String, b: String) | Row(cols: seq<String>)

  /** What an instance answers: the parsed list, or an exception from the
      request, the version lookup or the parser. */
  datatype Answer = Raised | Parsed(items: seq<Item>)

  /** An answer that gives nothing usable. */
  predicate Empty(a: Answer) {
    a.Raised? || |a.items| == 0
  }

  /** `getFiles`' loop: the first non-empty list in instance order; failures
      are swallowed. */
  method ScanFiles(instances: seq<String>, answer: String -> Answer) returns (r: seq<Item>)
    ensures |r| > 0 ==> exists k :: (0 <= k < |instances| && answer(instances[k]) == Parsed(r)
      && forall j :: 0 <= j < k ==> Empty(answer(instances[j])))
    ensures |r| == 0 <==> forall j :: 0 <= j < |instances| ==> Empty(answer(instances[j]))
  {
    r := [];
    var k := 0;
    while k < |instances|
      invariant 0 <= k <= |instances|
      invariant |r| == 0
      invariant forall j :: 0 <= j < k ==> Empty(answer(instances[j]))
    {
      var a := answer(instances[k]);
      if a.Parsed? {
        r := a.items;
        if |r| > 0 {
          return;
        }
      }
      k := k + 1;
    }
  }

  /** Instance `k` is the first whose answer is not an empty list. */
  ghost predicate FirstAnswerAt(instances: seq<String>, answer: String -> Answer, k: int) {
    && 0 <= k < |instances|
    && answer(instances[k]) != Parsed([])
    && forall j :: 0 <= j < k ==> answer(instances[j]) == Parsed([])
  }

  /** Instance `k` is the first with a non-empty answer, and that answer is
      the single item `x`. */
  ghost predicate FirstBlockAt(instances: seq<String>, answer: String -> Answer, k: int, x: Item) {
    FirstAnswerAt(instances, answer, k) && answer(instances[k]) == Parsed([x])
  }

  /** Every instance answers with an empty list. */
  ghost predicate AllEmpty(instances: seq<String>, answer: String -> Answer) {
    forall j :: 0 <= j < |instances| ==> answer(instances[j]) == Parsed([])
  }

  /** Past an empty first answer, the first non-empty one moves down by one. */
  lemma FirstAnswerShift(instances: seq<String>, answer: String -> Answer, k: int)
    requires |instances| > 0 && answer(instances[0]) == Parsed([])
    requires FirstAnswerAt(instances, answer, k)
    ensures k > 0 && FirstAnswerAt(instances[1..], answer, k - 1)
  {
    forall j | 0 <= j < k - 1 ensures answer(instances[1..][j]) == Parsed([]) {
      assert instances[1..][j] == instances[j + 1];
    }
  }

  /** `blockLookup`: refuses wildcards; the first instance with a non-empty
      answer decides: one block is the answer, several raise, a failure
      raises. `None` stands for the `[]` returned when no instance answers. */
  function BlockLookup(lfn: String, instances: seq<String>, answer: String -> Answer): (r: Result<Option<Item>, DbsError>)
    ensures Contains(lfn, "*") ==> r == Err(WildcardLfn(lfn))
    ensures r == Ok(None) <==> !Contains(lfn, "*") && AllEmpty(instances, answer)
    ensures r.Ok? && r.value.Some? ==> exists k :: FirstBlockAt(instances, answer, k, r.value.value)
    ensures !Contains(lfn, "*") ==> forall k, x :: FirstBlockAt(instances, answer, k, x) ==> r == Ok(Some(x))
    ensures !Contains(lfn, "*") ==> forall k :: FirstAnswerAt(instances, answer, k) && answer(instances[k]).Raised? ==>
      r == Err(Upstream)
    ensures !Contains(lfn, "*") ==> forall k ::
      (FirstAnswerAt(instances, answer, k) && answer(instances[k]).Parsed? && |answer(instances[k]).items| > 1) ==>
      r == Err(ManyBlocks(lfn))
  {
    if Contains(lfn, "*") then Err(WildcardLfn(lfn)) else FirstBlock(lfn, instances, answer)
  }

  function FirstBlock(lfn: String, instances: seq<String>, answer: String -> Answer): (r: Result<Option<Item>, DbsError>)
    ensures r == Ok(None) <==> AllEmpty(instances, answer)
    ensures r.Ok? && r.value.Some? ==> exists k :: FirstBlockAt(instances, answer, k, r.value.value)
    ensures r.Err? ==> r.error in {Upstream, ManyBlocks(lfn)}
    ensures forall k, x :: FirstBlockAt(instances, answer, k, x) ==> r == Ok(Some(x))
    ensures forall k :: FirstAnswerAt(instances, answer, k) && answer(instances[k]).Raised? ==> r == Err(Upstream)
    ensures forall k ::
      (FirstAnswerAt(instances, answer, k) && answer(instances[k]).Parsed? && |answer(instances[k]).items| > 1) ==>
      r == Err(ManyBlocks(lfn))
    decreases |instances|
  {
    if |instances| == 0 then Ok(None)
    else
      match answer(instances[0])
      case Raised => Err(Upstream)
      case Parsed(items) =>
        if |items| > 1 then Err(ManyBlocks(lfn))
        else if |items| == 1 then
          assert FirstBlockAt(instances, answer, 0, items[0]);
          Ok(Some(items[0]))
        else
          var r := FirstBlock(lfn, instances[1..], answer);
          FirstBlockStep(lfn, instances, answer, r);
          FirstBlockDecidedStep(lfn, instances, answer, r);
          r
  }

  /** The recursive case of `FirstBlock`: an empty first answer hands the
      decision to the remaining instances. */
  lemma FirstBlockStep(lfn: String, instances: seq<String>, answer: String -> Answer, r: Result<Option<Item>, DbsError>)
    requires |instances| > 0 && answer(instances[0]) == Parsed([])
    requires r == Ok(None) <==> AllEmpty(instances[1..], answer)
    requires r.Ok? && r.value.Some? ==> exists k :: FirstBlockAt(instances[1..], answer, k, r.value.value)
    ensures r == Ok(None) <==> AllEmpty(instances, answer)
    ensures r.Ok? && r.value.Some? ==> exists k :: FirstBlockAt(instances, answer, k, r.value.value)
  {
    if r.Ok? && r.value.Some? {
      var k :| FirstBlockAt(instances[1..], answer, k, r.value.value);
      assert FirstBlockAt(instances, answer, k + 1, r.value.value) by {
        forall j | 0 <= j < k + 1 ensures answer(instances[j]) == Parsed([]) {
          if j > 0 {
            assert instances[j] == instances[1..][j - 1];
          }
        }
      }
    }
    assert forall j :: 1 <= j < |instances| ==> instances[j] == instances[1..][j - 1];
    if AllEmpty(instances, answer) {
      assert AllEmpty(instances[1..], answer);
    }
  }

  /** The recursive case of `FirstBlock`, for the answer that decides. */
  lemma FirstBlockDecidedStep(lfn: String, instances: seq<String>, answer: String -> Answer, r: Result<Option<Item>, DbsError>)
    requires |instances| > 0 && answer(instances[0]) == Parsed([])
    requires forall k, x :: FirstBlockAt(instances[1..], answer, k, x) ==> r == Ok(Some(x))
    requires forall k :: FirstAnswerAt(instances[1..], answer, k) && answer(instances[1..][k]).Raised? ==> r == Err(Upstream)
    requires forall k ::
      (FirstAnswerAt(instances[1..], answer, k) && answer(instances[1..][k]).Parsed? && |answer(instances[1..][k]).items| > 1) ==>
      r == Err(ManyBlocks(lfn))
    ensures forall k, x :: FirstBlockAt(instances, answer, k, x) ==> r == Ok(Some(x))
    ensures forall k :: FirstAnswerAt(instances, answer, k) && answer(instances[k]).Raised? ==> r == Err(Upstream)
    ensures forall k ::
      (FirstAnswerAt(instances, answer, k) && answer(instances[k]).Parsed? && |answer(instances[k]).items| > 1) ==>
      r == Err(ManyBlocks(lfn))
  {
    forall k | FirstAnswerAt(instances, answer, k)
      ensures k > 0 && FirstAnswerAt(instances[1..], answer, k - 1) && instances[k] == instances[1..][k - 1]
    {
      FirstAnswerShift(instances, answer, k);
    }
    forall k, x | FirstBlockAt(instances, answer, k, x)
      ensures r == Ok(Some(x))
    {
      FirstAnswerShift(instances, answer, k);
      assert FirstBlockAt(instances[1..], answer, k - 1, x);
    }
  }

  /** A second block for the same file is an error, not a choice. */
  lemma TwoBlocksRaise(lfn: String, instances: seq<String>, answer: String -> Answer, b1: Item, b2: Item)
    requires !Contains(lfn, "*") && |instances| > 0
    requires answer(instances[0]) == Parsed([b1, b2])
    ensures BlockLookup(lfn, instances, answer) == Err(ManyBlocks(lfn))
  {
  }

  /** An answer that stops `blockSiteLookup`'s scan: a failure, or a list
      whose first item is a list of columns. */
  predicate Decisive(a: Answer) {
    a.Raised? || (|a.items| > 0 && a.items[0].Row?)
  }

  /** Instance `k` is the first whose answer stops the scan. */
  ghost predicate FirstDecisiveAt(instances: seq<String>, answer: String -> Answer, k: int) {
    && 0 <= k < |instances|
    && Decisive(answer(instances[k]))
    && forall j :: 0 <= j < k ==> !Decisive(answer(instances[j]))
  }

  /** Past a passed-over first answer, the first decisive one moves down by one. */
  lemma FirstDecisiveShift(instances: seq<String>, answer: String -> Answer, k: int)
    requires |instances| > 0 && !Decisive(answer(instances[0]))
    requires FirstDecisiveAt(instances, answer, k)
    ensures k > 0 && FirstDecisiveAt(instances[1..], answer, k - 1)
  {
    forall j | 0 <= j < k - 1 ensures !Decisive(answer(instances[1..][j])) {
      assert instances[1..][j] == instances[j + 1];
    }
  }

  /** `blockSiteLookup`: refuses wildcards; the first instance that fails or
      whose first item is a list of columns decides: a failure raises, a list
      is returned whole. With no such instance the answer is `[]`. */
  function BlockSiteLookup(lfn: String, instances: seq<String>, answer: String -> Answer): (r: Result<seq<Item>, DbsError>)
    ensures Contains(lfn, "*") ==> r == Err(WildcardLfn(lfn))
    ensures r.Ok? && |r.value| > 0 ==> r.value[0].Row? && exists k :: 0 <= k < |instances| && answer(instances[k]) == Parsed(r.value)
    ensures r.Err? && !Contains(lfn, "*") ==> r.error == Upstream && exists k :: 0 <= k < |instances| && answer(instances[k]).Raised?
    ensures !Contains(lfn, "*") ==> forall k :: FirstDecisiveAt(instances, answer, k) ==>
      r == if answer(instances[k]).Raised? then Err(Upstream) else Ok(answer(instances[k]).items)
    ensures !Contains(lfn, "*") ==>
      (r == Ok([]) <==> forall j :: 0 <= j < |instances| ==> !Decisive(answer(instances[j])))
    decreases |instances|
  {
    if Contains(lfn, "*") then Err(WildcardLfn(lfn))
    else if |instances| == 0 then Ok([])
    else
      match answer(instances[0])
      case Raised => Err(Upstream)
      case Parsed(items) =>
        if |items| > 0 && items[0].Row? then Ok(items)
        else
          var r := BlockSiteLookup(lfn, instances[1..], answer);
          assert forall k :: 0 <= k < |instances[1..]| ==> instances[1..][k] == instances[k + 1];
          assert forall k :: FirstDecisiveAt(instances, answer, k) ==>
            k > 0 && FirstDecisiveAt(instances[1..], answer, k - 1) by {
            forall k | FirstDecisiveAt(instances, answer, k)
              ensures k > 0 && FirstDecisiveAt(instances[1..], answer, k - 1)
            {
              FirstDecisiveShift(instances, answer, k);
            }
          }
          r
  }

  /** Pairs from the old format never count as block-and-site rows: an
      instance that answers only pairs is passed over. */
  lemma PairsArePassedOver(lfn: String, instances: seq<String>, answer: String -> Answer, b: String, s: String)
    requires !Contains(lfn, "*") && |instances| > 0
    requires answer(instances[0]) == Parsed([Pair(b, s)])
    ensures BlockSiteLookup(lfn, instances, answer) == BlockSiteLookup(lfn, instances[1..], answer)
  {
  }
}

=== FILE: eviction.dfy ===
/** The eviction choice of `FileManager.clean_dir` (fm/core/FileManager.py).

    The directory walk is left to the caller: the model receives the regular
    files found under `<base>/store` as (path, size, access time) entries and
    the quota in bytes, and decides which files go. */
module Eviction {
  import opened Wrappers
  import opened Strings

  /** One regular file found under `<base>/store`. */
  datatype FileAge = FileAge(path: String, size: nat, atime: int)

  function TotalSize(fs: seq<FileAge>): nat
    decreases |fs|
  {
    if |fs| == 0 then 0 else TotalSize(fs[..|fs| - 1]) + fs[|fs| - 1].size
  }

  lemma {:induction false} TotalSizeConcat(a: seq<FileAge>, b: seq<FileAge>)
    ensures TotalSize(a + b) == TotalSize(a) + TotalSize(b)
    decreases |b|
  {
    if |b| == 0 {
      assert a + b == a;
    } else {
      assert (a + b)[..|a + b| - 1] == a + b[..|b| - 1];
      TotalSizeConcat(a, b[..|b| - 1]);
    }
  }

  lemma {:induction false} PrefixSizeBounded(fs: seq<FileAge>, k: nat)
    requires k <= |fs|
    ensures TotalSize(fs[..k]) <= TotalSize(fs)
  {
    assert fs == fs[..k] + fs[k..];
    TotalSizeConcat(fs[..k], fs[k..]);
  }

  predicate SortedByAtime(fs: seq<FileAge>) {
    forall i, j :: 0 <= i < j < |fs| ==> fs[i].atime <= fs[j].atime
  }

  /** Puts `f` before the first entry that is not older, so equal ages keep
      their relative order. */
  function Insert(f: FileAge, fs: seq<FileAge>): seq<FileAge>
    decreases |fs|
  {
    if |fs| == 0 || f.atime <= fs[0].atime then [f] + fs
    else [fs[0]] + Insert(f, fs[1..])
  }

  lemma {:induction false} InsertPermutes(f: FileAge, fs: seq<FileAge>)
    ensures multiset(Insert(f, fs)) == multiset(fs) + multiset{f}
    decreases |fs|
  {
    if |fs| > 0 && f.atime > fs[0].atime {
      InsertPermutes(f, fs[1..]);
      assert fs == [fs[0]] + fs[1..];
    }
  }

  lemma {:induction false} InsertSorted(f: FileAge, fs: seq<FileAge>)
    requires SortedByAtime(fs)
    ensures SortedByAtime(Insert(f, fs))
    decreases |fs|
  {
    if |fs| > 0 && f.atime > fs[0].atime {
      InsertSorted(f, fs[1..]);
      InsertPermutes(f, fs[1..]);
      var rest := Insert(f, fs[1..]);
      forall i | 0 <= i < |rest| ensures fs[0].atime <= rest[i].atime {
        assert rest[i] in multiset(rest);
        assert rest[i] == f || rest[i] in multiset(fs[1..]);
      }
    }
  }

  /** `file_ages.sort(key=itemgetter(2))`, as an insertion sort: a
      permutation ordered by access time (stability is `SortIsStable`). */
  function SortByAtime(fs: seq<FileAge>): (r: seq<FileAge>)
    ensures multiset(r) == multiset(fs) && SortedByAtime(r)
    decreases |fs|
  {
    if |fs| == 0 then []
    else
      var rest := SortByAtime(fs[1..]);
      InsertStep(fs, rest);
      Insert(fs[0], rest)
  }

  /** Inserting the head into a sorted permutation of the tail sorts the list. */
  lemma InsertStep(fs: seq<FileAge>, rest: seq<FileAge>)
    requires |fs| > 0 && multiset(rest) == multiset(fs[1..]) && SortedByAtime(rest)
    ensures multiset(Insert(fs[0], rest)) == multiset(fs) && SortedByAtime(Insert(fs[0], rest))
  {
    InsertPermutes(fs[0], rest);
    InsertSorted(fs[0], rest);
    assert fs == [fs[0]] + fs[1..];
  }

  /** The entries with a given access time, in order. */
  function WithAtime(fs: seq<FileAge>, t: int): seq<FileAge>
    decreases |fs|
  {
    if |fs| == 0 then [] else (if fs[0].atime == t then [fs[0]] else []) + WithAtime(fs[1..], t)
  }

  lemma WithAtimeCons(x: FileAge, xs: seq<FileAge>, t: int)
    ensures WithAtime([x] + xs, t) == (if x.atime == t then [x] else []) + WithAtime(xs, t)
  {
    assert ([x] + xs)[0] == x && ([x] + xs)[1..] == xs;
  }

  lemma {:induction false} InsertKeepsOrder(f: FileAge, fs: seq<FileAge>, t: int)
    ensures WithAtime(Insert(f, fs), t) == (if f.atime == t then [f] else []) + WithAtime(fs, t)
    decreases |fs|
  {
    if |fs| == 0 || f.atime <= fs[0].atime {
      WithAtimeCons(f, fs, t);
    } else {
      var rest := Insert(f, fs[1..]);
      InsertKeepsOrder(f, fs[1..], t);
      WithAtimeCons(fs[0], rest, t);
      WithAtimeCons(fs[0], fs[1..], t);
      assert fs == [fs[0]] + fs[1..];
      if f.atime == t {
        assert fs[0].atime != t;
        assert WithAtime(Insert(f, fs), t) == [f] + WithAtime(fs[1..], t);
      } else {
        assert WithAtime(Insert(f, fs), t) == (if fs[0].atime == t then [fs[0]] else []) + WithAtime(fs[1..], t);
      }
    }
  }

  /** The sort is stable: files with the same access time keep their order. */
  lemma {:induction false} SortIsStable(fs: seq<FileAge>, t: int)
    ensures WithAtime(SortByAtime(fs), t) == WithAtime(fs, t)
    decreases |fs|
  {
    if |fs| > 0 {
      SortIsStable(fs[1..], t);
      InsertKeepsOrder(fs[0], SortByAtime(fs[1..]), t);
    }
  }

  lemma TotalSizeCons(x: FileAge, xs: seq<FileAge>)
    ensures TotalSize([x] + xs) == x.size + TotalSize(xs)
  {
    TotalSizeConcat([x], xs);
    assert [x][..0] == [];
  }

  lemma {:induction false} TotalSizeOfSort(fs: seq<FileAge>)
    ensures TotalSize(SortByAtime(fs)) == TotalSize(fs)
    decreases |fs|
  {
    if |fs| > 0 {
      TotalSizeOfSort(fs[1..]);
      InsertSize(fs[0], SortByAtime(fs[1..]));
      assert fs == [fs[0]] + fs[1..];
      TotalSizeCons(fs[0], fs[1..]);
    }
  }

  lemma {:induction false} InsertSize(f: FileAge, fs: seq<FileAge>)
    ensures TotalSize(Insert(f, fs)) == f.size + TotalSize(fs)
    decreases |fs|
  {
    if |fs| == 0 || f.atime <= fs[0].atime {
      TotalSizeCons(f, fs);
    } else {
      InsertSize(f, fs[1..]);
      assert fs == [fs[0]] + fs[1..];
      TotalSizeCons(fs[0], fs[1..]);
      TotalSizeCons(fs[0], Insert(f, fs[1..]));
    }
  }

  /** The paths of `fs` that lie under `cleanPath`: the ones actually unlinked. */
  function UnderPath(fs: seq<FileAge>, cleanPath: String): (r: seq<String>)
    ensures forall p :: p in r ==> StartsWith(p, cleanPath)
    ensures |r| <= |fs|
    decreases |fs|
  {
    if |fs| == 0 then []
    else
      var last := fs[|fs| - 1];
      UnderPath(fs[..|fs| - 1], cleanPath) + (if StartsWith(last.path, cleanPath) then [last.path] else [])
  }

  /** `sorted[..k]` is the shortest prefix whose sizes reach `needed`. */
  ghost predicate ShortestCover(sorted: seq<FileAge>, k: nat, needed: int) {
    && 0 < k <= |sorted|
    && TotalSize(sorted[..k]) >= needed
    && forall j :: 0 <= j < k ==> TotalSize(sorted[..j]) < needed
  }

  datatype EvictError = NothingLeft   // `pop(0)` on an exhausted list

  /** The files `clean_dir` deletes and the paths it unlinks.

      Nothing goes when the total is within the quota. Otherwise the files,
      oldest access first, are taken until their sizes cover the excess: the
      shortest such prefix of the sorted list. A file outside `cleanPath`
      counts towards the excess but is not unlinked. A negative quota can
      never be covered and exhausts the list. */
  method Evict(files: seq<FileAge>, quota: int, cleanPath: String)
    returns (r: Result<(seq<FileAge>, seq<String>), EvictError>)
    ensures TotalSize(files) <= quota ==> r == Ok(([], []))
    ensures TotalSize(files) > quota ==>
      && (r.Err? <==> quota < 0)
      && (r.Ok? ==>
            var sorted := SortByAtime(files);
            var needed := TotalSize(files) - quota;
            exists k: nat ::
              && ShortestCover(sorted, k, needed)
              && r.value.0 == sorted[..k]
              && r.value.1 == UnderPath(sorted[..k], cleanPath))
  {
    var cur := TotalSize(files);
    if cur <= quota {
      return Ok(([], []));
    }
    var sorted := SortByAtime(files);
    TotalSizeOfSort(files);
    var k := CoverPrefix(sorted, cur - quota);
    if k.None? {
      return Err(NothingLeft);
    }
    PrefixSizeBounded(sorted, k.value);
    r := Ok((sorted[..k.value], UnderPath(sorted[..k.value], cleanPath)));
  }

  /** The `while deleted_size < needed_size` loop: how many files, from the
      front of the sorted list, are popped; None when `pop(0)` would run out. */
  method CoverPrefix(sorted: seq<FileAge>, needed: int) returns (k: Option<nat>)
    requires needed > 0
    ensures k.None? <==> TotalSize(sorted) < needed
    ensures k.Some? ==> ShortestCover(sorted, k.value, needed)
  {
    var deleted := 0;
    var n := 0;
    while deleted < needed
      invariant 0 <= n <= |sorted|
      invariant deleted == TotalSize(sorted[..n])
      invariant forall j :: 0 <= j < n ==> TotalSize(sorted[..j]) < needed
      decreases |sorted| - n
    {
      if n == |sorted| {
        assert sorted[..n] == sorted;
        return None;
      }
      assert sorted[..n + 1][..n] == sorted[..n];
      deleted := deleted + sorted[n].size;
      n := n + 1;
    }
    assert sorted[..0] == [];
    PrefixSizeBounded(sorted, n);
    return Some(n);
  }
}

=== FILE: file_lookup.dfy ===
/** Site selection and PFN resolution (fm/core/FileLookup.py).

    The regular expressions of the priority rules are an abstract pattern
    type `P` with a `matches` oracle standing for `pattern.search(site)`, and
    `compile` stands for `re.compile` (None when it raises). PhEDEx, DBS and
    SiteDB answers, the `lcg-getturls` output and the clock are parameters. */
module FileLookup {
  import opened Wrappers
  import opened Strings

  datatype LookupError =
    | NoPriorityRules          // the priority section is missing or empty
    | BadPattern(value: String) // `re.compile` rejected a rule
    | NoMatch(replicas: seq<String>) // no replica matches any priority
    | NoSite(lfn: String)      // neither PhEDEx nor DBS/SiteDB gave a site
    | Upstream(msg: String)    // an exception raised by a service call
    | BadSurl(surl: String)    // the SURL guard of `_lookup`
    | NoTurl(surl: String)     // `lcg-getturls` failed without a gsiftp answer

  // ---------------------------------------------------------------------------
  // pickSite

  /** Replica `i` is usable under priority `p`: it is not excluded and the
      priority's pattern finds it. */
  ghost predicate Eligible<P>(priorities: map<int, P>, replicas: seq<String>, exclude: seq<String>,
                              matches: (P, String) -> bool, p: int, i: int)
  {
    && p in priorities && 0 <= i < |replicas|
    && replicas[i] !in exclude && matches(priorities[p], replicas[i])
  }

  /** `site` is what the scan of `pickSite` stops at: the first usable
      replica under the smallest priority that has one. */
  ghost predicate PickedBy<P>(priorities: map<int, P>, replicas: seq<String>, exclude: seq<String>,
                              matches: (P, String) -> bool, site: String)
  {
    exists p, i ::
      && Eligible(priorities, replicas, exclude, matches, p, i)
      && site == replicas[i]
      && (forall q, j :: q < p ==> !Eligible(priorities, replicas, exclude, matches, q, j))
      && (forall j :: j < i ==> !Eligible(priorities, replicas, exclude, matches, p, j))
  }

  /** The scan stops at one place only: at most one site is picked. */
  lemma PickedByUnique<P>(priorities: map<int, P>, replicas: seq<String>, exclude: seq<String>,
                          matches: (P, String) -> bool, s1: String, s2: String)
    requires PickedBy(priorities, replicas, exclude, matches, s1)
    requires PickedBy(priorities, replicas, exclude, matches, s2)
    ensures s1 == s2
  {
    var p1, i1 :| && Eligible(priorities, replicas, exclude, matches, p1, i1) && s1 == replicas[i1]
                  && (forall q, j :: q < p1 ==> !Eligible(priorities, replicas, exclude, matches, q, j))
                  && (forall j :: j < i1 ==> !Eligible(priorities, replicas, exclude, matches, p1, j));
    var p2, i2 :| && Eligible(priorities, replicas, exclude, matches, p2, i2) && s2 == replicas[i2]
                  && (forall q, j :: q < p2 ==> !Eligible(priorities, replicas, exclude, matches, q, j))
                  && (forall j :: j < i2 ==> !Eligible(priorities, replicas, exclude, matches, p2, j));
    assert p1 == p2;
    assert i1 == i2;
  }

  /** A finite set of integers with a member `y` has a least element. */
  lemma {:induction false} MinFrom(s: set<int>, y: int)
    requires y in s
    ensures exists m :: m in s && forall z :: z in s ==> m <= z
    decreases s
  {
    if exists z :: z in s && z < y {
      var z :| z in s && z < y;
      MinFrom(s - {y}, z);
      var m :| m in s - {y} && forall w :: w in s - {y} ==> m <= w;
      forall w | w in s ensures m <= w {
        if w != y {
          assert w in s - {y};
        }
      }
    } else {
      assert forall w :: w in s ==> y <= w;
    }
  }

  /** `pickSite`: priorities in ascending order, replicas in input order,
      excluded sites skipped. */
  method PickSite<P>(priorities: map<int, P>, replicas: seq<String>, exclude: seq<String>,
                     matches: (P, String) -> bool)
    returns (r: Result<String, LookupError>)
    ensures r.Ok? <==> exists p, i :: Eligible(priorities, replicas, exclude, matches, p, i)
    ensures r.Ok? ==> PickedBy(priorities, replicas, exclude, matches, r.value)
    ensures r.Err? ==> r.error == NoMatch(replicas)
  {
    var remaining := priorities.Keys;
    while true
      invariant remaining <= priorities.Keys
      invariant forall q, j :: q in priorities && q !in remaining ==>
        !Eligible(priorities, replicas, exclude, matches, q, j)
      invariant forall q, q' :: q in priorities && q !in remaining && q' in remaining ==> q < q'
      decreases |remaining|
    {
      if y :| y in remaining {
        MinFrom(remaining, y);
      } else {
        break;
      }
      var p :| p in remaining && forall z :: z in remaining ==> p <= z;
      var i := 0;
      while i < |replicas|
        invariant 0 <= i <= |replicas|
        invariant forall j :: 0 <= j < i ==> !Eligible(priorities, replicas, exclude, matches, p, j)
      {
        if replicas[i] !in exclude && matches(priorities[p], replicas[i]) {
          assert Eligible(priorities, replicas, exclude, matches, p, i);
          return Ok(replicas[i]);
        }
        i := i + 1;
      }
      remaining := remaining - {p};
    }
    return Err(NoMatch(replicas));
  }

  // ---------------------------------------------------------------------------
  // _parse_priority_rules

  /** Length of the leading run of decimal digits. */
  function LeadingDigits(s: String): (k: nat)
    ensures k <= |s| && AllDigits(s[..k])
    ensures k < |s| ==> !IsDigit(s[k])
    decreases |s|
  {
    if |s| == 0 || !IsDigit(s[0]) then 0
    else
      var k := 1 + LeadingDigits(s[1..]);
      assert forall i :: 1 <= i < k ==> s[..k][i] == s[1..][..k - 1][i - 1];
      k
  }

  /** The priority named by a rule: `priority_([0-9]+)` matched at the start
      of the name (not anchored at its end). */
  function PriorityOf(name: String): (r: Option<int>)
    ensures r.Some? <==> StartsWith(name, "priority_") && |name| > 9 && IsDigit(name[9])
    ensures r.Some? ==> r.value >= 0
  {
    if StartsWith(name, "priority_") && |name| > 9 && IsDigit(name[9]) then
      var digits := name[9..];
      Some(DigitsValue(digits[..LeadingDigits(digits)]))
    else None
  }

  /** Any text after the digits is ignored; the digits are read in decimal. */
  lemma PriorityOfRendered(n: nat, suffix: String)
    requires |suffix| == 0 || !IsDigit(suffix[0])
    ensures PriorityOf("priority_" + NatToString(n) + suffix) == Some(n)
  {
    var ds := NatToString(n);
    var name := "priority_" + ds + suffix;
    assert name[9..] == ds + suffix;
    LeadingRun(ds, suffix);
    assert (ds + suffix)[..|ds|] == ds;
    NatToStringValue(n);
  }

  lemma {:induction false} LeadingRun(ds: String, suffix: String)
    requires AllDigits(ds)
    requires |suffix| == 0 || !IsDigit(suffix[0])
    ensures LeadingDigits(ds + suffix) == |ds|
    decreases |ds|
  {
    if |ds| > 0 {
      assert (ds + suffix)[1..] == ds[1..] + suffix;
      LeadingRun(ds[1..], suffix);
    } else {
      assert ds + suffix == suffix;
    }
  }

  /** No later rule names the same priority as rule `i`. */
  ghost predicate LastWith(items: seq<(String, String)>, i: int)
    requires 0 <= i < |items|
  {
    forall j :: i < j < |items| ==> PriorityOf(items[j].0) != PriorityOf(items[i].0)
  }

  /** One pass of the loop of `_parse_priority_rules`: the value is stripped
      and compiled (even when the name is then skipped), and a named priority
      replaces whatever an earlier rule gave it. */
  function AddRule<P>(m: map<int, P>, item: (String, String), compile: String -> Option<P>)
    : (r: Result<map<int, P>, LookupError>)
    ensures r.Err? <==> compile(Strip(item.1)).None?
    ensures r.Err? ==> r.error == BadPattern(Strip(item.1))
    ensures r.Ok? && PriorityOf(item.0).None? ==> r.value == m
    ensures r.Ok? && PriorityOf(item.0).Some? ==>
      r.value == m[PriorityOf(item.0).value := compile(Strip(item.1)).value]
  {
    match compile(Strip(item.1))
    case None => Err(BadPattern(Strip(item.1)))
    case Some(pat) =>
      match PriorityOf(item.0)
      case None => Ok(m)
      case Some(k) => Ok(m[k := pat])
  }

  /** The loop of `_parse_priority_rules` over the section's items. */
  function ParseRules<P>(items: seq<(String, String)>, compile: String -> Option<P>)
    : (r: Result<map<int, P>, LookupError>)
    ensures r.Ok? <==> forall i :: 0 <= i < |items| ==> compile(Strip(items[i].1)).Some?
    ensures r.Err? ==> r.error.BadPattern?
    decreases |items|
  {
    if |items| == 0 then Ok(map[])
    else
      var prev := ParseRules(items[..|items| - 1], compile);
      assert forall i :: 0 <= i < |items| - 1 ==> items[..|items| - 1][i] == items[i];
      if prev.Err? then prev else AddRule(prev.value, items[|items| - 1], compile)
  }

  /** A rule that does not compile raises, and the one reported is the first. */
  lemma {:induction false} ParseRulesFirstError<P>(items: seq<(String, String)>, compile: String -> Option<P>, i: int)
    requires 0 <= i < |items| && compile(Strip(items[i].1)).None?
    requires forall j :: 0 <= j < i ==> compile(Strip(items[j].1)).Some?
    ensures ParseRules(items, compile) == Err(BadPattern(Strip(items[i].1)))
    decreases |items|
  {
    var n := |items| - 1;
    var front := items[..n];
    if i < n {
      assert front[i] == items[i];
      assert forall j :: 0 <= j < i ==> front[j] == items[j];
      ParseRulesFirstError(front, compile, i);
    } else {
      assert forall j :: 0 <= j < n ==> front[j] == items[j];
    }
  }

  /** The parsed priorities are exactly those named by some rule. */
  lemma {:induction false} ParseRulesKeys<P>(items: seq<(String, String)>, compile: String -> Option<P>, k: int)
    requires ParseRules(items, compile).Ok?
    ensures k in ParseRules(items, compile).value <==>
      exists i :: 0 <= i < |items| && PriorityOf(items[i].0) == Some(k)
    decreases |items|
  {
    if |items| > 0 {
      var n := |items| - 1;
      var front := items[..n];
      ParseRulesKeys(front, compile, k);
      if exists i :: 0 <= i < n && PriorityOf(front[i].0) == Some(k) {
        var i :| 0 <= i < n && PriorityOf(front[i].0) == Some(k);
        assert front[i] == items[i];
      }
      if exists i :: 0 <= i < |items| && PriorityOf(items[i].0) == Some(k) {
        var i :| 0 <= i < |items| && PriorityOf(items[i].0) == Some(k);
        if i < n {
          assert front[i] == items[i];
        }
      }
    }
  }

  /** The last rule naming a priority decides its pattern. */
  lemma {:induction false} ParseRulesLastWins<P>(items: seq<(String, String)>, compile: String -> Option<P>, i: int)
    requires ParseRules(items, compile).Ok?
    requires 0 <= i < |items| && PriorityOf(items[i].0).Some? && LastWith(items, i)
    ensures PriorityOf(items[i].0).value in ParseRules(items, compile).value
    ensures ParseRules(items, compile).value[PriorityOf(items[i].0).value] == compile(Strip(items[i].1)).value
    decreases |items|
  {
    var n := |items| - 1;
    var front := items[..n];
    if i < n {
      assert front[i] == items[i];
      assert LastWith(front, i) by {
        forall j | i < j < |front| ensures PriorityOf(front[j].0) != PriorityOf(front[i].0) {
          assert front[j] == items[j];
        }
      }
      ParseRulesLastWins(front, compile, i);
      assert PriorityOf(items[n].0) != PriorityOf(items[i].0);
    }
  }

  /** `_parse_priority_rules`: `section` is None when the configuration has
      no such section. */
  function ParsePriorityRules<P>(section: Option<seq<(String, String)>>, compile: String -> Option<P>)
    : (r: Result<map<int, P>, LookupError>)
    ensures section.None? || |section.value| == 0 ==> r == Err(NoPriorityRules)
    ensures section.Some? && |section.value| > 0 ==> r == ParseRules(section.value, compile)
  {
    if section.None? || |section.value| == 0 then Err(NoPriorityRules)
    else ParseRules(section.value, compile)
  }

  // ---------------------------------------------------------------------------
  // removeBadSites

  /** `removeBadSites`: the sites, in order, without the ones that are down. */
  function RemoveBadSites(sites: seq<String>, down: set<String>): (r: seq<String>)
    ensures forall s :: s in r <==> s in sites && s !in down
    ensures forall s :: multiset(r)[s] == if s in down then 0 else multiset(sites)[s]
    ensures |r| <= |sites|
    decreases |sites|
  {
    if |sites| == 0 then []
    else
      var rest := RemoveBadSites(sites[1..], down);
      assert sites == [sites[0]] + sites[1..];
      if sites[0] in down then rest else [sites[0]] + rest
  }

  /** Filtering distributes over concatenation, so it keeps the input order. */
  lemma {:induction false} RemoveBadSitesAppend(a: seq<String>, b: seq<String>, down: set<String>)
    ensures RemoveBadSites(a + b, down) == RemoveBadSites(a, down) + RemoveBadSites(b, down)
    decreases |a|
  {
    if |a| == 0 {
      assert a + b == b;
    } else {
      assert (a + b)[1..] == a[1..] + b;
      RemoveBadSitesAppend(a[1..], b, down);
    }
  }

  /** Filtering twice is filtering once. */
  lemma {:induction false} RemoveBadSitesIdempotent(sites: seq<String>, down: set<String>)
    ensures RemoveBadSites(RemoveBadSites(sites, down), down) == RemoveBadSites(sites, down)
    decreases |sites|
  {
    if |sites| > 0 {
      RemoveBadSitesIdempotent(sites[1..], down);
    }
  }

  // ---------------------------------------------------------------------------
  // getSiteFromSDB

  /** The largest string of a non-empty list under Python's `<=`
      (`mylist.sort(); mylist[-1]`). */
  function MaxLex(xs: seq<String>): (r: String)
    requires |xs| > 0
    ensures r in xs && forall x :: x in xs ==> LexLe(x, r)
    decreases |xs|
  {
    if |xs| == 1 then
      LexLeReflexive(xs[0]);
      xs[0]
    else
      var m := MaxLex(xs[1..]);
      LexLeTotal(xs[0], m);
      if LexLe(m, xs[0]) then
        forall x | x in xs[1..] ensures LexLe(x, xs[0]) {
          LexLeTransitive(x, m, xs[0]);
        }
        LexLeReflexive(xs[0]);
        xs[0]
      else
        assert xs == [xs[0]] + xs[1..];
        m
  }

  lemma {:induction false} LexLeReflexive(a: String)
    ensures LexLe(a, a)
    decreases |a|
  {
    if |a| > 0 {
      LexLeReflexive(a[1..]);
    }
  }

  /** The SiteDB names of one storage element, without Tier-0 names. */
  function NonT0(names: seq<String>): (r: seq<String>)
    ensures forall n :: n in r <==> n in names && !Contains(n, "T0_")
    decreases |names|
  {
    if |names| == 0 then []
    else
      var rest := NonT0(names[1..]);
      assert names == [names[0]] + names[1..];
      if Contains(names[0], "T0_") then rest else [names[0]] + rest
  }

  /** The loop of `getSiteFromSDB`: the largest non-Tier-0 name of the first
      storage element that has one, or "" when none has. */
  function SdbSite(seList: seq<String>, names: String -> seq<String>): (r: String)
    ensures (forall k :: 0 <= k < |seList| ==> NonT0(names(seList[k])) == []) ==> r == ""
    ensures r != "" ==> exists k ::
      && 0 <= k < |seList|
      && (forall j :: 0 <= j < k ==> NonT0(names(seList[j])) == [])
      && r in NonT0(names(seList[k]))
      && forall n :: n in NonT0(names(seList[k])) ==> LexLe(n, r)
    decreases |seList|
  {
    if |seList| == 0 then ""
    else
      var candidates := NonT0(names(seList[0]));
      if |candidates| > 0 then MaxLex(candidates)
      else
        var r := SdbSite(seList[1..], names);
        assert forall k :: 1 <= k < |seList| ==> seList[1..][k - 1] == seList[k];
        r
  }

  /** SiteDB names a Tier-1 site `T1_XX_YYY` where PhEDEx expects its buffer
      node `T1_XX_YYY_Buffer`. */
  function T1Buffer(site: String): (r: String)
    ensures StartsWith(r, site)
    ensures r != site <==> StartsWith(site, "T1") && !Contains(site, "Buffer")
  {
    if StartsWith(site, "T1") && !Contains(site, "Buffer") then site + "_Buffer" else site
  }

  /** Applying the Tier-1 rename twice is the same as once. */
  lemma T1BufferIdempotent(site: String)
    ensures T1Buffer(T1Buffer(site)) == T1Buffer(site)
  {
    var r := T1Buffer(site);
    if r != site {
      assert r[|site| + 1..|site| + 7] == "Buffer";
      assert OccursAt(r, "Buffer", |site| + 1);
    }
  }

  /** `getSiteFromSDB`. */
  function SiteFromSdb(seList: seq<String>, names: String -> seq<String>): (r: String)
    ensures r == "" <==> SdbSite(seList, names) == ""
    ensures StartsWith(r, SdbSite(seList, names))
    ensures T1Buffer(r) == r
  {
    T1BufferIdempotent(SdbSite(seList, names));
    T1Buffer(SdbSite(seList, names))
  }

  // ---------------------------------------------------------------------------
  // The PFN cache of getPFN

  /** `_lfns` and `_lfns_cache` together: (lfn, protocol) -> (pfn, time stored).
      The two dictionaries are always written together. */
  type PfnKey = (String, Option<String>)
  type PfnCache = map<PfnKey, (String, int)>

  const CACHE_SECONDS: int := 10

  /** The cached PFN when it was stored less than ten seconds before `now`. */
  function CacheLookup(cache: PfnCache, key: PfnKey, now: int): (r: Option<String>)
    ensures r.Some? <==> key in cache && now - cache[key].1 < CACHE_SECONDS
    ensures r.Some? ==> r.value == cache[key].0
  {
    if key in cache && now - cache[key].1 < CACHE_SECONDS then Some(cache[key].0) else None
  }

  /** A lookup right after a store at time `t` answers with the stored PFN
      until ten seconds have passed, and other keys are unaffected. */
  lemma StoreThenLookup(cache: PfnCache, key: PfnKey, pfn: String, t: int, now: int, other: PfnKey)
    requires other != key
    ensures CacheLookup(cache[key := (pfn, t)], key, now) == if now - t < CACHE_SECONDS then Some(pfn) else None
    ensures CacheLookup(cache[key := (pfn, t)], other, now) == CacheLookup(cache, other, now)
  {
  }

  /** `mapLFN` falls back to srmv2 when no protocol is given. */
  function EffectiveProtocol(protocol: Option<String>): (r: String)
    ensures protocol.Some? && protocol.value != "" ==> r == protocol.value
    ensures protocol.None? || protocol.value == "" ==> r == "srmv2"
  {
    if protocol.None? || protocol.value == "" then "srmv2" else protocol.value
  }

  /** The PhEDEx route of `getPFN` succeeds. */
  ghost predicate PhedexRoute<P>(priorities: map<int, P>, replicas: Result<seq<String>, String>,
                                 exclude: seq<String>, matches: (P, String) -> bool)
  {
    && replicas.Ok? && |replicas.value| > 0
    && exists p, i :: Eligible(priorities, replicas.value, exclude, matches, p, i)
  }

  /** The storage elements of a `blockSiteLookup` answer. */
  function SeList(pairs: seq<(String, String)>): (r: seq<String>)
    ensures |r| == |pairs| && forall i :: 0 <= i < |r| ==> r[i] == pairs[i].1
  {
    seq(|pairs|, i requires 0 <= i < |pairs| => pairs[i].1)
  }

  /** The answer of `getPFN` once a site is chosen: the mapped PFN with the
      site, or the mapping's exception. */
  function Mapped(pfn: Result<String, String>, site: String): (r: Result<(String, String), LookupError>)
    ensures pfn.Ok? ==> r == Ok((pfn.value, site))
    ensures pfn.Err? ==> r == Err(Upstream(pfn.error))
  {
    if pfn.Ok? then Ok((pfn.value, site)) else Err(Upstream(pfn.error))
  }

  /** `getPFN`. `replicas` is the answer of `replicas(lfn)`, `blockSites` that
      of `blockSiteLookup(lfn)`, `names` the SiteDB names of a storage element
      and `mapLfn` the PhEDEx mapping of (site, protocol); errors are the text
      of the exception raised. */
  method GetPfn<P>(cache: PfnCache, lfn: String, protocol: Option<String>, exclude: seq<String>, now: int,
                   priorities: map<int, P>, matches: (P, String) -> bool,
                   replicas: Result<seq<String>, String>,
                   blockSites: Result<seq<(String, String)>, String>,
                   names: String -> seq<String>,
                   mapLfn: (String, String) -> Result<String, String>)
    returns (cache': PfnCache, r: Result<(String, String), LookupError>)
    ensures CacheLookup(cache, (lfn, protocol), now).Some? ==>
      cache' == cache && r == Ok((CacheLookup(cache, (lfn, protocol), now).value, ""))
    ensures CacheLookup(cache, (lfn, protocol), now).None? && r.Ok? ==>
      && cache' == cache[(lfn, protocol) := (r.value.0, now)]
      && mapLfn(r.value.1, EffectiveProtocol(protocol)) == Ok(r.value.0)
    ensures r.Err? ==> cache' == cache
    ensures (CacheLookup(cache, (lfn, protocol), now).None? && r.Ok? &&
             PhedexRoute(priorities, replicas, exclude, matches)) ==>
      PickedBy(priorities, replicas.value, exclude, matches, r.value.1)
    ensures (CacheLookup(cache, (lfn, protocol), now).None? &&
             !PhedexRoute(priorities, replicas, exclude, matches)) ==>
      && (blockSites.Err? ==> r == Err(Upstream(blockSites.error)))
      && (blockSites.Ok? && SiteFromSdb(SeList(blockSites.value), names) == "" ==> r == Err(NoSite(lfn)))
      && (r.Ok? ==> blockSites.Ok? && r.value.1 == SiteFromSdb(SeList(blockSites.value), names))
    ensures forall site :: (CacheLookup(cache, (lfn, protocol), now).None? && replicas.Ok? &&
                            PickedBy(priorities, replicas.value, exclude, matches, site)) ==>
      r == Mapped(mapLfn(site, EffectiveProtocol(protocol)), site)
    ensures (CacheLookup(cache, (lfn, protocol), now).None? &&
             !PhedexRoute(priorities, replicas, exclude, matches) &&
             blockSites.Ok? && SiteFromSdb(SeList(blockSites.value), names) != "") ==>
      var site := SiteFromSdb(SeList(blockSites.value), names);
      r == Mapped(mapLfn(site, EffectiveProtocol(protocol)), site)
  {
    var key := (lfn, protocol);
    var hit := CacheLookup(cache, key, now);
    if hit.Some? {
      return cache, Ok((hit.value, ""));
    }
    var site: String;
    var picked: Result<String, LookupError> := Err(NoMatch([]));
    if replicas.Ok? && |replicas.value| > 0 {
      picked := PickSite(priorities, replicas.value, exclude, matches);
    }
    if picked.Ok? {
      site := picked.value;
      forall s | PickedBy(priorities, replicas.value, exclude, matches, s) ensures s == site {
        PickedByUnique(priorities, replicas.value, exclude, matches, s, site);
      }
    } else {
      if blockSites.Err? {
        return cache, Err(Upstream(blockSites.error));
      }
      var ses := SeList(blockSites.value);
      if |ses| == 0 {
        return cache, Err(NoSite(lfn));
      }
      site := SiteFromSdb(ses, names);
      if site == "" {
        return cache, Err(NoSite(lfn));
      }
    }
    var pfn := mapLfn(site, EffectiveProtocol(protocol));
    if pfn.Err? {
      return cache, Err(Upstream(pfn.error));
    }
    return cache[key := (pfn.value, now)], Ok((pfn.value, site));
  }

  // ---------------------------------------------------------------------------
  // The SURL guard of _lookup

  /** The language of `(sfn|srm)://[a-zA-Z0-9].*.*root$` under `re.match`:
      `.` does not match a newline and `$` also matches before one final
      newline. */
  ghost predicate SurlPattern(s: String) {
    exists scheme: String, c: char, x: String, t: String ::
      && (scheme == "sfn" || scheme == "srm")
      && IsAlnum(c) && '\n' !in x && (t == "" || t == "\n")
      && s == scheme + "://" + [c] + x + "root" + t
  }

  /** The text with one trailing newline removed, if it has one. */
  function DropNewline(s: String): String {
    if |s| > 0 && s[|s| - 1] == '\n' then s[..|s| - 1] else s
  }

  /** The scanner standing for the regular expression. */
  predicate MatchesSurlPattern(s: String) {
    var core := DropNewline(s);
    && |core| >= 11
    && (core[..6] == "sfn://" || core[..6] == "srm://")
    && IsAlnum(core[6])
    && core[|core| - 4..] == "root"
    && '\n' !in core[7..|core| - 4]
  }

  /** What the scanner accepts has the form the expression describes. */
  lemma SurlScannerSound(s: String)
    requires MatchesSurlPattern(s)
    ensures SurlPattern(s)
  {
    var core := DropNewline(s);
    var t := if |s| > 0 && s[|s| - 1] == '\n' then "\n" else "";
    assert s == core + t;
    var scheme := if core[..6] == "sfn://" then "sfn" else "srm";
    var x := core[7..|core| - 4];
    assert core[..6] == scheme + "://";
    assert core[6..7] == [core[6]];
    assert core == core[..6] + core[6..7] + x + core[|core| - 4..];
    assert core == scheme + "://" + [core[6]] + x + "root";
  }

  /** Everything of the form the expression describes passes the scanner. */
  lemma SurlScannerComplete(scheme: String, c: char, x: String, t: String)
    requires scheme == "sfn" || scheme == "srm"
    requires IsAlnum(c) && '\n' !in x && (t == "" || t == "\n")
    ensures MatchesSurlPattern(scheme + "://" + [c] + x + "root" + t)
  {
    var pre := scheme + "://";
    var core := pre + [c] + x + "root";
    var s := core + t;
    assert scheme + "://" + [c] + x + "root" + t == s;
    assert DropNewline(s) == core by {
      if t == "\n" {
        assert s[..|s| - 1] == core;
      } else {
        assert s == core;
      }
    }
    assert core[..6] == pre;
    assert core[6] == c;
    assert core[7..|core| - 4] == x;
    assert core[|core| - 4..] == "root";
  }

  /** The scanner accepts exactly the language of the expression. */
  lemma SurlPatternIff(s: String)
    ensures MatchesSurlPattern(s) <==> SurlPattern(s)
  {
    if MatchesSurlPattern(s) {
      SurlScannerSound(s);
    }
    if SurlPattern(s) {
      var scheme: String, c: char, x: String, t: String :|
        && (scheme == "sfn" || scheme == "srm")
        && IsAlnum(c) && '\n' !in x && (t == "" || t == "\n")
        && s == scheme + "://" + [c] + x + "root" + t;
      SurlScannerComplete(scheme, c, x, t);
    }
  }

  /** `_lookup(SURL)`: a SURL of the documented form is refused (the guard
      raises when the pattern matches); otherwise `lcg-getturls` answers
      with `output`, `failed` telling whether the command exited non-zero. */
  function Lookup(surl: String, output: String, failed: bool): (r: Result<String, LookupError>)
    ensures r == Err(BadSurl(surl)) <==> SurlPattern(surl)
    ensures r.Ok? ==> !SurlPattern(surl) && r.value == Strip(output)
    ensures !SurlPattern(surl) && failed && !StartsWith(output, "gsiftp://") ==> r == Err(NoTurl(surl))
  {
    SurlPatternIff(surl);
    if MatchesSurlPattern(surl) then Err(BadSurl(surl))
    else if failed && !StartsWith(output, "gsiftp://") then Err(NoTurl(surl))
    else Ok(Strip(output))
  }

  /** A well-formed SURL is refused while a gsiftp URL is passed on to
      `lcg-getturls`. */
  lemma SurlExamples()
    ensures Lookup("srm://se/a.root", "", false) == Err(BadSurl("srm://se/a.root"))
    ensures Lookup("gsiftp://se/a.root", "gsiftp://t", false) == Ok("gsiftp://t")
  {
    var good := "srm://se/a.root";
    assert good[..6] == "srm://";
    assert good[7..|good| - 4] == "e/a.";
    assert MatchesSurlPattern(good);
    assert "gsiftp://se/a.root"[..6] == "gsiftp";
    assert Strip("gsiftp://t") == "gsiftp://t";
  }
}

=== FILE: file_manager.dfy ===
/** The request table of fm/core/FileManager.py.

    `request`, `cancel` and `status` each run entirely under the manager's
    request lock, so each is one atomic transition on an immutable
    `Manager`. Movers are opaque handles: what their `request()` and
    `status()` calls answer is given as a parameter, and a mover's `cancel()`
    is recorded in the `cancelled` log. */
module FileManager {
  import opened Wrappers
  import opened Strings
  import opened Status
  import Lfn
  import ThreadPool
  import FileMover

  /** A requesting user; Python's `None` is the anonymous user. */
  type User = Option<String>

  /** The super-user whose cancel overrides every other interest. */
  const ROOT: User := Some("root")

  /** Identity of one FileMover object. */
  type Handle = nat

  const MSG_INTERNAL_ERROR: String := "Unknown status; internal error."

  datatype Manager = Manager(
    lfnRequests: map<String, Handle>,            // `lfn_requests`
    userRequests: map<User, set<String>>,        // `user_requests`
    userLfnRequests: map<String, set<User>>,     // `user_lfn_requests`
    failedLfns: map<String, StatusPair>,         // `failed_lfns`
    pool: Option<ThreadPool.Pool<Handle>>,       // None until `configure`
    nextHandle: Handle,                          // the next FileMover created
    cancelled: seq<Handle>,                      // movers whose `cancel()` was called, in order
    base: String,                                // `base`
    quota: int,                                  // `max_size_gb * 1024**3`, in bytes
    configured: bool)

  datatype ManagerError =
    | BadLfn(lfn: String)                         // `validate_lfn` raised
    | MoverRequestFailed(error: FileMover.MoverError) // the new mover's `request()` raised
    | NotConfigured                               // `pool` is still None
    | QueueRefused                                // the pool is draining
    | NoSuchUser(user: User)                      // `user_requests[user]` raised KeyError
    | NoSuchLfnUsers(lfn: String)                 // `user_lfn_requests[lfn]` raised KeyError
    | UserListUnprintable                         // `', '.join(user_req)` met the user None

  /** What `status` answers: a status tuple or a bare message. */
  datatype Reply = Tuple(pair: StatusPair) | Message(text: String)

  function NewManager(): (m: Manager)
    ensures Inv(m) && !m.configured && m.pool.None?
  {
    Manager(map[], map[], map[], map[], None, 0, [], "", 0, false)
  }

  // ---------------------------------------------------------------------------
  // The invariant of the three request maps

  /** `u` is listed among the users interested in `lfn`. */
  predicate Interested(ulr: map<String, set<User>>, lfn: String, u: User) {
    lfn in ulr && u in ulr[lfn]
  }

  /** `lfn` is listed among the requests of `u`. */
  predicate Requested(ur: map<User, set<String>>, u: User, lfn: String) {
    u in ur && lfn in ur[u]
  }

  /** The two user maps describe the same relation. */
  ghost predicate Linked(ur: map<User, set<String>>, ulr: map<String, set<User>>) {
    forall lfn, u :: Interested(ulr, lfn, u) <==> Requested(ur, u, lfn)
  }

  /** The user maps agree, every tracked LFN has an entry of interested
      users, and no LFN is both tracked and failed. */
  ghost predicate Inv(m: Manager) {
    && Linked(m.userRequests, m.userLfnRequests)
    && m.lfnRequests.Keys <= m.userLfnRequests.Keys
    && m.lfnRequests.Keys !! m.failedLfns.Keys
  }

  // ---------------------------------------------------------------------------
  // Operations

  /** `_add_user_request`: records the interest in both directions. */
  function AddUserRequest(m: Manager, lfn: String, user: User): (r: Manager)
    ensures r == m.(userRequests := r.userRequests, userLfnRequests := r.userLfnRequests)
    ensures forall l, u :: Requested(r.userRequests, u, l) <==> Requested(m.userRequests, u, l) || (u == user && l == lfn)
    ensures forall l, u :: Interested(r.userLfnRequests, l, u) <==> Interested(m.userLfnRequests, l, u) || (u == user && l == lfn)
  {
    var mine := if user in m.userRequests then m.userRequests[user] else {};
    var theirs := if lfn in m.userLfnRequests then m.userLfnRequests[lfn] else {};
    m.(userRequests := m.userRequests[user := mine + {lfn}],
       userLfnRequests := m.userLfnRequests[lfn := theirs + {user}])
  }

  /** A new mover `h` tracks `lfn` on behalf of `user`. */
  function Register(m: Manager, lfn: String, user: User, h: Handle): (r: Manager)
    ensures r == m.(lfnRequests := m.lfnRequests[lfn := h],
                    userRequests := r.userRequests, userLfnRequests := r.userLfnRequests)
    ensures forall l, u :: Requested(r.userRequests, u, l) <==> Requested(m.userRequests, u, l) || (u == user && l == lfn)
    ensures forall l, u :: Interested(r.userLfnRequests, l, u) <==> Interested(m.userLfnRequests, l, u) || (u == user && l == lfn)
  {
    AddUserRequest(m, lfn, user).(lfnRequests := m.lfnRequests[lfn := h])
  }

  /** Removes `lfn` from the requests of every user in `users`. */
  function StripLfn(ur: map<User, set<String>>, users: set<User>, lfn: String): (r: map<User, set<String>>)
    ensures r.Keys == ur.Keys
    ensures forall u :: u in r ==> r[u] == if u in users then ur[u] - {lfn} else ur[u]
  {
    map u | u in ur :: if u in users then ur[u] - {lfn} else ur[u]
  }

  /** `request`. An untracked LFN gets one new mover, which is asked to
      resolve the file and is queued once; a tracked one only gains the
      user's interest. A failure record is dropped first in both cases. */
  function Request(m: Manager, lfn: String, user: User, moverRequest: Outcome<FileMover.MoverError>)
    : (r: (Manager, Outcome<ManagerError>))
    ensures !Lfn.LfnGrammar(lfn) ==> r == (m, Fail(BadLfn(lfn)))
    ensures Lfn.LfnGrammar(lfn) ==> lfn !in r.0.failedLfns && r.0.failedLfns == m.failedLfns - {lfn}
    ensures (Lfn.LfnGrammar(lfn) && lfn in m.lfnRequests) ==>
      r == (AddUserRequest(m, lfn, user).(failedLfns := m.failedLfns - {lfn}), Pass)
    ensures (Lfn.LfnGrammar(lfn) && lfn !in m.lfnRequests) ==>
      && r.0.nextHandle == m.nextHandle + 1
      && (moverRequest.Fail? ==> r == (m.(failedLfns := m.failedLfns - {lfn}, nextHandle := m.nextHandle + 1),
                                       Fail(MoverRequestFailed(moverRequest.error))))
      && (moverRequest.Pass? ==>
            && r.0.lfnRequests == m.lfnRequests[lfn := m.nextHandle]
            && (forall l, u :: Requested(r.0.userRequests, u, l) <==>
                  Requested(m.userRequests, u, l) || (u == user && l == lfn))
            && (forall l, u :: Interested(r.0.userLfnRequests, l, u) <==>
                  Interested(m.userLfnRequests, l, u) || (u == user && l == lfn))
            && (r.1.Pass? <==> m.pool.Some? && !m.pool.value.graceful)
            && (r.1.Pass? ==> r.0.pool.Some? && r.0.pool.value.queue == m.pool.value.queue + [m.nextHandle])
            && (r.1.Fail? ==> r.0.pool == m.pool))
  {
    if Lfn.ValidateLfn(lfn).Fail? then (m, Fail(BadLfn(lfn)))
    else
      var m1 := m.(failedLfns := m.failedLfns - {lfn});
      if lfn in m1.lfnRequests then (AddUserRequest(m1, lfn, user), Pass)
      else
        var h := m1.nextHandle;
        var m2 := m1.(nextHandle := h + 1);
        if moverRequest.Fail? then (m2, Fail(MoverRequestFailed(moverRequest.error)))
        else
          Submit(Register(m2, lfn, user, h), h)
  }

  /** `self.pool.queue(mover)`: only the pool changes, and only when it is
      configured and not draining. */
  function Submit(m: Manager, h: Handle): (r: (Manager, Outcome<ManagerError>))
    ensures r.0 == m.(pool := r.0.pool)
    ensures r.1.Pass? <==> m.pool.Some? && !m.pool.value.graceful
    ensures r.1.Pass? ==> r.0.pool.Some? && r.0.pool.value.queue == m.pool.value.queue + [h]
    ensures r.1.Fail? ==> r.0 == m
  {
    if m.pool.None? then (m, Fail(NotConfigured))
    else match ThreadPool.Queue(m.pool.value, h)
      case Err(_) => (m, Fail(QueueRefused))
      case Ok(p) => (m.(pool := Some(p)), Pass)
  }

  /** `cancel`. Nothing happens for an untracked LFN or for a user other
      than root who never asked for it; a user with no entry at all makes
      the lookup `user_requests[user]` raise, root included. Otherwise the
      user's interest is withdrawn, and the mover is cancelled and forgotten
      when root asks or nobody else is interested. When others are still
      interested, the log message joins their names, which raises once one
      of them is the anonymous user `None`; the maps are already updated. */
  function Cancel(m: Manager, lfn: String, user: User): (r: (Manager, Outcome<ManagerError>))
    ensures !Lfn.LfnGrammar(lfn) ==> r == (m, Fail(BadLfn(lfn)))
    ensures (Lfn.LfnGrammar(lfn) && lfn !in m.lfnRequests) ==> r == (m, Pass)
    ensures (Lfn.LfnGrammar(lfn) && lfn in m.lfnRequests && user !in m.userRequests) ==>
      r == (m, Fail(NoSuchUser(user)))
    ensures (Lfn.LfnGrammar(lfn) && lfn in m.lfnRequests && user in m.userRequests &&
             lfn !in m.userRequests[user] && user != ROOT) ==> r == (m, Pass)
    ensures r.0.failedLfns == m.failedLfns && r.0.pool == m.pool && r.0.nextHandle == m.nextHandle
    ensures r.0.cancelled != m.cancelled ==>
      && lfn in m.lfnRequests && lfn !in r.0.lfnRequests
      && r.0.cancelled == m.cancelled + [m.lfnRequests[lfn]]
      && r.0.lfnRequests == m.lfnRequests - {lfn}
    ensures r.0.cancelled == m.cancelled ==> r.0.lfnRequests == m.lfnRequests
    ensures (Lfn.LfnGrammar(lfn) && lfn in m.lfnRequests && user in m.userRequests &&
             lfn in m.userLfnRequests && (lfn in m.userRequests[user] || user == ROOT)) ==>
      && (r.1 == Pass <==> user == ROOT || None !in m.userLfnRequests[lfn] - {user})
      && (r.1.Fail? ==> r.1 == Fail(UserListUnprintable))
      && (r.0.cancelled != m.cancelled <==> user == ROOT || m.userLfnRequests[lfn] - {user} == {})
      && !Requested(r.0.userRequests, user, lfn)
      && (user == ROOT ==> lfn !in r.0.userLfnRequests)
    ensures (Lfn.LfnGrammar(lfn) && lfn in m.lfnRequests && user in m.userRequests &&
             lfn !in m.userLfnRequests && (lfn in m.userRequests[user] || user == ROOT)) ==>
      r == (m.(userRequests := m.userRequests[user := m.userRequests[user] - {lfn}]), Fail(NoSuchLfnUsers(lfn)))
    ensures (Lfn.LfnGrammar(lfn) && lfn in m.lfnRequests && user in m.userRequests &&
             lfn in m.userLfnRequests && lfn in m.userRequests[user] && user != ROOT) ==>
      && r.0.userRequests == m.userRequests[user := m.userRequests[user] - {lfn}]
      && r.0.userLfnRequests == m.userLfnRequests[lfn := m.userLfnRequests[lfn] - {user}]
    ensures (Lfn.LfnGrammar(lfn) && lfn in m.lfnRequests && user in m.userRequests &&
             lfn in m.userLfnRequests && user == ROOT) ==>
      && r.0.userLfnRequests == m.userLfnRequests - {lfn}
      && r.0.userRequests.Keys == m.userRequests.Keys
      && (forall l, u :: l != lfn ==> (Requested(r.0.userRequests, u, l) <==> Requested(m.userRequests, u, l)))
      && (forall u :: Requested(r.0.userRequests, u, lfn) <==>
            Requested(m.userRequests, u, lfn) && u != user && u !in m.userLfnRequests[lfn])
  {
    if Lfn.ValidateLfn(lfn).Fail? then (m, Fail(BadLfn(lfn)))
    else if lfn !in m.lfnRequests then (m, Pass)
    else if user !in m.userRequests then (m, Fail(NoSuchUser(user)))
    else if lfn !in m.userRequests[user] && user != ROOT then (m, Pass)
    else
      if lfn !in m.userLfnRequests then
        (m.(userRequests := m.userRequests[user := m.userRequests[user] - {lfn}]), Fail(NoSuchLfnUsers(lfn)))
      else Withdraw(m, lfn, user)
  }

  /** The part of `cancel` past its checks, when the LFN has an interest
      entry and the user may cancel it. */
  function Withdraw(m: Manager, lfn: String, user: User): (r: (Manager, Outcome<ManagerError>))
    requires lfn in m.lfnRequests && user in m.userRequests && lfn in m.userLfnRequests
    requires lfn in m.userRequests[user] || user == ROOT
    ensures r.0.failedLfns == m.failedLfns && r.0.pool == m.pool && r.0.nextHandle == m.nextHandle
    ensures r.0.cancelled != m.cancelled ==>
      && r.0.cancelled == m.cancelled + [m.lfnRequests[lfn]]
      && r.0.lfnRequests == m.lfnRequests - {lfn}
    ensures r.0.cancelled == m.cancelled ==> r.0.lfnRequests == m.lfnRequests
    ensures r.1 == Pass <==> user == ROOT || None !in m.userLfnRequests[lfn] - {user}
    ensures r.1.Fail? ==> r.1 == Fail(UserListUnprintable)
    ensures r.0.cancelled != m.cancelled <==> user == ROOT || m.userLfnRequests[lfn] - {user} == {}
    ensures !Requested(r.0.userRequests, user, lfn)
    ensures user != ROOT ==>
      && r.0.userRequests == m.userRequests[user := m.userRequests[user] - {lfn}]
      && r.0.userLfnRequests == m.userLfnRequests[lfn := m.userLfnRequests[lfn] - {user}]
    ensures user == ROOT ==>
      && r.0.userLfnRequests == m.userLfnRequests - {lfn}
      && r.0.userRequests.Keys == m.userRequests.Keys
      && (forall l, u :: l != lfn ==> (Requested(r.0.userRequests, u, l) <==> Requested(m.userRequests, u, l)))
      && (forall u :: Requested(r.0.userRequests, u, lfn) <==>
            Requested(m.userRequests, u, lfn) && u != user && u !in m.userLfnRequests[lfn])
  {
    var ur := m.userRequests[user := m.userRequests[user] - {lfn}];
    var others := m.userLfnRequests[lfn] - {user};
    var mover := m.lfnRequests[lfn];
    if user == ROOT then
      (m.(userRequests := StripLfn(ur, others, lfn),
          userLfnRequests := m.userLfnRequests - {lfn},
          lfnRequests := m.lfnRequests - {lfn},
          cancelled := m.cancelled + [mover]), Pass)
    else if others == {} then
      (m.(userRequests := ur,
          userLfnRequests := m.userLfnRequests[lfn := others],
          lfnRequests := m.lfnRequests - {lfn},
          cancelled := m.cancelled + [mover]), Pass)
    else
      (m.(userRequests := ur, userLfnRequests := m.userLfnRequests[lfn := others]),
       if None in others then Fail(UserListUnprintable) else Pass)
  }

  /** `_fail_lfn`: forgets the LFN and every user's interest in it. The
      result is false when the interest entry is missing, which makes the
      loop over the unbound `users` raise. */
  function FailLfn(m: Manager, lfn: String): (r: (Manager, bool))
    ensures r.0 == m.(lfnRequests := r.0.lfnRequests, userRequests := r.0.userRequests,
                      userLfnRequests := r.0.userLfnRequests)
    ensures r.1 <==> lfn in m.lfnRequests && lfn in m.userLfnRequests
    ensures !r.1 ==> r.0.userRequests == m.userRequests && r.0.userLfnRequests == m.userLfnRequests
    ensures r.1 ==> r.0.userLfnRequests == m.userLfnRequests - {lfn}
    ensures r.1 ==> forall u :: Requested(r.0.userRequests, u, lfn) <==>
      Requested(m.userRequests, u, lfn) && u !in m.userLfnRequests[lfn]
    ensures r.0.lfnRequests == m.lfnRequests - {lfn}
    ensures r.1 ==> lfn !in r.0.userLfnRequests
    ensures r.1 ==> forall u :: u in m.userLfnRequests[lfn] ==> !Requested(r.0.userRequests, u, lfn)
    ensures forall l, u :: l != lfn ==> (Requested(r.0.userRequests, u, l) <==> Requested(m.userRequests, u, l))
  {
    if lfn !in m.lfnRequests then (m, false)
    else
      var m1 := m.(lfnRequests := m.lfnRequests - {lfn});
      if lfn !in m.userLfnRequests then (m1, false)
      else
        var users := m.userLfnRequests[lfn];
        var m2 := m1.(userLfnRequests := m.userLfnRequests - {lfn},
                      userRequests := StripLfn(m.userRequests, users, lfn));
        (m2, true)
  }

  /** `status`. A failure record answers first; an untracked LFN gets the
      not-requested message; otherwise the mover's status is returned, and a
      status `isFailure` accepts is recorded as the LFN's failure while the
      LFN is forgotten. A mover that raises yields the internal-error
      message. */
  function StatusOf(m: Manager, lfn: String, moverStatus: Result<StatusPair, FileMover.MoverError>)
    : (r: (Manager, Result<Reply, ManagerError>))
    ensures !Lfn.LfnGrammar(lfn) ==> r == (m, Err(BadLfn(lfn)))
    ensures (Lfn.LfnGrammar(lfn) && lfn in m.failedLfns) ==> r == (m, Ok(Tuple(m.failedLfns[lfn])))
    ensures (Lfn.LfnGrammar(lfn) && lfn !in m.failedLfns && lfn !in m.lfnRequests) ==>
      r == (m, Ok(Message(MSG_LFN_NOT_REQUESTED)))
    ensures (Lfn.LfnGrammar(lfn) && lfn !in m.failedLfns && lfn in m.lfnRequests) ==>
      && (moverStatus.Err? ==> r == (m, Ok(Message(MSG_INTERNAL_ERROR))))
      && (moverStatus.Ok? && !IsFailure(moverStatus.value.code) ==> r == (m, Ok(Tuple(moverStatus.value))))
      && (moverStatus.Ok? && IsFailure(moverStatus.value.code) ==>
            && r.0 == FailLfn(m.(failedLfns := m.failedLfns[lfn := moverStatus.value]), lfn).0
            && r.0.failedLfns == m.failedLfns[lfn := moverStatus.value]
            && r.0.lfnRequests == m.lfnRequests - {lfn}
            && (lfn in m.userLfnRequests ==>
                  && r.0.userLfnRequests == m.userLfnRequests - {lfn}
                  && forall u :: u in m.userLfnRequests[lfn] ==> !Requested(r.0.userRequests, u, lfn))
            && (forall l, u :: l != lfn ==> (Requested(r.0.userRequests, u, l) <==> Requested(m.userRequests, u, l)))
            && (lfn in m.userLfnRequests ==> r.1 == Ok(Tuple(moverStatus.value)))
            && (lfn !in m.userLfnRequests ==> r.1 == Ok(Message(MSG_INTERNAL_ERROR))))
    ensures r.0.pool == m.pool && r.0.cancelled == m.cancelled && r.0.nextHandle == m.nextHandle
  {
    if Lfn.ValidateLfn(lfn).Fail? then (m, Err(BadLfn(lfn)))
    else if lfn in m.failedLfns then (m, Ok(Tuple(m.failedLfns[lfn])))
    else if lfn !in m.lfnRequests then (m, Ok(Message(MSG_LFN_NOT_REQUESTED)))
    else match moverStatus
      case Err(_) => (m, Ok(Message(MSG_INTERNAL_ERROR)))
      case Ok(st) =>
        if !IsFailure(st.code) then (m, Ok(Tuple(st)))
        else
          var (m', ok) := FailLfn(m.(failedLfns := m.failedLfns[lfn := st]), lfn);
          if ok then (m', Ok(Tuple(st))) else (m', Ok(Message(MSG_INTERNAL_ERROR)))
  }

  // ---------------------------------------------------------------------------
  // The invariant is kept

  lemma AddUserRequestKeepsLink(m: Manager, lfn: String, user: User)
    requires Linked(m.userRequests, m.userLfnRequests)
    ensures var r := AddUserRequest(m, lfn, user);
      Linked(r.userRequests, r.userLfnRequests)
  {
  }

  lemma RegisterKeepsInv(m: Manager, lfn: String, user: User, h: Handle)
    requires Inv(m) && lfn !in m.failedLfns
    ensures Inv(Register(m, lfn, user, h))
  {
    AddUserRequestKeepsLink(m, lfn, user);
  }

  lemma RequestKeepsInv(m: Manager, lfn: String, user: User, moverRequest: Outcome<FileMover.MoverError>)
    requires Inv(m)
    ensures Inv(Request(m, lfn, user, moverRequest).0)
  {
    if Lfn.LfnGrammar(lfn) {
      if lfn in m.lfnRequests {
        var m1 := m.(failedLfns := m.failedLfns - {lfn});
        assert Inv(m1);
        AddUserRequestKeepsLink(m1, lfn, user);
      } else if moverRequest.Pass? {
        NewRequestKeepsInv(m, lfn, user, moverRequest);
      }
    }
  }

  /** The branch of `request` that starts a new transfer. */
  lemma NewRequestKeepsInv(m: Manager, lfn: String, user: User, moverRequest: Outcome<FileMover.MoverError>)
    requires Inv(m) && Lfn.LfnGrammar(lfn) && lfn !in m.lfnRequests && moverRequest.Pass?
    ensures Inv(Request(m, lfn, user, moverRequest).0)
  {
    var m1 := m.(failedLfns := m.failedLfns - {lfn});
    var m2 := m1.(nextHandle := m1.nextHandle + 1);
    var m3 := Register(m2, lfn, user, m1.nextHandle);
    assert Inv(m2);
    RegisterKeepsInv(m2, lfn, user, m1.nextHandle);
  }

  /** Root's cancel: the LFN leaves every interested user's requests and its
      interest entry goes. */
  lemma RootCancelLink(ur: map<User, set<String>>, ulr: map<String, set<User>>, lfn: String, user: User)
    requires Linked(ur, ulr) && lfn in ulr && user in ur
    ensures Linked(StripLfn(ur[user := ur[user] - {lfn}], ulr[lfn] - {user}, lfn), ulr - {lfn})
  {
    var ur1 := ur[user := ur[user] - {lfn}];
    var others := ulr[lfn] - {user};
    var ur' := StripLfn(ur1, others, lfn);
    forall l, u ensures Interested(ulr - {lfn}, l, u) <==> Requested(ur', u, l) {
      if l == lfn {
        if u in ur' {
          if u == user {
            assert lfn !in ur1[u];
          } else if u !in others {
            assert !Interested(ulr, l, u);
            assert ur'[u] == ur[u];
          }
        }
      } else {
        assert Requested(ur', u, l) <==> Requested(ur, u, l);
        assert Interested(ulr - {lfn}, l, u) <==> Interested(ulr, l, u);
      }
    }
  }

  /** Any other user's cancel: the user and the LFN forget each other. */
  lemma UserCancelLink(ur: map<User, set<String>>, ulr: map<String, set<User>>, lfn: String, user: User)
    requires Linked(ur, ulr) && lfn in ulr && user in ur
    ensures Linked(ur[user := ur[user] - {lfn}], ulr[lfn := ulr[lfn] - {user}])
  {
    var ur' := ur[user := ur[user] - {lfn}];
    var ulr' := ulr[lfn := ulr[lfn] - {user}];
    forall l, u ensures Interested(ulr', l, u) <==> Requested(ur', u, l) {
      assert Interested(ulr, l, u) <==> Requested(ur, u, l);
    }
  }

  lemma CancelKeepsInv(m: Manager, lfn: String, user: User)
    requires Inv(m)
    ensures Inv(Cancel(m, lfn, user).0)
  {
    if Lfn.LfnGrammar(lfn) && lfn in m.lfnRequests && user in m.userRequests &&
       (lfn in m.userRequests[user] || user == ROOT) {
      var r := Cancel(m, lfn, user).0;
      if user == ROOT {
        RootCancelLink(m.userRequests, m.userLfnRequests, lfn, user);
        assert r.userRequests == StripLfn(m.userRequests[user := m.userRequests[user] - {lfn}],
                                          m.userLfnRequests[lfn] - {user}, lfn);
        assert r.userLfnRequests == m.userLfnRequests - {lfn};
      } else {
        UserCancelLink(m.userRequests, m.userLfnRequests, lfn, user);
        assert r.userRequests == m.userRequests[user := m.userRequests[user] - {lfn}];
        assert r.userLfnRequests == m.userLfnRequests[lfn := m.userLfnRequests[lfn] - {user}];
      }
    }
  }

  lemma StatusKeepsInv(m: Manager, lfn: String, moverStatus: Result<StatusPair, FileMover.MoverError>)
    requires Inv(m)
    ensures Inv(StatusOf(m, lfn, moverStatus).0)
  {
    var r := StatusOf(m, lfn, moverStatus).0;
    if Lfn.LfnGrammar(lfn) && lfn !in m.failedLfns && lfn in m.lfnRequests &&
       moverStatus.Ok? && IsFailure(moverStatus.value.code) {
      forall l, u ensures Interested(r.userLfnRequests, l, u) <==> Requested(r.userRequests, u, l) {
        if l == lfn {
          assert !Requested(r.userRequests, u, l) by {
            if Requested(m.userRequests, u, l) {
              assert u in m.userLfnRequests[lfn];
            }
          }
        } else {
          assert Interested(r.userLfnRequests, l, u) <==> Interested(m.userLfnRequests, l, u);
        }
      }
    }
  }

  /** Under the invariant `_fail_lfn` never meets a missing interest entry,
      so `status` never reports the internal error for a mover that
      answered. */
  lemma InvAvoidsInternalError(m: Manager, lfn: String, st: StatusPair)
    requires Inv(m) && Lfn.LfnGrammar(lfn)
    ensures StatusOf(m, lfn, Ok(st)).1 != Ok(Message(MSG_INTERNAL_ERROR))
  {
  }

  /** Under the invariant `cancel` never meets a missing interest entry. */
  lemma InvCancelNeverMissesUsers(m: Manager, lfn: String, user: User)
    requires Inv(m)
    ensures Cancel(m, lfn, user).1 != Fail(NoSuchLfnUsers(lfn))
  {
  }

  /** A user's own request followed by that user's cancel, with nobody else
      interested, cancels the mover that request created. */
  lemma RequestThenCancel(m: Manager, lfn: String, user: User)
    requires Inv(m) && Lfn.LfnGrammar(lfn) && lfn !in m.lfnRequests
    requires m.pool.Some? && !m.pool.value.graceful && user != ROOT
    requires forall u :: !Interested(m.userLfnRequests, lfn, u)
    ensures var (m1, o1) := Request(m, lfn, user, Pass);
      && o1 == Pass
      && var (m2, o2) := Cancel(m1, lfn, user);
      && o2 == Pass
      && m2.cancelled == m.cancelled + [m.nextHandle]
      && lfn !in m2.lfnRequests
      && !Requested(m2.userRequests, user, lfn)
  {
    var (m1, o1) := Request(m, lfn, user, Pass);
    assert lfn !in m.userLfnRequests || m.userLfnRequests[lfn] == {} by {
      if lfn in m.userLfnRequests && m.userLfnRequests[lfn] != {} {
        var u :| u in m.userLfnRequests[lfn];
        assert Interested(m.userLfnRequests, lfn, u);
      }
    }
    assert m1.userLfnRequests[lfn] == {user};
  }

  // ---------------------------------------------------------------------------
  // configure and getPfn

  datatype ConfigError = BadNumber(option: String)

  /** `configure`: a second call does nothing. Options are read in source
      order, and a bad number stops the call with the earlier ones already
      stored. The pool gets `max_movers` workers (none when that is not
      positive, as `range` gives). */
  function Configure(m: Manager, option: String -> Option<String>): (r: (Manager, Outcome<ConfigError>))
    ensures m.configured ==> r == (m, Pass)
    ensures !m.configured ==>
      && r.0.base == GetOption(option, "base_directory", "/var/www/html")
      && (r.1.Pass? <==> r.0.configured)
      && (r.0.configured ==> r.0.pool.Some? && r.0.pool.value.queue == [] && !r.0.pool.value.graceful)
    ensures !m.configured ==>
      (r.1 == Fail(BadNumber("max_size_gb")) <==> ParseInt(Strip(GetOption(option, "max_size_gb", "50"))).None?)
    ensures !m.configured ==>
      (r.0.configured <==> ParseInt(Strip(GetOption(option, "max_size_gb", "50"))).Some? &&
                           ParseInt(Strip(GetOption(option, "max_movers", "5"))).Some?)
    ensures !m.configured && r.0.configured ==>
      && r.0.quota == ParseInt(Strip(GetOption(option, "max_size_gb", "50"))).value * GIB
      && r.0.pool.value.threads == Clamp(ParseInt(Strip(GetOption(option, "max_movers", "5"))).value)
    ensures r.0.lfnRequests == m.lfnRequests && r.0.userRequests == m.userRequests
    ensures r.0.userLfnRequests == m.userLfnRequests && r.0.failedLfns == m.failedLfns
  {
    if m.configured then (m, Pass)
    else
      var m1 := m.(base := GetOption(option, "base_directory", "/var/www/html"));
      var size := ParseInt(Strip(GetOption(option, "max_size_gb", "50")));
      if size.None? then (m1, Fail(BadNumber("max_size_gb")))
      else
        var m2 := m1.(quota := size.value * GIB);
        var movers := ParseInt(Strip(GetOption(option, "max_movers", "5")));
        if movers.None? then (m2, Fail(BadNumber("max_movers")))
        else
          var threads: nat := if movers.value < 0 then 0 else movers.value;
          (m2.(pool := Some(ThreadPool.NewPool(threads)), configured := true), Pass)
  }

  const GIB := 1024 * 1024 * 1024

  /** A number of workers: `range` of a negative count starts none. */
  function Clamp(n: int): nat {
    if n < 0 then 0 else n
  }

  /** `getOption`: the configured value, or the default when it is not set. */
  function GetOption(option: String -> Option<String>, name: String, default: String): String {
    if option(name).Some? then option(name).value else default
  }

  /** With nothing configured the quota is 50 GiB and five movers run. */
  lemma ConfigureDefaults(m: Manager)
    requires !m.configured
    ensures Configure(m, _ => None).1 == Pass
    ensures Configure(m, _ => None).0.quota == 50 * GIB
    ensures Configure(m, _ => None).0.pool.value.threads == 5
  {
  }

  /** The LFN without its leading slashes. */
  function StripSlashes(s: String): (r: String)
    ensures |r| <= |s| && r == s[|s| - |r|..]
    ensures !StartsWith(r, "/")
    ensures forall i :: 0 <= i < |s| - |r| ==> s[i] == '/'
    decreases |s|
  {
    if |s| > 0 && s[0] == '/' then StripSlashes(s[1..]) else s
  }

  /** `getPfn`: where a requested file is served from under `base`. */
  function GetPfn(base: String, lfn: String): (r: String)
    ensures EndsWith(r, StripSlashes(lfn)) && StartsWith(r, base)
  {
    PathJoin(base, StripSlashes(lfn))
  }

  /** Leading slashes do not matter to `getPfn`. */
  lemma GetPfnIgnoresLeadingSlashes(base: String, lfn: String)
    ensures GetPfn(base, "/" + lfn) == GetPfn(base, lfn)
  {
    assert ("/" + lfn)[1..] == lfn;
  }

  /** For a valid LFN the served path is exactly where the file's mover
      stores it when its destination directory is `base`. */
  lemma GetPfnIsMoverDestination(base: String, lfn: String)
    requires Lfn.LfnGrammar(lfn)
    ensures GetPfn(base, lfn) == FileMover.LocalPfn(base, lfn)
  {
    Lfn.GrammarPrefix(lfn);
    assert lfn[0] == '/' && lfn[1] == 's';
    assert StripSlashes(lfn) == StripSlashes(lfn[1..]) == lfn[1..];
  }
}

=== FILE: file_mover.dfy ===
/** One transfer: the `FileMover` that resolves and caches a file and the
    `TransferWrapper` that supervises the copy process (fm/core/FileMover.py).

    Process supervision is an oracle: every call of `TransferWrapper.status`
    that reaches `waitpid` is given the state of the process (`Running`,
    `Exited` with the decoded exit value, or `Unreadable` when reading it
    raises), together with the progress text `file_progress_status` would
    have produced. The filesystem is a
    predicate `present` on paths, and `getPFN` answers are parameters. */
module FileMover {
  import opened Wrappers
  import opened Strings
  import opened Status

  // ---------------------------------------------------------------------------
  // TransferWrapper

  /** What `status` learns from the process. `Unreadable` covers every way
      it raises: `waitpid` fails, the wait status is neither an exit nor a
      signal, or the process still runs and `os.stat` of the destination
      fails with anything but ENOENT. */
  datatype ProcessState = Running | Exited(code: int) | Unreadable

  datatype Wrapper = Wrapper(
    source: Option<String>,
    dest: String,
    pid: Option<int>,               // None until spawned, and again after a cancel
    finalStatus: Option<StatusPair>, // set once the process has finished
    killflag: bool)

  function NewWrapper(source: Option<String>, dest: String): (w: Wrapper)
    ensures w.pid.None? && w.finalStatus.None? && !w.killflag
  {
    Wrapper(source, dest, None, None, false)
  }

  /** `if not self.pid`: a missing pid or pid 0 means nothing was spawned. */
  predicate Started(w: Wrapper) {
    w.pid.Some? && w.pid.value != 0
  }

  /** The text `TRANSFER_FAILED_STATUS % code`. */
  function FailedMessage(code: int): String {
    "File failed; transfer status code " + IntToString(code) + "."
  }

  /** `TransferWrapper.status`: a recorded final status is returned as is;
      otherwise the process is consulted and an exit is recorded. Reading
      the process may raise, which leaves the wrapper as it was. */
  function WrapperStatus(w: Wrapper, state: ProcessState, progress: String): (r: (Wrapper, Result<StatusPair, MoverError>))
    ensures w.finalStatus.Some? ==> r == (w, Ok(w.finalStatus.value))
    ensures w.finalStatus.None? && !Started(w) ==>
      r == (w, Ok(StatusPair(TRANSFER_PROCESS_NOT_STARTED, MSG_TRANSFER_PROCESS_NOT_STARTED)))
    ensures w.finalStatus.None? && Started(w) && state.Running? ==> r == (w, Ok(StatusPair(SERVER_QUEUE, progress)))
    ensures w.finalStatus.None? && Started(w) && state.Exited? ==>
      && r.1 == Ok(if state.code == 0 then StatusPair(DONE, MSG_FILE_DONE)
                   else StatusPair(TRANSFER_FAILED, FailedMessage(state.code)))
      && r.0 == w.(finalStatus := Some(r.1.value))
    ensures r.1.Err? <==> w.finalStatus.None? && Started(w) && state.Unreadable?
    ensures r.1.Err? ==> r == (w, Err(StatusRaised))
  {
    if w.finalStatus.Some? then (w, Ok(w.finalStatus.value))
    else if !Started(w) then (w, Ok(StatusPair(TRANSFER_PROCESS_NOT_STARTED, MSG_TRANSFER_PROCESS_NOT_STARTED)))
    else match state
      case Running => (w, Ok(StatusPair(SERVER_QUEUE, progress)))
      case Exited(c) =>
        var st := if c == 0 then StatusPair(DONE, MSG_FILE_DONE) else StatusPair(TRANSFER_FAILED, FailedMessage(c));
        (w.(finalStatus := Some(st)), Ok(st))
      case Unreadable => (w, Err(StatusRaised))
  }

  /** Once DONE or TRANSFER_FAILED has been reported, every later call gives
      the same answer whatever the process table says. */
  lemma WrapperStatusSticky(w: Wrapper, s1: ProcessState, p1: String, s2: ProcessState, p2: String)
    requires Started(w) && w.finalStatus.None? && s1.Exited?
    ensures var (w1, st1) := WrapperStatus(w, s1, p1);
      && st1.Ok? && (st1.value.code == DONE || st1.value.code == TRANSFER_FAILED)
      && WrapperStatus(w1, s2, p2) == (w1, st1)
  {
  }

  /** The codes a wrapper without a recorded final status can report. */
  lemma WrapperStatusCodes(w: Wrapper, state: ProcessState, progress: String)
    requires w.finalStatus.None?
    ensures WrapperStatus(w, state, progress).1.Ok? ==>
      WrapperStatus(w, state, progress).1.value.code in {TRANSFER_PROCESS_NOT_STARTED, SERVER_QUEUE, DONE, TRANSFER_FAILED}
    ensures (WrapperStatus(w, state, progress).1.Ok? && WrapperStatus(w, state, progress).1.value.code == DONE)
      <==> Started(w) && state == Exited(0)
  {
  }

  /** `TransferWrapper.cancel`: the kill flag is raised and the pid
      forgotten (the partial file is unlinked and the process group killed,
      which the model leaves out). */
  function WrapperCancel(w: Wrapper): (r: Wrapper)
    ensures r.killflag && r.pid.None?
    ensures r.source == w.source && r.dest == w.dest && r.finalStatus == w.finalStatus
    ensures !Started(r)
  {
    w.(killflag := true, pid := None)
  }

  /** A second cancel finds no pid and changes nothing. */
  lemma WrapperCancelTwice(w: Wrapper)
    ensures WrapperCancel(WrapperCancel(w)) == WrapperCancel(w)
  {
  }

  // ---------------------------------------------------------------------------
  // The command line of _launch_process

  /** The transfer command used when the configuration names none. */
  const DEFAULT_TRANSFER_COMMAND: String :=
    "srmcp -debug=true -use_urlcopy_script=true -srm_protocol_version=2 -retry_num=1"

  /** The Python one-liner that puts the copy in its own process group. */
  const PGRP_SCRIPT: String := "import os, sys; os.setpgrp(); os.execvp(sys.argv[1], sys.argv[2:])"

  /** `getOption("transfer_command", default)`. */
  function TransferCommand(configured: Option<String>): (r: String)
    ensures configured.Some? ==> r == configured.value
    ensures configured.None? ==> r == DEFAULT_TRANSFER_COMMAND
  {
    if configured.Some? then configured.value else DEFAULT_TRANSFER_COMMAND
  }

  datatype ArgvError = EmptyCommand   // `srmcp_args[0]` of an empty split

  /** The argument vector given to `os.spawnlp`: the process-group wrapper,
      then the command's first word (the program to run) followed by every
      word of the command (its argv), then source and destination. */
  function Argv(command: String, source: String, dest: String): (r: Result<seq<String>, ArgvError>)
    ensures r.Err? <==> |Words(command)| == 0
    ensures r.Ok? ==>
      && |r.value| == |Words(command)| + 7
      && r.value[..4] == ["python", "python", "-c", PGRP_SCRIPT]
      && r.value[4] == Words(command)[0]
      && r.value[5..|r.value| - 2] == Words(command)
      && r.value[|r.value| - 2..] == [source, dest]
  {
    var words := Words(command);
    if |words| == 0 then Err(EmptyCommand)
    else
      var r := ["python", "python", "-c", PGRP_SCRIPT] + [words[0]] + words + [source, dest];
      assert r[5..|r| - 2] == words;
      Ok(r)
  }

  /** Whether `_launch_process` gets as far as spawning with `command`. */
  predicate CanBuildArgv(command: String) {
    |Words(command)| > 0
  }

  lemma CanBuildArgvIff(command: String, source: String, dest: String)
    ensures CanBuildArgv(command) <==> Argv(command, source, dest).Ok?
  {
  }

  /** For a command written as words separated by single spaces, the
      arguments between the program name and the two paths are exactly those
      words. */
  lemma ArgvOfJoinedWords(ws: seq<String>, source: String, dest: String)
    requires |ws| > 0 && forall i :: 0 <= i < |ws| ==> IsWord(ws[i])
    ensures Argv(Join(" ", ws), source, dest).Ok?
    ensures var a := Argv(Join(" ", ws), source, dest).value;
      a[4] == ws[0] && a[5..|a| - 2] == ws
  {
    WordsOfJoin(ws);
  }

  // ---------------------------------------------------------------------------
  // The polling loop of launch

  /** What happens during one turn of `launch`'s loop. */
  datatype Poll =
    | Observed(state: ProcessState, progress: String) // `status()` consulted the process
    | PollRaised                                      // something else in the turn raised; `launch` cancels
    | CancelledMeanwhile                              // another thread cancelled during the sleep

  /** One turn: the wrapper afterwards and the value of `status` in `launch`.
      Whatever raises inside the `try` is caught and cancels the wrapper,
      leaving `status` as it was. */
  function PollStep(w: Wrapper, code: int, p: Poll): (r: (Wrapper, int))
    ensures p.PollRaised? ==> r == (WrapperCancel(w), code)
    ensures p.Observed? && WrapperStatus(w, p.state, p.progress).1.Err? ==> r == (WrapperCancel(w), code)
    ensures p.Observed? && WrapperStatus(w, p.state, p.progress).1.Ok? ==>
      r == (WrapperStatus(w, p.state, p.progress).0, WrapperStatus(w, p.state, p.progress).1.value.code)
    ensures p.CancelledMeanwhile? ==> r.0.killflag
    ensures r.0.source == w.source && r.0.dest == w.dest
  {
    match p
    case Observed(state, progress) =>
      var (w', st) := WrapperStatus(w, state, progress);
      if st.Err? then (WrapperCancel(w), code) else (w', st.value.code)
    case PollRaised => (WrapperCancel(w), code)
    case CancelledMeanwhile =>
      var (w', st) := WrapperStatus(WrapperCancel(w), Running, "");
      (w', st.value.code)
  }

  /** The loop `while status in [2] and not self._killflag`, as a reference
      definition: the wrapper, the final value of `status` and the number of
      turns taken. */
  function RunLoop(w: Wrapper, code: int, polls: seq<Poll>): (r: (Wrapper, int, nat))
    ensures r.2 <= |polls|
    ensures r.2 < |polls| ==> r.1 != SERVER_QUEUE || r.0.killflag
    ensures r.0.source == w.source && r.0.dest == w.dest
    decreases |polls|
  {
    if code != SERVER_QUEUE || w.killflag || |polls| == 0 then (w, code, 0)
    else
      var (w1, c1) := PollStep(w, code, polls[0]);
      var (w2, c2, n) := RunLoop(w1, c1, polls[1..]);
      (w2, c2, n + 1)
  }

  /** `launch` after the process is spawned: polls until the transfer stops
      running or the kill flag is seen, or the observations run out. */
  method LaunchLoop(w: Wrapper, code: int, polls: seq<Poll>) returns (w': Wrapper, code': int, turns: nat)
    ensures (w', code', turns) == RunLoop(w, code, polls)
    ensures turns <= |polls|
    ensures turns < |polls| ==> code' != SERVER_QUEUE || w'.killflag
  {
    w', code', turns := w, code, 0;
    while turns < |polls| && code' == SERVER_QUEUE && !w'.killflag
      invariant turns <= |polls|
      invariant var (a, b, n) := RunLoop(w', code', polls[turns..]);
        RunLoop(w, code, polls) == (a, b, n + turns)
      decreases |polls| - turns
    {
      assert polls[turns..][1..] == polls[turns + 1..];
      var step := PollStep(w', code', polls[turns]);
      w', code' := step.0, step.1;
      turns := turns + 1;
    }
  }

  /** A raised kill flag stops the loop before any turn. */
  lemma KillFlagStopsLoop(w: Wrapper, code: int, polls: seq<Poll>)
    requires w.killflag
    ensures RunLoop(w, code, polls) == (w, code, 0)
  {
  }

  /** A cancel during the sleep ends the loop at the next check. */
  lemma CancelEndsLoop(w: Wrapper, polls: seq<Poll>)
    requires !w.killflag && |polls| > 0 && polls[0].CancelledMeanwhile?
    ensures RunLoop(w, SERVER_QUEUE, polls).2 == 1
    ensures RunLoop(w, SERVER_QUEUE, polls).0.killflag
  {
  }

  /** A successful exit ends the loop with DONE after one turn. */
  lemma ExitEndsLoop(w: Wrapper, progress: String, polls: seq<Poll>)
    requires Started(w) && w.finalStatus.None? && !w.killflag
    requires |polls| > 0 && polls[0] == Observed(Exited(0), progress)
    ensures RunLoop(w, SERVER_QUEUE, polls).1 == DONE
    ensures RunLoop(w, SERVER_QUEUE, polls).2 == 1
  {
  }

  /** A status read that raises inside the loop is caught: the wrapper is
      cancelled and the loop ends after that turn, `status` still reading
      SERVER_QUEUE. */
  lemma UnreadablePollCancels(w: Wrapper, progress: String, polls: seq<Poll>)
    requires Started(w) && w.finalStatus.None? && !w.killflag
    requires |polls| > 0 && polls[0] == Observed(Unreadable, progress)
    ensures RunLoop(w, SERVER_QUEUE, polls) == (WrapperCancel(w), SERVER_QUEUE, 1)
  {
  }

  // ---------------------------------------------------------------------------
  // FileMover

  datatype Mover = Mover(
    lfn: Option<String>,
    destDir: String,
    source: Option<String>,
    isCached: bool,
    excludeSites: seq<String>,  // sites already tried, without repeats
    wrapper: Option<Wrapper>)

  datatype MoverError =
    | NotRequested       // `start` before any `request`
    | AlreadyLaunched    // `start` with a wrapper already present
    | NoSite(lfn: String) // the lookup gave an empty site
    | Upstream(msg: String) // `getPFN` raised
    | SpawnFailed        // the copy process could not be spawned
    | StatusRaised       // `TransferWrapper.status` raised

  function NewMover(): (m: Mover)
    ensures m.lfn.None? && m.wrapper.None? && !m.isCached && m.excludeSites == []
  {
    Mover(None, "", None, false, [], None)
  }

  /** Python's `s[1:]`. */
  function DropFirst(s: String): (r: String)
    ensures |s| > 0 ==> r == s[1..]
    ensures |s| == 0 ==> r == []
  {
    if |s| == 0 then s else s[1..]
  }

  /** `os.path.join(dest_dir, lfn[1:])`: where the file lands locally;
      `check_cache` asks whether it exists. */
  function LocalPfn(destDir: String, lfn: String): String {
    PathJoin(destDir, DropFirst(lfn))
  }

  /** The destination URL the wrapper copies to. */
  function FileUrl(local: String): (r: String)
    ensures |r| == |local| + 8 && r[..8] == "file:///" && r[8..] == local
  {
    "file:///" + local
  }

  /** `if not exclude_sites.count(site): exclude_sites.append(site)`. */
  function AddExcluded(sites: seq<String>, site: String): (r: seq<String>)
    ensures site in r && forall s :: s in sites ==> s in r
    ensures forall s :: s in r ==> s in sites || s == site
    ensures site in sites ==> r == sites
    ensures site !in sites ==> r == sites + [site]
  {
    if site in sites then sites else sites + [site]
  }

  predicate NoRepeats(xs: seq<String>) {
    forall i, j :: 0 <= i < j < |xs| ==> xs[i] != xs[j]
  }

  lemma AddExcludedNoRepeats(sites: seq<String>, site: String)
    requires NoRepeats(sites)
    ensures NoRepeats(AddExcluded(sites, site))
  {
  }

  /** `FileMover.request`: remembers the LFN and destination; unless the
      file is already in the cache, resolves a source and records its site
      as tried, raising when the site is empty (after recording it). */
  function MoverRequest(m: Mover, lfn: String, destDir: String, present: String -> bool,
                        lookup: Result<(String, String), String>)
    : (r: (Mover, Outcome<MoverError>))
    ensures r.0.lfn == Some(lfn) && r.0.destDir == destDir
    ensures r.0.wrapper == m.wrapper && r.0.isCached == m.isCached
    ensures present(LocalPfn(destDir, lfn)) ==> r == (m.(lfn := Some(lfn), destDir := destDir), Pass)
    ensures !present(LocalPfn(destDir, lfn)) && lookup.Err? ==>
      r == (m.(lfn := Some(lfn), destDir := destDir), Fail(Upstream(lookup.error)))
    ensures !present(LocalPfn(destDir, lfn)) && lookup.Ok? ==>
      && r.0.source == Some(lookup.value.0)
      && r.0.excludeSites == AddExcluded(m.excludeSites, lookup.value.1)
      && (r.1.Fail? <==> lookup.value.1 == "")
  {
    var m1 := m.(lfn := Some(lfn), destDir := destDir);
    if present(LocalPfn(destDir, lfn)) then (m1, Pass)
    else match lookup
      case Err(e) => (m1, Fail(Upstream(e)))
      case Ok((pfn, site)) =>
        var m2 := m1.(source := Some(pfn), excludeSites := AddExcluded(m1.excludeSites, site));
        if site == "" then (m2, Fail(NoSite(lfn))) else (m2, Pass)
  }

  /** `FileMover.start` up to the spawn of the copy process (`launch`'s
      polling loop is `LaunchLoop`, and `MoverStartLaunch` runs
      both). `spawned` is the pid `os.spawnlp`
      returns, None when it raises. */
  function MoverStart(m: Mover, present: String -> bool, command: String, spawned: Option<int>)
    : (r: (Mover, Outcome<MoverError>))
    ensures (m.lfn.None? || m.lfn.value == "") ==> r == (m, Fail(NotRequested))
    ensures m.lfn.Some? && m.lfn.value != "" && m.wrapper.Some? ==> r == (m, Fail(AlreadyLaunched))
    ensures (m.lfn.Some? && m.lfn.value != "" && m.wrapper.None? &&
             present(LocalPfn(m.destDir, m.lfn.value))) ==> r == (m.(isCached := true), Pass)
    ensures (m.lfn.Some? && m.lfn.value != "" && m.wrapper.None? &&
             !present(LocalPfn(m.destDir, m.lfn.value))) ==>
      && r.0.isCached == m.isCached && r.0.source == m.source
      && r.0.wrapper.Some?
      && r.0.wrapper.value.source == m.source
      && r.0.wrapper.value.dest == FileUrl(LocalPfn(m.destDir, m.lfn.value))
      && !r.0.wrapper.value.killflag && r.0.wrapper.value.finalStatus.None?
      && (r.1.Pass? <==> m.source.Some? && CanBuildArgv(command) && spawned.Some?)
      && (r.1.Pass? ==> r.0.wrapper.value.pid == spawned)
      && (r.1.Fail? ==> r.1.error == SpawnFailed && r.0.wrapper.value.pid.None?)
    ensures r.0.excludeSites == m.excludeSites && r.0.lfn == m.lfn
  {
    if m.lfn.None? || m.lfn.value == "" then (m, Fail(NotRequested))
    else if m.wrapper.Some? then (m, Fail(AlreadyLaunched))
    else
      var local := LocalPfn(m.destDir, m.lfn.value);
      if present(local) then (m.(isCached := true), Pass)
      else
        var w := NewWrapper(m.source, FileUrl(local));
        if m.source.None? || !CanBuildArgv(command) || spawned.None? then
          (m.(wrapper := Some(w)), Fail(SpawnFailed))
        else
          (m.(wrapper := Some(w.(pid := spawned))), Pass)
  }

  /** `start` gets as far as `launch`: a requested file, not yet launched,
      not in the cache, with a source, a usable command and a spawned process. */
  predicate Launches(m: Mover, present: String -> bool, command: String, spawned: Option<int>) {
    && m.lfn.Some? && m.lfn.value != "" && m.wrapper.None?
    && !present(LocalPfn(m.destDir, m.lfn.value))
    && m.source.Some? && CanBuildArgv(command) && spawned.Some?
  }

  /** `TransferWrapper.launch` after `_launch_process`: the status is read
      once (the process then being `first`), and polled while it reads
      SERVER_QUEUE. The result is the wrapper with the final value of
      `status` and the number of turns, or the error of the first read,
      which sits outside the `try` and escapes `launch`. */
  function WrapperLaunch(w: Wrapper, first: ProcessState, firstProgress: String, polls: seq<Poll>)
    : (r: (Wrapper, Result<(int, nat), MoverError>))
    ensures r.0.source == w.source && r.0.dest == w.dest
    ensures r.1.Err? <==> w.finalStatus.None? && Started(w) && first.Unreadable?
    ensures r.1.Err? ==> r == (w, Err(StatusRaised))
    ensures r.1.Ok? ==> r.1.value.1 <= |polls|
    ensures r.1.Ok? && r.1.value.1 < |polls| ==> r.1.value.0 != SERVER_QUEUE || r.0.killflag
    ensures w.finalStatus.None? && Started(w) && first.Exited? ==>
      && r.1 == Ok((if first.code == 0 then DONE else TRANSFER_FAILED, 0))
      && r.0.finalStatus.Some?
    ensures w.finalStatus.None? && !Started(w) ==> r == (w, Ok((TRANSFER_PROCESS_NOT_STARTED, 0)))
  {
    var (w1, st) := WrapperStatus(w, first, firstProgress);
    if st.Err? then (w, Err(StatusRaised))
    else
      assert st.value.code != SERVER_QUEUE ==> RunLoop(w1, st.value.code, polls) == (w1, st.value.code, 0);
      var (w2, code, n) := RunLoop(w1, st.value.code, polls);
      (w2, Ok((code, n)))
  }

  /** `launch` on the wrapper `start` has just stored for a mover whose
      copy was spawned as `spawned`. */
  function LaunchStored(m: Mover, spawned: Option<int>, first: ProcessState, firstProgress: String, polls: seq<Poll>)
    : (r: (Mover, Result<(int, nat), MoverError>))
    requires m.lfn.Some?
    ensures r.0 == m.(wrapper := r.0.wrapper) && r.0.wrapper.Some?
    ensures r.0.wrapper.value.source == m.source
    ensures r.0.wrapper.value.dest == FileUrl(LocalPfn(m.destDir, m.lfn.value))
    ensures r.1.Err? <==> spawned.Some? && spawned.value != 0 && first.Unreadable?
    ensures r.1.Err? ==> r.1.error == StatusRaised
    ensures r.1.Ok? ==>
      && r.1.value.1 <= |polls|
      && (r.1.value.1 < |polls| ==> r.1.value.0 != SERVER_QUEUE || r.0.wrapper.value.killflag)
    ensures spawned.Some? && spawned.value != 0 && first.Exited? ==>
      && r.1 == Ok((if first.code == 0 then DONE else TRANSFER_FAILED, 0))
      && r.0.wrapper.value.finalStatus.Some?
    ensures spawned.Some? && spawned.value == 0 ==> r.1 == Ok((TRANSFER_PROCESS_NOT_STARTED, 0))
  {
    var w := NewWrapper(m.source, FileUrl(LocalPfn(m.destDir, m.lfn.value))).(pid := spawned);
    var (w2, launched) := WrapperLaunch(w, first, firstProgress, polls);
    (m.(wrapper := Some(w2)), launched)
  }

  /** `start` stores a spawned wrapper and `launch` reads its status first,
      outside any `try`. */
  predicate FirstReadRaises(m: Mover, present: String -> bool, command: String, spawned: Option<int>, first: ProcessState) {
    Launches(m, present, command, spawned) && spawned.value != 0 && first.Unreadable?
  }

  /** `FileMover.start` with the `launch` it runs. The result adds the final
      value of `status` in `launch` and its number of turns, when `launch`
      ran to its end; when its first status read raises, so does `start`,
      with the new wrapper already stored. */
  function MoverStartLaunch(m: Mover, present: String -> bool, command: String, spawned: Option<int>,
                            first: ProcessState, firstProgress: String, polls: seq<Poll>)
    : (r: (Mover, Outcome<MoverError>, Option<(int, nat)>))
    ensures FirstReadRaises(m, present, command, spawned, first) ==> r.1 == Fail(StatusRaised)
    ensures !FirstReadRaises(m, present, command, spawned, first) ==> r.1 == MoverStart(m, present, command, spawned).1
    ensures r.2.Some? <==> Launches(m, present, command, spawned) && !FirstReadRaises(m, present, command, spawned, first)
    ensures r.2.None? ==> r.0 == MoverStart(m, present, command, spawned).0
    ensures r.0.excludeSites == m.excludeSites && r.0.lfn == m.lfn && r.0.source == m.source
    ensures r.2.Some? ==>
      && r.0.isCached == m.isCached && r.0.wrapper.Some?
      && r.0.wrapper.value.source == m.source
      && r.0.wrapper.value.dest == FileUrl(LocalPfn(m.destDir, m.lfn.value))
      && r.2.value.1 <= |polls|
      && (r.2.value.1 < |polls| ==> r.2.value.0 != SERVER_QUEUE || r.0.wrapper.value.killflag)
    ensures r.2.Some? && spawned.value != 0 && first.Exited? ==>
      && r.2.value == (if first.code == 0 then DONE else TRANSFER_FAILED, 0)
      && r.0.wrapper.value.finalStatus.Some?
    ensures r.2.Some? && spawned.value == 0 ==> r.2.value == (TRANSFER_PROCESS_NOT_STARTED, 0)
  {
    var (m1, o) := MoverStart(m, present, command, spawned);
    if !Launches(m, present, command, spawned) then (m1, o, None)
    else
      var (m2, launched) := LaunchStored(m, spawned, first, firstProgress, polls);
      if launched.Err? then (m1, Fail(launched.error), None)
      else (m2, o, Some(launched.value))
  }

  /** `FileMover.cancel`: forwarded to the wrapper when there is one. */
  function MoverCancel(m: Mover): (r: Mover)
    ensures m.wrapper.None? ==> r == m
    ensures m.wrapper.Some? ==> r == m.(wrapper := Some(WrapperCancel(m.wrapper.value)))
  {
    if m.wrapper.Some? then m.(wrapper := Some(WrapperCancel(m.wrapper.value))) else m
  }

  /** `FileMover.status`. On a TRANSFER_FAILED report the source is resolved
      again with the tried sites excluded and `start` is called; the guard
      meant to stop once every replica was tried compares a method with a
      list and never holds, so it is not modelled. A wrapper status that
      raises escapes unchanged. */
  function MoverStatus(m: Mover, state: ProcessState, progress: String,
                       relookup: Result<(String, String), String>,
                       present: String -> bool, command: String, spawned: Option<int>)
    : (r: (Mover, Result<StatusPair, MoverError>))
    ensures m.isCached ==> r == (m.(excludeSites := []), Ok(StatusPair(DONE, MSG_OBJECT_IN_CACHE)))
    ensures !m.isCached && m.wrapper.None? ==>
      r == (m, Ok(StatusPair(TRANSFER_WRAPPER_NOT_LAUNCHED, MSG_TRANSFER_WRAPPER_NOT_LAUNCHED)))
    ensures (!m.isCached && m.wrapper.Some? && WrapperStatus(m.wrapper.value, state, progress).1.Err?) ==>
      r == (m, Err(StatusRaised))
    ensures (!m.isCached && m.wrapper.Some? && WrapperStatus(m.wrapper.value, state, progress).1.Ok? &&
             WrapperStatus(m.wrapper.value, state, progress).1.value.code != TRANSFER_FAILED) ==>
      r == (m.(wrapper := Some(WrapperStatus(m.wrapper.value, state, progress).0)),
            WrapperStatus(m.wrapper.value, state, progress).1)
    ensures (!m.isCached && m.wrapper.Some? && WrapperStatus(m.wrapper.value, state, progress).1.Ok? &&
             WrapperStatus(m.wrapper.value, state, progress).1.value.code == TRANSFER_FAILED && relookup.Err?) ==>
      r == (m.(wrapper := Some(WrapperStatus(m.wrapper.value, state, progress).0)), Err(Upstream(relookup.error)))
    ensures (!m.isCached && m.wrapper.Some? && WrapperStatus(m.wrapper.value, state, progress).1.Ok? &&
             WrapperStatus(m.wrapper.value, state, progress).1.value.code == TRANSFER_FAILED && relookup.Ok?) ==>
      r == (m.(wrapper := Some(WrapperStatus(m.wrapper.value, state, progress).0),
               source := Some(relookup.value.0),
               excludeSites := AddExcluded(m.excludeSites, relookup.value.1)),
            Err(if m.lfn.None? || m.lfn.value == "" then NotRequested else AlreadyLaunched))
  {
    if m.isCached then (m.(excludeSites := []), Ok(StatusPair(DONE, MSG_OBJECT_IN_CACHE)))
    else if m.wrapper.None? then
      (m, Ok(StatusPair(TRANSFER_WRAPPER_NOT_LAUNCHED, MSG_TRANSFER_WRAPPER_NOT_LAUNCHED)))
    else
      var (w', st) := WrapperStatus(m.wrapper.value, state, progress);
      var m1 := m.(wrapper := Some(w'));
      if st.Err? then (m, Err(st.error))
      else if st.value.code != TRANSFER_FAILED then (m1, st)
      else match relookup
        case Err(e) => (m1, Err(Upstream(e)))
        case Ok((pfn, site)) =>
          var m2 := m1.(source := Some(pfn), excludeSites := AddExcluded(m1.excludeSites, site));
          var (m3, started) := MoverStart(m2, present, command, spawned);
          if started.Fail? then (m3, Err(started.error)) else (m3, st)
  }

  /** The retry after a failed transfer can never start a new copy: `start`
      refuses because the failed wrapper is still there, so `status` raises
      instead of reporting the failure, after recording the new source. */
  lemma FailedTransferRetryRaises(m: Mover, state: ProcessState, progress: String,
                                  pfn: String, site: String,
                                  present: String -> bool, command: String, spawned: Option<int>)
    requires !m.isCached && m.wrapper.Some? && m.lfn.Some? && m.lfn.value != ""
    requires WrapperStatus(m.wrapper.value, state, progress).1.Ok?
    requires WrapperStatus(m.wrapper.value, state, progress).1.value.code == TRANSFER_FAILED
    ensures var (m', r) := MoverStatus(m, state, progress, Ok((pfn, site)), present, command, spawned);
      && r == Err(AlreadyLaunched)
      && m'.source == Some(pfn)
      && m'.excludeSites == AddExcluded(m.excludeSites, site)
      && m'.wrapper == Some(WrapperStatus(m.wrapper.value, state, progress).0)
  {
  }

  /** While cached, `status` keeps answering DONE and keeps the tried-site
      list empty. */
  lemma CachedStatusStable(m: Mover, state: ProcessState, progress: String,
                           relookup: Result<(String, String), String>,
                           present: String -> bool, command: String, spawned: Option<int>)
    requires m.isCached
    ensures var (m1, r1) := MoverStatus(m, state, progress, relookup, present, command, spawned);
      && r1 == Ok(StatusPair(DONE, MSG_OBJECT_IN_CACHE)) && m1.excludeSites == []
      && MoverStatus(m1, state, progress, relookup, present, command, spawned) == (m1, r1)
  {
  }

  /** The list of tried sites never holds a site twice. */
  lemma ExcludeSitesNoRepeats(m: Mover, lfn: String, destDir: String, present: String -> bool,
                              lookup: Result<(String, String), String>,
                              state: ProcessState, progress: String, command: String, spawned: Option<int>)
    requires NoRepeats(m.excludeSites)
    ensures NoRepeats(MoverRequest(m, lfn, destDir, present, lookup).0.excludeSites)
    ensures NoRepeats(MoverStart(m, present, command, spawned).0.excludeSites)
    ensures NoRepeats(MoverStatus(m, state, progress, lookup, present, command, spawned).0.excludeSites)
    ensures NoRepeats(MoverCancel(m).excludeSites)
  {
    if lookup.Ok? {
      AddExcludedNoRepeats(m.excludeSites, lookup.value.1);
    }
  }

  /** A request for a file already in the cache leads `start` to mark the
      mover cached without creating a wrapper. */
  lemma CachedFileNeedsNoTransfer(m: Mover, lfn: String, destDir: String, present: String -> bool,
                                  lookup: Result<(String, String), String>, command: String, spawned: Option<int>)
    requires m.wrapper.None? && lfn != "" && present(LocalPfn(destDir, lfn))
    ensures var (m1, o1) := MoverRequest(m, lfn, destDir, present, lookup);
      && o1 == Pass && m1.source == m.source && m1.excludeSites == m.excludeSites
      && var (m2, o2) := MoverStart(m1, present, command, spawned);
      o2 == Pass && m2.isCached && m2.wrapper.None?
  {
  }
}

=== FILE: file_mover_service.dfy ===
/** The per-user request quota and the small text helpers of the web
    front end (fm/web/FileMoverService.py).

    The service keeps, per user, the list of requested LFNs with a parallel
    list of status texts, and per user the number of requests placed on a
    day. The current day is a parameter (`time.strftime("%Y%m%d")` in the
    source); HTML rendering and the filesystem side of `_remove` are not
    modelled. */
module FileMoverService {
  import opened Wrappers
  import opened Strings
  import Lfn

  // ---------------------------------------------------------------------------
  // Text helpers

  /** `minify`: newlines and tabs become spaces, then runs of three and of
      two spaces are shortened, each by one left-to-right pass. */
  function Minify(content: String): (r: String)
    ensures '\n' !in r && '\t' !in r
    ensures |r| <= |content|
  {
    var a := ReplaceAll(content, "\n", " ");
    var b := ReplaceAll(a, "\t", " ");
    var c := ReplaceAll(b, "   ", " ");
    var d := ReplaceAll(c, "  ", " ");
    ReplaceAllRemovesChar(content, '\n', " ");
    ReplaceAllKeepsAbsent(a, "\t", " ", '\n');
    ReplaceAllRemovesChar(a, '\t', " ");
    ReplaceAllKeepsAbsent(b, "   ", " ", '\n');
    ReplaceAllKeepsAbsent(b, "   ", " ", '\t');
    ReplaceAllKeepsAbsent(c, "  ", " ", '\n');
    ReplaceAllKeepsAbsent(c, "  ", " ", '\t');
    ReplaceAllShrinks(content, "\n", " ");
    ReplaceAllShrinks(a, "\t", " ");
    ReplaceAllShrinks(b, "   ", " ");
    ReplaceAllShrinks(c, "  ", " ");
    d
  }

  const AND: String := "_and_"

  /** `parse_args`: every parameter split at `_and_`, the pieces in order. */
  function ParseArgs(params: seq<String>): (r: seq<String>)
    ensures |r| >= |params|
    decreases |params|
  {
    if |params| == 0 then [] else SplitOn(params[0], AND) + ParseArgs(params[1..])
  }

  /** Splitting distributes over concatenation of the parameter list. */
  lemma {:induction false} ParseArgsAppend(a: seq<String>, b: seq<String>)
    ensures ParseArgs(a + b) == ParseArgs(a) + ParseArgs(b)
    decreases |a|
  {
    if |a| == 0 {
      assert a + b == b;
    } else {
      assert (a + b)[1..] == a[1..] + b;
      ParseArgsAppend(a[1..], b);
    }
  }

  /** The pieces of one parameter joined with `_and_` give it back. */
  lemma ParseArgsSingle(s: String)
    ensures ParseArgs([s]) == SplitOn(s, AND)
    ensures Join(AND, ParseArgs([s])) == s
  {
    assert ParseArgs([s]) == SplitOn(s, AND) + ParseArgs([]);
    JoinSplitOn(s, AND);
  }

  /** A parameter without `_and_` is passed through as one argument. */
  lemma {:induction false} SplitOnNoOccurrence(s: String, sep: String)
    requires |sep| > 0 && !Contains(s, sep)
    ensures SplitOn(s, sep) == [s]
    decreases |s|
  {
    if |s| >= |sep| {
      assert !OccursAt(s, sep, 0);
      forall i | OccursAt(s[1..], sep, i) ensures OccursAt(s, sep, i + 1) {
        TailOccurrence(s, sep, i);
      }
      SplitOnNoOccurrence(s[1..], sep);
      assert [s[0]] + s[1..] == s;
    }
  }

  lemma {:induction false} ParseArgsWithoutAnd(params: seq<String>)
    requires forall i :: 0 <= i < |params| ==> !Contains(params[i], AND)
    ensures ParseArgs(params) == params
    decreases |params|
  {
    if |params| > 0 {
      SplitOnNoOccurrence(params[0], AND);
      ParseArgsWithoutAnd(params[1..]);
      assert params == [params[0]] + params[1..];
    }
  }

  /** `spanId`: the last `/`-segment with every `.root` removed. */
  function SpanId(lfn: String): (r: String)
    ensures '/' !in r
    ensures '/' !in lfn ==> r == Join("", SplitOn(lfn, ".root"))
  {
    var name := Last(Split(lfn, '/'));
    SplitPiecesAvoidSeparator(lfn, '/');
    ReplaceAllKeepsAbsent(name, ".root", "", '/');
    assert '/' !in lfn ==> Split(lfn, '/') == [lfn] by {
      if '/' !in lfn {
        SplitWithoutSeparator(lfn, '/');
      }
    }
    ReplaceAllIsJoinSplit(name, ".root", "");
    ReplaceAll(name, ".root", "")
  }

  /** The span id of `dir/name` is `name` cut at every `.root` and glued back
      together: the last path segment with each `.root` removed. */
  lemma SpanIdOfPath(dir: String, name: String)
    requires '/' !in name
    ensures SpanId(dir + "/" + name) == Join("", SplitOn(name, ".root"))
  {
    SplitLastPiece(dir, '/', name);
    ReplaceAllIsJoinSplit(name, ".root", "");
  }

  lemma {:induction false} DropRootSuffix(stem: String)
    requires '.' !in stem
    ensures ReplaceAll(stem + ".root", ".root", "") == stem
    decreases |stem|
  {
    if |stem| == 0 {
      assert stem + ".root" == ".root";
      assert ".root"[5..] == [];
    } else {
      assert (stem + ".root")[1..] == stem[1..] + ".root";
      assert !StartsWith(stem + ".root", ".root") by {
        assert (stem + ".root")[0] == stem[0] != '.';
      }
      DropRootSuffix(stem[1..]);
      assert [stem[0]] + stem[1..] == stem;
    }
  }

  /** For a file `dir/stem.root` whose stem has no dot, the id is the stem. */
  lemma SpanIdOfRootFile(dir: String, stem: String)
    requires '.' !in stem && '/' !in stem
    ensures SpanId(dir + "/" + stem + ".root") == stem
  {
    var name := stem + ".root";
    assert '/' !in name;
    SplitLastPiece(dir, '/', name);
    assert dir + "/" + stem + ".root" == dir + ['/'] + name;
    DropRootSuffix(stem);
  }

  // ---------------------------------------------------------------------------
  // The request quota

  datatype Quota = Quota(
    userDict: map<String, (seq<String>, seq<String>)>,  // user -> (LFNs, statuses)
    perDay: map<String, (int, String)>,                 // user -> (requests, day)
    dayTransfer: int,                                    // `day_transfer`
    maxTransfer: int)                                    // `max_transfer`

  datatype QuotaError =
    | BadLfn(lfn: String)       // `validate_lfn` raised
    | UnknownUser(user: String) // `userDict[user]` raised KeyError
    | StatusMissing             // `statList[idx]` raised IndexError

  /** The codes `addLfn` answers. */
  const REJECTED: int := 0       // over the per-day or the at-once limit
  const ADDED: int := 1
  const DUPLICATE: int := 2

  /** Every user's two lists have the same length. */
  ghost predicate Aligned(q: Quota) {
    forall u :: u in q.userDict ==> |q.userDict[u].0| == |q.userDict[u].1|
  }

  /** The day bookkeeping at the start of `addLfn`: None when the request is
      refused for the day, otherwise the updated table. */
  function DayCheck(perDay: map<String, (int, String)>, user: String, today: String, dayTransfer: int)
    : (r: Option<map<String, (int, String)>>)
    ensures r.None? <==> user in perDay && perDay[user].1 != today && perDay[user].0 > dayTransfer
    ensures r.Some? ==> user in r.value && r.value[user].1 == today
    ensures r.Some? ==> r.value[user].0 == (if user in perDay && perDay[user].1 == today then perDay[user].0 else 0)
    ensures r.Some? ==> forall u :: u != user ==> (u in r.value <==> u in perDay) && (u in perDay ==> r.value[u] == perDay[u])
  {
    if user in perDay then
      var (n, day) := perDay[user];
      if day != today && n > dayTransfer then None
      else if day != today then Some(perDay[user := (0, today)])
      else Some(perDay)
    else Some(perDay[user := (0, today)])
  }

  /** `addLfn`. The LFN is validated first; then the day check may refuse,
      after which the at-once limit is checked before the duplicate check.
      An accepted LFN is appended with status "requested" and counted. */
  function AddLfn(q: Quota, user: String, lfn: String, today: String): (r: (Quota, Result<int, QuotaError>))
    ensures !Lfn.LfnGrammar(lfn) ==> r == (q, Err(BadLfn(lfn)))
    ensures r.0.userDict.Keys == q.userDict.Keys
    ensures r.0.dayTransfer == q.dayTransfer && r.0.maxTransfer == q.maxTransfer
    ensures r.1 == Ok(ADDED) ==>
      && user in q.userDict
      && |q.userDict[user].0| < q.maxTransfer && lfn !in q.userDict[user].0
      && r.0.userDict == q.userDict[user := (q.userDict[user].0 + [lfn], q.userDict[user].1 + ["requested"])]
      && user in r.0.perDay && r.0.perDay[user].1 == today
    ensures r.1 != Ok(ADDED) ==> r.0.userDict == q.userDict
    ensures (Lfn.LfnGrammar(lfn) && user in q.userDict && DayCheck(q.perDay, user, today, q.dayTransfer).Some?) ==>
      r.1 == Ok(if |q.userDict[user].0| >= q.maxTransfer then REJECTED
                else if lfn in q.userDict[user].0 then DUPLICATE
                else ADDED)
    ensures (Lfn.LfnGrammar(lfn) && DayCheck(q.perDay, user, today, q.dayTransfer).None?) ==> r == (q, Ok(REJECTED))
    ensures (Lfn.LfnGrammar(lfn) && DayCheck(q.perDay, user, today, q.dayTransfer).Some? && r.1 != Ok(ADDED)) ==>
      r.0.perDay == DayCheck(q.perDay, user, today, q.dayTransfer).value
    ensures r.1 == Ok(ADDED) ==>
      && DayCheck(q.perDay, user, today, q.dayTransfer).Some?
      && r.0.perDay == DayCheck(q.perDay, user, today, q.dayTransfer).value[user :=
           (DayCheck(q.perDay, user, today, q.dayTransfer).value[user].0 + 1, today)]
  {
    if Lfn.ValidateLfn(lfn).Fail? then (q, Err(BadLfn(lfn)))
    else match DayCheck(q.perDay, user, today, q.dayTransfer)
      case None => (q, Ok(REJECTED))
      case Some(perDay) => Admit(q.(perDay := perDay), user, lfn, today)
  }

  /** The part of `addLfn` after the day check: the at-once limit, then the
      duplicate check, then the append. */
  function Admit(q: Quota, user: String, lfn: String, today: String): (r: (Quota, Result<int, QuotaError>))
    requires user in q.perDay
    ensures user !in q.userDict ==> r == (q, Err(UnknownUser(user)))
    ensures user in q.userDict ==>
      r.1 == Ok(if |q.userDict[user].0| >= q.maxTransfer then REJECTED
                else if lfn in q.userDict[user].0 then DUPLICATE
                else ADDED)
    ensures r.1 != Ok(ADDED) ==> r.0 == q
    ensures r.1 == Ok(ADDED) ==>
      && user in q.userDict
      && r.0 == q.(userDict := q.userDict[user := (q.userDict[user].0 + [lfn], q.userDict[user].1 + ["requested"])],
                   perDay := q.perDay[user := (q.perDay[user].0 + 1, today)])
  {
    if user !in q.userDict then (q, Err(UnknownUser(user)))
    else
      var (lfns, stats) := q.userDict[user];
      if |lfns| >= q.maxTransfer then (q, Ok(REJECTED))
      else if lfn in lfns then (q, Ok(DUPLICATE))
      else
        (q.(userDict := q.userDict[user := (lfns + [lfn], stats + ["requested"])],
            perDay := q.perDay[user := (q.perDay[user].0 + 1, today)]), Ok(ADDED))
  }

  /** On the same day the count never blocks a request: only the at-once
      limit and duplicates do. */
  lemma SameDayNeverRefused(q: Quota, user: String, lfn: String, today: String)
    requires Lfn.LfnGrammar(lfn) && user in q.userDict && user in q.perDay && q.perDay[user].1 == today
    requires |q.userDict[user].0| < q.maxTransfer && lfn !in q.userDict[user].0
    ensures AddLfn(q, user, lfn, today).1 == Ok(ADDED)
    ensures AddLfn(q, user, lfn, today).0.perDay[user] == (q.perDay[user].0 + 1, today)
  {
  }

  /** On a new day a user over the daily limit is refused without any change;
      one within it starts the day's count afresh. */
  lemma NewDayResetsCount(q: Quota, user: String, lfn: String, today: String)
    requires Lfn.LfnGrammar(lfn) && user in q.userDict && user in q.perDay && q.perDay[user].1 != today
    ensures q.perDay[user].0 > q.dayTransfer ==> AddLfn(q, user, lfn, today) == (q, Ok(REJECTED))
    ensures (q.perDay[user].0 <= q.dayTransfer && |q.userDict[user].0| < q.maxTransfer &&
             lfn !in q.userDict[user].0) ==> AddLfn(q, user, lfn, today).0.perDay[user] == (1, today)
  {
  }

  /** Python's `list.remove(x)`: drops the first occurrence. */
  function RemoveFirst<T(==)>(xs: seq<T>, x: T): (r: seq<T>)
    requires x in xs
    ensures r == xs[..IndexOf(xs, x)] + xs[IndexOf(xs, x) + 1..]
    ensures |r| == |xs| - 1
    ensures multiset(r) == multiset(xs) - multiset{x}
  {
    var i := IndexOf(xs, x);
    assert xs == xs[..i] + [x] + xs[i + 1..];
    xs[..i] + xs[i + 1..]
  }

  /** `delLfn`: the first occurrence of the LFN is removed, and from the
      statuses the first one equal to the status at that position. */
  function DelLfn(q: Quota, user: String, lfn: String): (r: (Quota, Outcome<QuotaError>))
    ensures !Lfn.LfnGrammar(lfn) ==> r == (q, Fail(BadLfn(lfn)))
    ensures Lfn.LfnGrammar(lfn) && user !in q.userDict ==> r == (q, Fail(UnknownUser(user)))
    ensures r.0.perDay == q.perDay && r.0.userDict.Keys == q.userDict.Keys
    ensures forall u :: u in q.userDict && u != user ==> r.0.userDict[u] == q.userDict[u]
    ensures (Lfn.LfnGrammar(lfn) && user in q.userDict && lfn !in q.userDict[user].0) ==> r == (q, Pass)
    ensures (Lfn.LfnGrammar(lfn) && user in q.userDict && lfn in q.userDict[user].0 &&
             IndexOf(q.userDict[user].0, lfn) < |q.userDict[user].1|) ==>
      && r.1 == Pass
      && r.0.userDict[user].0 == RemoveFirst(q.userDict[user].0, lfn)
      && multiset(r.0.userDict[user].1) ==
           multiset(q.userDict[user].1) - multiset{q.userDict[user].1[IndexOf(q.userDict[user].0, lfn)]}
    ensures Aligned(q) ==> Aligned(r.0) && r.1 != Fail(StatusMissing)
  {
    if Lfn.ValidateLfn(lfn).Fail? then (q, Fail(BadLfn(lfn)))
    else if user !in q.userDict then (q, Fail(UnknownUser(user)))
    else
      var (lfns, stats) := q.userDict[user];
      if lfn !in lfns then (q, Pass)
      else
        var idx := IndexOf(lfns, lfn);
        var lfns' := RemoveFirst(lfns, lfn);
        if idx >= |stats| then (q.(userDict := q.userDict[user := (lfns', stats)]), Fail(StatusMissing))
        else
          (q.(userDict := q.userDict[user := (lfns', RemoveFirst(stats, stats[idx]))]), Pass)
  }

  /** `addLfn` keeps each user's two lists the same length. */
  lemma AddLfnKeepsAligned(q: Quota, user: String, lfn: String, today: String)
    requires Aligned(q)
    ensures Aligned(AddLfn(q, user, lfn, today).0)
  {
  }

  /** Removal by value can take a status from another LFN's position: when an
      earlier LFN at position `j` has the same status, it is position `j`
      that loses its status, and the LFNs after `j` pair with the wrong one. */
  lemma DelLfnMayShiftStatuses(q: Quota, user: String, lfn: String, j: nat)
    requires Lfn.LfnGrammar(lfn) && user in q.userDict && lfn in q.userDict[user].0
    requires var (lfns, stats) := q.userDict[user];
      && IndexOf(lfns, lfn) < |stats| && j <= IndexOf(lfns, lfn)
      && stats[j] == stats[IndexOf(lfns, lfn)] && stats[j] !in stats[..j]
    ensures var (lfns, stats) := q.userDict[user];
      DelLfn(q, user, lfn).0.userDict[user].1 == stats[..j] + stats[j + 1..]
  {
    DelLfnRemovesAt(q, user, lfn);
  }

  /** The entry left after removing an LFN whose status is present. */
  lemma DelLfnRemovesAt(q: Quota, user: String, lfn: String)
    requires Lfn.LfnGrammar(lfn) && user in q.userDict && lfn in q.userDict[user].0
    requires IndexOf(q.userDict[user].0, lfn) < |q.userDict[user].1|
    ensures var (lfns, stats) := q.userDict[user];
      DelLfn(q, user, lfn).0.userDict[user] == (RemoveFirst(lfns, lfn), RemoveFirst(stats, stats[IndexOf(lfns, lfn)]))
  {
    Lfn.ValidLfnIffGrammar(lfn);
  }

  /** `nActiveDownloads`: the statuses that do not mention "Download". */
  function ActiveCount(stats: seq<String>): (n: nat)
    ensures n <= |stats|
    decreases |stats|
  {
    if |stats| == 0 then 0
    else ActiveCount(stats[..|stats| - 1]) + (if Contains(stats[|stats| - 1], "Download") then 0 else 1)
  }

  method NActiveDownloads(q: Quota, user: String) returns (r: Result<nat, QuotaError>)
    ensures user !in q.userDict <==> r.Err?
    ensures r.Ok? ==> r.value == ActiveCount(q.userDict[user].1) && r.value <= |q.userDict[user].1|
  {
    if user !in q.userDict {
      return Err(UnknownUser(user));
    }
    var stats := q.userDict[user].1;
    var count := 0;
    for i := 0 to |stats|
      invariant count == ActiveCount(stats[..i])
    {
      assert stats[..i + 1][..i] == stats[..i];
      if !Contains(stats[i], "Download") {
        count := count + 1;
      }
    }
    assert stats[..|stats|] == stats;
    return Ok(count);
  }

  /** The status of a new request is not a "Download..." status. */
  lemma RequestedIsActive()
    ensures !Contains("requested", "Download")
  {
    forall i | 0 <= i <= 1 ensures !OccursAt("requested", "Download", i) {
      assert "requested"[i..i + 8][0] == "requested"[i] != 'D';
    }
  }

  /** A freshly added request counts as one more active download. */
  lemma AddedRequestIsActive(q: Quota, user: String, lfn: String, today: String)
    requires AddLfn(q, user, lfn, today).1 == Ok(ADDED)
    ensures ActiveCount(AddLfn(q, user, lfn, today).0.userDict[user].1) == ActiveCount(q.userDict[user].1) + 1
  {
    var stats := q.userDict[user].1;
    var stats' := stats + ["requested"];
    assert stats'[..|stats'| - 1] == stats;
    RequestedIsActive();
  }
}

=== FILE: lfn.dfy ===
/** Logical file name validation (`validate_lfn` in fm/core/FileManager.py).

    The source matches the regular expression
    `^/store(/[A-Za-z0-9][-A-Za-z0-9_.]*)+\.root$` with Python's `re.match`,
    whose `$` also matches just before one trailing newline. The model
    replaces the regex engine by a hand-written scanner and proves it accepts
    exactly the language the expression describes. */
module Lfn {
  import opened Wrappers
  import opened Strings

  /** A character allowed inside a path segment: `[-A-Za-z0-9_.]`. */
  predicate SegChar(c: char) {
    IsAlnum(c) || c == '-' || c == '_' || c == '.'
  }

  /** One path segment: `[A-Za-z0-9][-A-Za-z0-9_.]*`. */
  predicate ValidSegment(g: String) {
    |g| > 0 && IsAlnum(g[0]) && forall i :: 0 <= i < |g| ==> SegChar(g[i])
  }

  /** The segments rendered as `/g1/g2/.../gn`. */
  function SlashSegments(segs: seq<String>): String
    decreases |segs|
  {
    if |segs| == 0 then [] else "/" + segs[0] + SlashSegments(segs[1..])
  }

  /** The name `/store/g1/.../gn.root` built from its segments. */
  function Build(segs: seq<String>): String {
    "/store" + SlashSegments(segs) + ".root"
  }

  ghost predicate WellFormed(segs: seq<String>) {
    |segs| >= 1 && forall i :: 0 <= i < |segs| ==> ValidSegment(segs[i])
  }

  /** The language of the source's regular expression, read with Python's `$`. */
  ghost predicate LfnGrammar(s: String) {
    exists segs :: WellFormed(segs) && (s == Build(segs) || s == Build(segs) + "\n")
  }

  // ---------------------------------------------------------------------------
  // The scanner

  /** Scans the `(/segment)+` part; `afterSlash` holds right after a `/`,
      where a segment must begin with an alphanumeric character. */
  predicate ScanPath(t: String, afterSlash: bool)
    decreases |t|
  {
    if |t| == 0 then !afterSlash
    else if afterSlash then IsAlnum(t[0]) && ScanPath(t[1..], false)
    else if t[0] == '/' then ScanPath(t[1..], true)
    else SegChar(t[0]) && ScanPath(t[1..], false)
  }

  /** The text with one trailing newline removed, if it has one. */
  function Core(s: String): String {
    if |s| > 0 && s[|s| - 1] == '\n' then s[..|s| - 1] else s
  }

  /** The scanner's verdict on a whole name. */
  predicate IsValidLfn(s: String) {
    var core := Core(s);
    && |core| >= 12
    && StartsWith(core, "/store")
    && EndsWith(core, ".root")
    && core[6] == '/'
    && ScanPath(core[6..|core| - 5], false)
  }

  /** The error `validate_lfn` raises. */
  datatype LfnError = InvalidLfn(lfn: String)

  /** `validate_lfn`: passes exactly the names the regular expression matches. */
  function ValidateLfn(s: String): (r: Outcome<LfnError>)
    ensures r.Pass? <==> LfnGrammar(s)
    ensures r.Fail? ==> r.error == InvalidLfn(s)
  {
    ValidLfnIffGrammar(s);
    if IsValidLfn(s) then Pass else Fail(InvalidLfn(s))
  }

  // ---------------------------------------------------------------------------
  // Soundness and completeness of the scanner

  /** Inside a segment the scanner skips a run of segment characters. */
  lemma {:induction false} SkipSegChars(g: String, rest: String)
    requires forall i :: 0 <= i < |g| ==> SegChar(g[i])
    ensures ScanPath(g + rest, false) == ScanPath(rest, false)
    decreases |g|
  {
    if |g| > 0 {
      assert (g + rest)[1..] == g[1..] + rest;
      SkipSegChars(g[1..], rest);
    } else {
      assert g + rest == rest;
    }
  }

  /** The rendering of well-formed segments is accepted by the scanner. */
  lemma {:induction false} ScanSlashSegments(segs: seq<String>)
    requires forall i :: 0 <= i < |segs| ==> ValidSegment(segs[i])
    ensures ScanPath(SlashSegments(segs), false)
    decreases |segs|
  {
    if |segs| > 0 {
      var g := segs[0];
      var rest := SlashSegments(segs[1..]);
      var t := "/" + g + rest;
      assert t[1..] == g + rest;
      assert (g + rest)[1..] == g[1..] + rest;
      SkipSegChars(g[1..], rest);
      ScanSlashSegments(segs[1..]);
    }
  }

  /** Index of the first `/` in `t`, or `|t|` when there is none. */
  function FirstSlash(t: String): (k: nat)
    ensures k <= |t|
    ensures forall i :: 0 <= i < k ==> t[i] != '/'
    ensures k < |t| ==> t[k] == '/'
    decreases |t|
  {
    if |t| == 0 || t[0] == '/' then 0 else 1 + FirstSlash(t[1..])
  }

  /** Scanning a slash-free prefix succeeds only over segment characters. */
  lemma {:induction false} ScanRun(t: String, k: nat)
    requires k <= |t|
    requires forall i :: 0 <= i < k ==> t[i] != '/'
    requires ScanPath(t, false)
    ensures forall i :: 0 <= i < k ==> SegChar(t[i])
    ensures ScanPath(t[k..], false)
    decreases k
  {
    if k > 0 {
      ScanRun(t[1..], k - 1);
      assert t[1..][k - 1..] == t[k..];
      forall i | 1 <= i < k ensures SegChar(t[i]) {
        assert t[1..][i - 1] == t[i];
      }
    }
  }

  /** Where the first segment of a `/`-led text ends. */
  function SegEnd(m: String): (e: nat)
    requires |m| >= 2
    ensures 2 <= e <= |m|
  {
    2 + FirstSlash(m[2..])
  }

  /** A scanned `/`-led text has an alphanumeric character after its slash. */
  lemma HeadScan(m: String)
    requires |m| > 0 && m[0] == '/' && ScanPath(m, false)
    ensures |m| >= 2 && IsAlnum(m[1]) && ScanPath(m[2..], false)
  {
    assert m[1..][1..] == m[2..];
  }

  /** An alphanumeric character followed by segment characters is a segment. */
  lemma SegmentAt(m: String, e: nat)
    requires 2 <= e <= |m| && IsAlnum(m[1])
    requires forall i :: 0 <= i < e - 2 ==> SegChar(m[2..][i])
    ensures ValidSegment(m[1..e])
  {
    var g := m[1..e];
    forall i | 1 <= i < |g| ensures SegChar(g[i]) {
      assert g[i] == m[2..][i - 1];
    }
  }

  /** A `/`-led text is the slash, a middle piece and the rest. */
  lemma SlashSplit(m: String, e: nat)
    requires 1 <= e <= |m| && m[0] == '/'
    ensures m == "/" + m[1..e] + m[e..]
  {
    assert m == [m[0]] + m[1..e] + m[e..];
  }

  /** A scanned `(/segment)+` text starts with one well-formed segment,
      followed by nothing or by another scanned `/`-led text. */
  lemma HeadSegment(m: String)
    requires |m| > 0 && m[0] == '/' && ScanPath(m, false)
    ensures |m| >= 2
    ensures ValidSegment(m[1..SegEnd(m)]) && m == "/" + m[1..SegEnd(m)] + m[SegEnd(m)..]
    ensures SegEnd(m) < |m| ==> m[SegEnd(m)] == '/' && ScanPath(m[SegEnd(m)..], false)
  {
    HeadScan(m);
    var k := FirstSlash(m[2..]);
    ScanRun(m[2..], k);
    var e := SegEnd(m);
    SegmentAt(m, e);
    assert m[2..][k..] == m[e..];
    SlashSplit(m, e);
  }

  /** Recovers the segments from a scanned `(/segment)+` text. */
  function SegmentsOf(m: String): (segs: seq<String>)
    requires |m| > 0 && m[0] == '/' && ScanPath(m, false)
    ensures |segs| >= 1
    ensures forall i :: 0 <= i < |segs| ==> ValidSegment(segs[i])
    ensures SlashSegments(segs) == m
    decreases |m|
  {
    HeadSegment(m);
    var e := SegEnd(m);
    var g := m[1..e];
    var rest := m[e..];
    if |rest| == 0 then
      assert SlashSegments([g]) == "/" + g + [];
      [g]
    else
      var tail := SegmentsOf(rest);
      assert ([g] + tail)[1..] == tail;
      [g] + tail
  }

  /** A name built from segments has the rendering as its middle part. */
  lemma BuildParts(segs: seq<String>)
    requires |segs| >= 1
    ensures var b := Build(segs);
      |b| >= 12 && b[..6] == "/store" && b[|b| - 5..] == ".root"
      && b[6..|b| - 5] == SlashSegments(segs) && b[6] == '/' && b[|b| - 1] == 't'
  {
    var b := Build(segs);
    var m := SlashSegments(segs);
    assert m == "/" + segs[0] + SlashSegments(segs[1..]);
    assert m[0] == '/';
    assert b == "/store" + m + ".root";
  }

  /** Every name in the language begins with `/store`. */
  lemma GrammarPrefix(s: String)
    requires LfnGrammar(s)
    ensures |s| >= 12 && s[..6] == "/store"
  {
    var segs :| WellFormed(segs) && (s == Build(segs) || s == Build(segs) + "\n");
    BuildParts(segs);
    var b := Build(segs);
    assert s[..6] == b[..6];
  }

  /** `/store/<segment>.root` is in the language. */
  lemma SingleSegment(g: String)
    requires ValidSegment(g)
    ensures LfnGrammar("/store/" + g + ".root")
  {
    assert SlashSegments([g]) == "/" + g;
    assert Build([g]) == "/store/" + g + ".root";
    assert WellFormed([g]);
  }

  /** The scanner accepts exactly the language of the regular expression,
      including the one trailing newline Python's `$` lets through. */
  lemma ValidLfnIffGrammar(s: String)
    ensures IsValidLfn(s) <==> LfnGrammar(s)
  {
    if IsValidLfn(s) {
      ValidLfnInGrammar(s);
    }
    if LfnGrammar(s) {
      GrammarIsValidLfn(s);
    }
  }

  lemma ValidLfnInGrammar(s: String)
    requires IsValidLfn(s)
    ensures LfnGrammar(s)
  {
    var core := Core(s);
    var m := core[6..|core| - 5];
    var segs := SegmentsOf(m);
    assert core == core[..6] + m + core[|core| - 5..];
    assert core == Build(segs);
    assert WellFormed(segs);
    if |s| > 0 && s[|s| - 1] == '\n' {
      assert s == core + "\n";
    }
  }

  lemma GrammarIsValidLfn(s: String)
    requires LfnGrammar(s)
    ensures IsValidLfn(s)
  {
    var segs :| WellFormed(segs) && (s == Build(segs) || s == Build(segs) + "\n");
    BuildParts(segs);
    ScanSlashSegments(segs);
    var b := Build(segs);
    assert Core(s) == b;
  }

  /** A plain name is accepted, and so is the same name followed by one
      newline. */
  lemma ExampleAccepted()
    ensures IsValidLfn("/store/a/b/c.root")
    ensures IsValidLfn("/store/a/b/c.root\n")
  {
    assert "/store/a/b/c.root"[6..12] == "/a/b/c";
    assert ScanPath("/a/b/c", false) by {
      assert ScanPath("", false);
      assert ScanPath("c", true);
      assert ScanPath("/c", false);
      assert ScanPath("b/c", true);
      assert ScanPath("/b/c", false);
      assert ScanPath("a/b/c", true);
    }
    assert Core("/store/a/b/c.root\n") == "/store/a/b/c.root";
  }

  /** Names the expression does not match are refused: one without any
      segment, one with an empty segment, and one whose segment starts with
      an underscore. */
  lemma ExampleRejected()
    ensures !IsValidLfn("/store.root")
    ensures !IsValidLfn("/store/a//c.root")
    ensures !IsValidLfn("/store/a/_b.root")
  {
    var empty := "/store/a//c.root";
    assert empty[6..|empty| - 5] == "/a//c";
    assert !ScanPath("/c", true);
    assert !ScanPath("//c", false);
    assert !ScanPath("a//c", true);
    var under := "/store/a/_b.root";
    assert under[6..|under| - 5] == "/a/_b";
    assert !ScanPath("_b", true);
    assert !ScanPath("/_b", false);
    assert !ScanPath("a/_b", true);
  }
}

=== FILE: mapping_manager.dfy ===
/** The reference-counted key/value cache of fm/core/MappingManager.py.

    Only the sequential semantics are modelled: each locked region is part of
    one atomic transition, and the branch where a second thread waits on the
    condition of a lookup already in flight is reported as `MustWait` without
    being followed. The subclass hook `_lookup` is an oracle `lookup` indexed
    by the number of `_lookup` calls made so far; `_release` is recorded in
    the `released` log. */
module MappingManager {
  import opened Wrappers

  datatype Cache<K, V> = Cache(
    mapping: map<K, V>,      // `_mapping`
    refcount: map<K, int>,   // `_keys_refcount`
    inflight: set<K>,        // the keys of `_lookup_attempts`
    released: seq<K>)        // every key `_release` was called with, in order

  /** Why `acquireValue` raised. */
  datatype AcquireError =
    | LookupFailed    // the last `_lookup` exception, re-raised
    | MarkerMissing   // the KeyError of deleting an in-flight marker a retry already removed

  datatype AcquireOutcome<V> =
    | Acquired(value: V)
    | Raised(error: AcquireError)
    | MustWait        // another lookup of the key is in flight

  /** The cache after the call, its outcome, and the index of the next `_lookup` call. */
  datatype Acquisition<K, V> = Acquisition(cache: Cache<K, V>, outcome: AcquireOutcome<V>, next: nat)

  function Empty<K, V>(): (c: Cache<K, V>)
    ensures Inv(c) && c.inflight == {} && c.released == []
  {
    Cache(map[], map[], {}, [])
  }

  /** `dict.get(k, default)`. */
  function Get<K>(m: map<K, int>, k: K, default: int): int {
    if k in m then m[k] else default
  }

  /** Held keys are exactly the counted keys, and every count is positive. */
  ghost predicate Inv<K, V>(c: Cache<K, V>) {
    && c.mapping.Keys == c.refcount.Keys
    && forall k :: k in c.refcount ==> c.refcount[k] >= 1
  }

  /** The success block at the end of a lookup frame: count the reference,
      store the value, then delete the frame's marker, which raises KeyError
      when a nested retry has already deleted it. */
  function Store<K, V>(c: Cache<K, V>, key: K, v: V): (r: (Cache<K, V>, AcquireOutcome<V>))
    ensures r.0.mapping == c.mapping[key := v]
    ensures r.0.refcount == c.refcount[key := Get(c.refcount, key, 0) + 1]
    ensures r.0.inflight == c.inflight - {key} && r.0.released == c.released
    ensures r.1 == if key in c.inflight then Acquired(v) else Raised(MarkerMissing)
  {
    var c' := c.(mapping := c.mapping[key := v],
                 refcount := c.refcount[key := Get(c.refcount, key, 0) + 1]);
    if key in c.inflight then (c'.(inflight := c.inflight - {key}), Acquired(v))
    else (c', Raised(MarkerMissing))
  }

  /** `acquireValue(key, can_recurse)`, with `calls` lookups already made. */
  function Acquire<K, V>(c: Cache<K, V>, key: K, canRecurse: nat, lookup: nat -> Option<V>, calls: nat)
    : (r: Acquisition<K, V>)
    ensures calls <= r.next <= calls + canRecurse + 1
    ensures r.cache.released == c.released
    ensures key !in c.inflight ==> r.cache.inflight == c.inflight
    ensures r.outcome.MustWait? <==> key !in c.mapping && key in c.inflight
    ensures r.outcome.MustWait? ==> r.cache == c && r.next == calls
    ensures Inv(c) ==> Inv(r.cache)
    ensures r.outcome.Acquired? ==> key in r.cache.mapping && r.cache.mapping[key] == r.outcome.value
    ensures r.outcome.Raised? && r.outcome.error == LookupFailed ==> r.cache == c
    decreases canRecurse
  {
    if key in c.mapping then
      var c' := c.(refcount := c.refcount[key := Get(c.refcount, key, 0) + 1]);
      Acquisition(c', Acquired(c.mapping[key]), calls)
    else if key in c.inflight then
      Acquisition(c, MustWait, calls)
    else
      var marked := c.(inflight := c.inflight + {key});
      match lookup(calls)
      case Some(v) =>
        var (c', o) := Store(marked, key, v);
        Acquisition(c', o, calls + 1)
      case None =>
        if canRecurse == 0 then
          Acquisition(c, Raised(LookupFailed), calls + 1)
        else
          var inner := Acquire(c, key, canRecurse - 1, lookup, calls + 1);
          match inner.outcome
          case Acquired(v) =>
            var (c', o) := Store(inner.cache, key, v);
            Acquisition(c', o, inner.next)
          case Raised(e) =>
            Acquisition(inner.cache.(inflight := inner.cache.inflight - {key}), Raised(e), inner.next)
          case MustWait =>
            assert false;
            inner
  }

  /** `releaseKey`: drop one reference of a held key, forgetting it at zero;
      the `_release` hook runs whether or not the key was held. */
  function Release<K, V>(c: Cache<K, V>, key: K): (r: Cache<K, V>)
    ensures r.released == c.released + [key] && r.inflight == c.inflight
    ensures key !in c.mapping ==> r.mapping == c.mapping && r.refcount == c.refcount
    ensures Inv(c) ==> Inv(r)
    ensures r.mapping - {key} == c.mapping - {key}
  {
    var c' :=
      if key in c.mapping then
        var count := Get(c.refcount, key, 1) - 1;
        if count <= 0 then c.(mapping := c.mapping - {key}, refcount := c.refcount - {key})
        else c.(refcount := c.refcount[key := count])
      else c;
    c'.(released := c.released + [key])
  }

  // ---------------------------------------------------------------------------
  // Properties

  /** A hit counts one more reference and returns the cached value without
      calling `_lookup`. */
  lemma AcquireHit<K, V>(c: Cache<K, V>, key: K, canRecurse: nat, lookup: nat -> Option<V>, calls: nat)
    requires Inv(c) && key in c.mapping
    ensures var r := Acquire(c, key, canRecurse, lookup, calls);
      && r.outcome == Acquired(c.mapping[key])
      && r.next == calls
      && r.cache.mapping == c.mapping
      && r.cache.refcount == c.refcount[key := c.refcount[key] + 1]
  {
  }

  /** A first lookup that succeeds caches the value with one reference and
      leaves no marker behind. */
  lemma AcquireFirstTry<K, V>(c: Cache<K, V>, key: K, canRecurse: nat, lookup: nat -> Option<V>, calls: nat)
    requires Inv(c) && key !in c.mapping && key !in c.inflight && lookup(calls).Some?
    ensures var r := Acquire(c, key, canRecurse, lookup, calls);
      && r.outcome == Acquired(lookup(calls).value)
      && r.next == calls + 1
      && r.cache.mapping == c.mapping[key := lookup(calls).value]
      && r.cache.refcount == c.refcount[key := 1]
      && key !in r.cache.inflight
  {
  }

  /** When every permitted attempt fails, `_lookup` runs `can_recurse + 1`
      times, its exception is re-raised and nothing changes. */
  lemma {:induction false} AcquireAllFail<K, V>(c: Cache<K, V>, key: K, canRecurse: nat, lookup: nat -> Option<V>, calls: nat)
    requires key !in c.mapping && key !in c.inflight
    requires forall i :: calls <= i <= calls + canRecurse ==> lookup(i).None?
    ensures var r := Acquire(c, key, canRecurse, lookup, calls);
      r == Acquisition(c, Raised(LookupFailed), calls + canRecurse + 1)
    decreases canRecurse
  {
    if canRecurse > 0 {
      AcquireAllFail(c, key, canRecurse - 1, lookup, calls + 1);
    }
  }

  /** A first attempt that fails followed by the retry at depth `j` that
      succeeds: the value is stored with two references and the call raises
      KeyError, because the retry removed the outer frame's marker. */
  lemma {:induction false} AcquireRetrySucceeds<K, V>(c: Cache<K, V>, key: K, canRecurse: nat,
                                                    lookup: nat -> Option<V>, calls: nat, j: nat)
    requires Inv(c) && key !in c.mapping && key !in c.inflight
    requires 1 <= j <= canRecurse
    requires forall i :: calls <= i < calls + j ==> lookup(i).None?
    requires lookup(calls + j).Some?
    ensures var r := Acquire(c, key, canRecurse, lookup, calls);
      && r.outcome == Raised(MarkerMissing)
      && r.next == calls + j + 1
      && r.cache.mapping == c.mapping[key := lookup(calls + j).value]
      && r.cache.refcount == c.refcount[key := 2]
      && r.cache.inflight == c.inflight
    decreases canRecurse
  {
    var inner := Acquire(c, key, canRecurse - 1, lookup, calls + 1);
    if j == 1 {
      assert inner.outcome == Acquired(lookup(calls + 1).value);
      assert inner.cache.refcount == c.refcount[key := 1];
    } else {
      AcquireRetrySucceeds(c, key, canRecurse - 1, lookup, calls + 1, j - 1);
    }
  }

  /** Releasing a key that is not held changes nothing but the hook log. */
  lemma ReleaseUnheld<K, V>(c: Cache<K, V>, key: K)
    requires key !in c.mapping
    ensures Release(c, key) == c.(released := c.released + [key])
  {
  }

  /** Releasing a held key drops one reference; the last one forgets the key. */
  lemma ReleaseHeld<K, V>(c: Cache<K, V>, key: K)
    requires Inv(c) && key in c.mapping
    ensures var r := Release(c, key);
      && (c.refcount[key] == 1 ==> key !in r.mapping && key !in r.refcount)
      && (c.refcount[key] > 1 ==> r.mapping == c.mapping && r.refcount == c.refcount[key := c.refcount[key] - 1])
  {
  }

  /** Acquiring a held key and releasing it again restores the cache, apart
      from the hook log. */
  lemma AcquireThenRelease<K, V>(c: Cache<K, V>, key: K, canRecurse: nat, lookup: nat -> Option<V>, calls: nat)
    requires Inv(c) && key in c.mapping
    ensures Release(Acquire(c, key, canRecurse, lookup, calls).cache, key) == c.(released := c.released + [key])
  {
    var r := Acquire(c, key, canRecurse, lookup, calls);
    assert r.cache.refcount[key] == c.refcount[key] + 1;
    assert r.cache.refcount[key := c.refcount[key]] == c.refcount;
  }

  /** A value stored by a first-try lookup is forgotten by one release. */
  lemma FirstTryThenRelease<K, V>(c: Cache<K, V>, key: K, canRecurse: nat, lookup: nat -> Option<V>, calls: nat)
    requires Inv(c) && key !in c.mapping && key !in c.inflight && lookup(calls).Some?
    ensures Release(Acquire(c, key, canRecurse, lookup, calls).cache, key) == c.(released := c.released + [key])
  {
    var r := Acquire(c, key, canRecurse, lookup, calls);
    assert r.cache.mapping - {key} == c.mapping;
    assert r.cache.refcount - {key} == c.refcount;
  }
}

=== FILE: sitedb.dfy ===
/** The SiteDB client of fm/core/SiteDB.py: shaping SiteDB's JSON answers
    into rows, building the storage-element-to-site mapping, and looking a
    storage element up with a time-based refresh.

    JSON decoding and the two HTTP fetches are outside the model: a fetched
    document is a `Payload` that has already been decoded, and the clock is a
    parameter. */
module SiteDb {
  import opened Wrappers
  import opened Strings

  datatype SiteDbError =
    | WrongDataType       // `parser` on a decoded document that is not a dict
    | MissingKey(key: String)
    | UnknownSite(name: String)  // a resource row whose site has no name row

  // ---------------------------------------------------------------------------
  // Row shaping

  /** `rowdict`: pairs columns with values up to the shorter of the two; a
      column that repeats keeps its first value (`setdefault`). */
  function RowDict<V>(columns: seq<String>, row: seq<V>): (r: map<String, V>)
    ensures forall k :: k in r <==> (exists i :: 0 <= i < |columns| && i < |row| && columns[i] == k)
    decreases |columns|
  {
    if |columns| == 0 || |row| == 0 then map[]
    else
      var rest := RowDict(columns[1..], row[1..]);
      assert forall i :: 0 <= i < |columns| - 1 ==> columns[1..][i] == columns[i + 1];
      rest[columns[0] := row[0]]
  }

  /** Each value lands under its column, unless the column appeared earlier. */
  lemma {:induction false} RowDictFirstWins<V>(columns: seq<String>, row: seq<V>, i: nat)
    requires i < |columns| && i < |row| && columns[i] !in columns[..i]
    ensures columns[i] in RowDict(columns, row) && RowDict(columns, row)[columns[i]] == row[i]
    decreases i
  {
    if i > 0 {
      assert columns[0] in columns[..i];
      assert columns[1..][i - 1] == columns[i];
      assert columns[1..][..i - 1] == columns[..i][1..];
      RowDictFirstWins(columns[1..], row[1..], i - 1);
    }
  }

  /** A later occurrence of a repeated column is ignored. */
  lemma DuplicateColumnKeepsFirst<V>(k: String, l: String, a: V, b: V)
    requires k != l
    ensures RowDict([k, l, k], [a, b, a]) == RowDict([k, l, k], [a, b, b])
    ensures RowDict([k, l, k], [a, b, b])[k] == a
  {
    RowDictFirstWins([k, l, k], [a, b, b], 0);
    RowDictFirstWins([k, l, k], [a, b, a], 0);
  }

  /** A decoded SiteDB document: not a dict, a dict with a `desc` column list
      and a table of rows, or a dict whose result rows are already dicts. */
  datatype Payload<V> =
    | NotADict
    | Described(columns: seq<String>, table: seq<seq<V>>)
    | Plain(records: seq<map<String, V>>)

  function RowDicts<V>(columns: seq<String>, table: seq<seq<V>>): (r: seq<map<String, V>>)
    ensures |r| == |table|
    decreases |table|
  {
    if |table| == 0 then [] else [RowDict(columns, table[0])] + RowDicts(columns, table[1..])
  }

  lemma {:induction false} RowDictsAt<V>(columns: seq<String>, table: seq<seq<V>>, i: nat)
    requires i < |table|
    ensures RowDicts(columns, table)[i] == RowDict(columns, table[i])
    decreases i
  {
    if i > 0 {
      RowDictsAt(columns, table[1..], i - 1);
    }
  }

  /** `parser`: the rows of a document; anything but a dict raises. */
  function Parse<V>(data: Payload<V>): (r: Result<seq<map<String, V>>, SiteDbError>)
    ensures r.Err? <==> data.NotADict?
    ensures r.Err? ==> r.error == WrongDataType
    ensures data.Described? ==> |r.value| == |data.table|
    ensures data.Plain? ==> r.value == data.records
  {
    match data
    case NotADict => Err(WrongDataType)
    case Described(columns, table) => Ok(RowDicts(columns, table))
    case Plain(records) => Ok(records)
  }

  /** A table whose columns are distinct reads back cell by cell. */
  lemma ParsedTableReadsBack<V>(columns: seq<String>, table: seq<seq<V>>, i: nat, j: nat)
    requires i < |table| && j < |columns| && j < |table[i]|
    requires forall a, b :: 0 <= a < b < |columns| ==> columns[a] != columns[b]
    ensures var rows := Parse(Described(columns, table)).value;
      columns[j] in rows[i] && rows[i][columns[j]] == table[i][j]
  {
    RowDictsAt(columns, table, i);
    RowDictFirstWins(columns, table[i], j);
  }

  // ---------------------------------------------------------------------------
  // Building the mapping

  /** The site-name table: `names[row['site_name']] = row['alias']` over the
      rows in order. Python evaluates the right-hand side first, so a missing
      `alias` is reported before a missing `site_name`. A later row overwrites
      an earlier one. */
  function NamesFrom(acc: map<String, String>, rows: seq<map<String, String>>): (r: Result<map<String, String>, SiteDbError>)
    ensures r.Err? <==> exists i :: 0 <= i < |rows| && !NameRow(rows[i])
    ensures r.Ok? ==> acc.Keys <= r.value.Keys
    ensures r.Ok? ==> forall i :: 0 <= i < |rows| ==> rows[i]["site_name"] in r.value
    ensures r.Ok? ==> forall k :: k in r.value ==> k in acc || exists i :: 0 <= i < |rows| && NamesSite(rows[i], k)
    ensures r.Ok? ==> forall i :: LastFor(rows, i) ==>
      rows[i]["site_name"] in r.value && r.value[rows[i]["site_name"]] == rows[i]["alias"]
    ensures r.Ok? ==> forall k :: k in acc && (forall i :: 0 <= i < |rows| ==> !NamesSite(rows[i], k)) ==>
      k in r.value && r.value[k] == acc[k]
    decreases |rows|
  {
    if |rows| == 0 then Ok(acc)
    else if "alias" !in rows[0] then Err(MissingKey("alias"))
    else if "site_name" !in rows[0] then Err(MissingKey("site_name"))
    else
      var r := NamesFrom(acc[rows[0]["site_name"] := rows[0]["alias"]], rows[1..]);
      assert forall i :: 1 <= i < |rows| ==> rows[i] == rows[1..][i - 1];
      if r.Ok? then NamesFromStep(acc, rows, r.value); r else r
  }

  /** The recursive case of `NamesFrom`: the first row's entry survives the
      rest unless a later row names the same site. */
  lemma NamesFromStep(acc: map<String, String>, rows: seq<map<String, String>>, rest: map<String, String>)
    requires |rows| > 0 && NameRow(rows[0])
    requires forall k :: k in rest ==>
      k in acc[rows[0]["site_name"] := rows[0]["alias"]] || exists i :: 0 <= i < |rows| - 1 && NamesSite(rows[1..][i], k)
    requires forall i :: LastFor(rows[1..], i) ==>
      rows[1..][i]["site_name"] in rest && rest[rows[1..][i]["site_name"]] == rows[1..][i]["alias"]
    requires var acc1 := acc[rows[0]["site_name"] := rows[0]["alias"]];
      forall k :: k in acc1 && (forall i :: 0 <= i < |rows| - 1 ==> !NamesSite(rows[1..][i], k)) ==> k in rest && rest[k] == acc1[k]
    ensures forall k :: k in rest ==> k in acc || exists i :: 0 <= i < |rows| && NamesSite(rows[i], k)
    ensures forall i :: LastFor(rows, i) ==> rows[i]["site_name"] in rest && rest[rows[i]["site_name"]] == rows[i]["alias"]
    ensures forall k :: k in acc && (forall i :: 0 <= i < |rows| ==> !NamesSite(rows[i], k)) ==> k in rest && rest[k] == acc[k]
  {
    forall k | k in rest
      ensures k in acc || exists i :: 0 <= i < |rows| && NamesSite(rows[i], k)
    {
      if k == rows[0]["site_name"] {
        assert NamesSite(rows[0], k);
      } else if k !in acc {
        var i :| 0 <= i < |rows| - 1 && NamesSite(rows[1..][i], k);
        assert NamesSite(rows[i + 1], k);
      }
    }
    forall i | LastFor(rows, i)
      ensures rows[i]["site_name"] in rest && rest[rows[i]["site_name"]] == rows[i]["alias"]
    {
      if i == 0 {
        forall j | 0 <= j < |rows| - 1
          ensures !NamesSite(rows[1..][j], rows[0]["site_name"])
        {
          assert rows[1..][j] == rows[j + 1];
        }
      } else {
        assert LastFor(rows[1..], i - 1);
      }
    }
    forall k | k in acc && (forall i :: 0 <= i < |rows| ==> !NamesSite(rows[i], k))
      ensures k in rest && rest[k] == acc[k]
    {
      assert !NamesSite(rows[0], k);
      forall j | 0 <= j < |rows| - 1
        ensures !NamesSite(rows[1..][j], k)
      {
        assert rows[1..][j] == rows[j + 1];
      }
    }
  }

  predicate NameRow(row: map<String, String>) {
    "alias" in row && "site_name" in row
  }

  /** The row is about site `k`. */
  predicate NamesSite(row: map<String, String>, k: String) {
    "site_name" in row && row["site_name"] == k
  }

  /** Row `i` is the last row about its site, so its alias is the one kept. */
  ghost predicate LastFor(rows: seq<map<String, String>>, i: int) {
    && 0 <= i < |rows| && NameRow(rows[i])
    && forall j :: i < j < |rows| ==> !NamesSite(rows[j], rows[i]["site_name"])
  }

  /** `sename.strip()` for every comma-separated entry of an fqdn list. */
  function StoragePieces(fqdn: String): (r: seq<String>)
    ensures |r| >= 1
  {
    StripAll(Split(fqdn, ','))
  }

  function StripAll(xs: seq<String>): (r: seq<String>)
    ensures |r| == |xs|
    ensures forall i :: 0 <= i < |xs| ==> r[i] == Strip(xs[i])
    decreases |xs|
  {
    if |xs| == 0 then [] else [Strip(xs[0])] + StripAll(xs[1..])
  }

  /** Setting each key to the same value. */
  function PutAll(m: map<String, String>, keys: seq<String>, v: String): (r: map<String, String>)
    ensures forall k :: k in r <==> (k in m || k in keys)
    ensures forall k :: k in keys ==> r[k] == v
    ensures forall k :: k in m && k !in keys ==> r[k] == m[k]
    decreases |keys|
  {
    if |keys| == 0 then m
    else
      var r := PutAll(m[keys[0] := v], keys[1..], v);
      assert forall k :: k in keys <==> (k == keys[0] || k in keys[1..]);
      r
  }

  /** The row's fqdn list names storage element `k`. */
  predicate Lists(row: map<String, String>, k: String) {
    "fqdn" in row && k in StoragePieces(row["fqdn"])
  }

  /** The exception a resource row raises: `fqdn` is read first; each
      assignment then reads `site_name` and the site's alias. */
  function RowError(names: map<String, String>, row: map<String, String>): SiteDbError
    requires !ResourceRow(names, row)
  {
    if "fqdn" !in row then MissingKey("fqdn")
    else if "site_name" !in row then MissingKey("site_name")
    else UnknownSite(row["site_name"])
  }

  /** One resource row: every entry of its fqdn list now names the row's
      site, and nothing else changes. The row fails before any entry is
      written. */
  function ApplyRow(m: map<String, String>, names: map<String, String>, row: map<String, String>): (r: Result<map<String, String>, SiteDbError>)
    ensures r.Ok? <==> ResourceRow(names, row)
    ensures r.Err? ==> r.error == RowError(names, row)
    ensures r.Ok? ==> forall k :: k in r.value <==> k in m || Lists(row, k)
    ensures r.Ok? ==> forall k :: Lists(row, k) ==> k in r.value && r.value[k] == names[row["site_name"]]
    ensures r.Ok? ==> forall k :: k in m && !Lists(row, k) ==> k in r.value && r.value[k] == m[k]
  {
    if "fqdn" !in row then Err(MissingKey("fqdn"))
    else if "site_name" !in row then Err(MissingKey("site_name"))
    else if row["site_name"] !in names then Err(UnknownSite(row["site_name"]))
    else Ok(PutAll(m, StoragePieces(row["fqdn"]), names[row["site_name"]]))
  }

  predicate ResourceRow(names: map<String, String>, row: map<String, String>) {
    "fqdn" in row && "site_name" in row && row["site_name"] in names
  }

  /** The mapping after an `init`, and the exception it raised, if any. The
      mapping is updated in place, so the rows before a failing one stay
      applied. */
  datatype Refresh = Refresh(mapping: map<String, String>, error: Option<SiteDbError>)

  /** The storage element names a valid resource row contributes. */
  ghost predicate Covers(m: map<String, String>, names: map<String, String>, row: map<String, String>)
    requires ResourceRow(names, row)
  {
    forall p :: p in StoragePieces(row["fqdn"]) ==> p in m
  }

  /** Row `i` lists `p`, and no later row does. */
  ghost predicate LastListing(rows: seq<map<String, String>>, i: int, p: String) {
    && 0 <= i < |rows| && Lists(rows[i], p)
    && forall j :: i < j < |rows| ==> !Lists(rows[j], p)
  }

  /** Row `i` is the first row that fails. */
  ghost predicate FirstBad(names: map<String, String>, rows: seq<map<String, String>>, i: int) {
    && 0 <= i < |rows| && !ResourceRow(names, rows[i])
    && forall j :: 0 <= j < i ==> ResourceRow(names, rows[j])
  }

  function ApplyRows(m: map<String, String>, names: map<String, String>, rows: seq<map<String, String>>): (r: Refresh)
    ensures m.Keys <= r.mapping.Keys
    ensures r.error.None? <==> forall i :: 0 <= i < |rows| ==> ResourceRow(names, rows[i])
    ensures forall i :: FirstBad(names, rows, i) ==> r.error == Some(RowError(names, rows[i]))
    ensures r.error.None? ==> forall i :: 0 <= i < |rows| ==> Covers(r.mapping, names, rows[i])
    ensures r.error.None? ==> forall i, p :: LastListing(rows, i, p) ==>
      ResourceRow(names, rows[i]) && p in r.mapping && r.mapping[p] == names[rows[i]["site_name"]]
    ensures forall k :: k in m && (forall i :: 0 <= i < |rows| ==> !Lists(rows[i], k)) ==> k in r.mapping && r.mapping[k] == m[k]
    ensures forall k :: k in r.mapping ==> k in m || exists i :: 0 <= i < |rows| && Lists(rows[i], k)
    ensures KeptOrNamed(m, names, r.mapping)
    decreases |rows|
  {
    if |rows| == 0 then Refresh(m, None)
    else match ApplyRow(m, names, rows[0])
      case Err(e) =>
        assert forall i :: FirstBad(names, rows, i) ==> i == 0;
        Refresh(m, Some(e))
      case Ok(m1) =>
        var r := ApplyRows(m1, names, rows[1..]);
        assert forall i :: 1 <= i < |rows| ==> rows[i] == rows[1..][i - 1];
        assert KeptOrNamed(m, names, m1);
        KeptOrNamedTransitive(m, m1, r.mapping, names);
        ApplyRowsStep(m, m1, names, rows, r);
        r
  }

  /** The recursive case of `ApplyRows`, from what the first row wrote and
      what the rest did. */
  lemma ApplyRowsStep(m: map<String, String>, m1: map<String, String>, names: map<String, String>,
                      rows: seq<map<String, String>>, r: Refresh)
    requires |rows| > 0 && ApplyRow(m, names, rows[0]) == Ok(m1)
    requires r.error.None? <==> forall i :: 0 <= i < |rows| - 1 ==> ResourceRow(names, rows[1..][i])
    requires forall i :: FirstBad(names, rows[1..], i) ==> r.error == Some(RowError(names, rows[1..][i]))
    requires r.error.None? ==> forall i, p :: LastListing(rows[1..], i, p) ==>
      ResourceRow(names, rows[1..][i]) && p in r.mapping && r.mapping[p] == names[rows[1..][i]["site_name"]]
    requires forall k :: k in m1 && (forall i :: 0 <= i < |rows| - 1 ==> !Lists(rows[1..][i], k)) ==> k in r.mapping && r.mapping[k] == m1[k]
    requires forall k :: k in r.mapping ==> k in m1 || exists i :: 0 <= i < |rows| - 1 && Lists(rows[1..][i], k)
    ensures forall i :: FirstBad(names, rows, i) ==> r.error == Some(RowError(names, rows[i]))
    ensures r.error.None? ==> forall i, p :: LastListing(rows, i, p) ==>
      ResourceRow(names, rows[i]) && p in r.mapping && r.mapping[p] == names[rows[i]["site_name"]]
    ensures forall k :: k in m && (forall i :: 0 <= i < |rows| ==> !Lists(rows[i], k)) ==> k in r.mapping && r.mapping[k] == m[k]
    ensures forall k :: k in r.mapping ==> k in m || exists i :: 0 <= i < |rows| && Lists(rows[i], k)
  {
    forall i | FirstBad(names, rows, i)
      ensures r.error == Some(RowError(names, rows[i]))
    {
      assert i > 0;
      assert FirstBad(names, rows[1..], i - 1);
    }
    if r.error.None? {
      forall i, p | LastListing(rows, i, p)
        ensures ResourceRow(names, rows[i]) && p in r.mapping && r.mapping[p] == names[rows[i]["site_name"]]
      {
        if i == 0 {
          forall j | 0 <= j < |rows| - 1
            ensures !Lists(rows[1..][j], p)
          {
            assert rows[1..][j] == rows[j + 1];
          }
        } else {
          assert LastListing(rows[1..], i - 1, p);
        }
      }
    }
    forall k | k in m && (forall i :: 0 <= i < |rows| ==> !Lists(rows[i], k))
      ensures k in r.mapping && r.mapping[k] == m[k]
    {
      assert !Lists(rows[0], k);
      forall j | 0 <= j < |rows| - 1
        ensures !Lists(rows[1..][j], k)
      {
        assert rows[1..][j] == rows[j + 1];
      }
    }
    forall k | k in r.mapping
      ensures k in m || exists i :: 0 <= i < |rows| && Lists(rows[i], k)
    {
      if k !in m1 {
        var i :| 0 <= i < |rows| - 1 && Lists(rows[1..][i], k);
        assert Lists(rows[i + 1], k);
      } else if k !in m {
        assert Lists(rows[0], k);
      }
    }
  }

  /** Every entry is an old one left as it was, or names a site alias. */
  ghost predicate KeptOrNamed(m: map<String, String>, names: map<String, String>, m1: map<String, String>) {
    forall k :: k in m1 ==> (k in m && m1[k] == m[k]) || m1[k] in names.Values
  }

  lemma KeptOrNamedTransitive(m: map<String, String>, m1: map<String, String>, m2: map<String, String>, names: map<String, String>)
    requires KeptOrNamed(m, names, m1) && KeptOrNamed(m1, names, m2)
    ensures KeptOrNamed(m, names, m2)
  {
  }

  /** The site-name table of a fetched `site-names` document: one entry per
      site, holding the alias of the last row about it. */
  function SiteNames(nameData: Payload<String>): (r: Result<map<String, String>, SiteDbError>)
    ensures r.Ok? <==> (!nameData.NotADict? && forall i :: 0 <= i < |Parse(nameData).value| ==> NameRow(Parse(nameData).value[i]))
    ensures nameData.NotADict? ==> r == Err(WrongDataType)
    ensures r.Ok? ==> forall k :: k in r.value <==> exists i :: 0 <= i < |Parse(nameData).value| && NamesSite(Parse(nameData).value[i], k)
    ensures r.Ok? ==> forall i :: LastFor(Parse(nameData).value, i) ==>
      Parse(nameData).value[i]["site_name"] in r.value && r.value[Parse(nameData).value[i]["site_name"]] == Parse(nameData).value[i]["alias"]
  {
    match Parse(nameData)
    case Err(e) => Err(e)
    case Ok(rows) =>
      var r := NamesFrom(map[], rows);
      if r.Ok? then
        assert forall k :: (exists i :: 0 <= i < |rows| && NamesSite(rows[i], k)) ==> k in r.value;
        r
      else r
  }

  /** The resource document lists storage element `k` in some row. */
  ghost predicate ListedIn(resourceData: Payload<String>, k: String) {
    !resourceData.NotADict? && exists i :: 0 <= i < |Parse(resourceData).value| && Lists(Parse(resourceData).value[i], k)
  }

  /** `init`: read the site names, then map the resources' storage elements
      onto the existing mapping. Each listed storage element ends up naming
      the alias of the site of the last row listing it; entries no row lists
      keep their values. */
  function Init(m: map<String, String>, nameData: Payload<String>, resourceData: Payload<String>): (r: Refresh)
    ensures m.Keys <= r.mapping.Keys
    ensures nameData.NotADict? ==> r.error == Some(WrongDataType) && r.mapping == m
    ensures resourceData.NotADict? ==> r.error.Some? && r.mapping == m
    ensures r.error.None? <==> (SiteNames(nameData).Ok? && !resourceData.NotADict?
      && forall i :: 0 <= i < |Parse(resourceData).value| ==> ResourceRow(SiteNames(nameData).value, Parse(resourceData).value[i]))
    ensures r.error.None? ==> forall i :: 0 <= i < |Parse(resourceData).value| ==>
      (ResourceRow(SiteNames(nameData).value, Parse(resourceData).value[i])
       && Covers(r.mapping, SiteNames(nameData).value, Parse(resourceData).value[i]))
    ensures r.error.None? ==> forall i, p :: LastListing(Parse(resourceData).value, i, p) ==>
      && ResourceRow(SiteNames(nameData).value, Parse(resourceData).value[i]) && p in r.mapping
      && r.mapping[p] == SiteNames(nameData).value[Parse(resourceData).value[i]["site_name"]]
    ensures forall k :: k in m && !ListedIn(resourceData, k) ==> k in r.mapping && r.mapping[k] == m[k]
    ensures forall k :: k in r.mapping ==> k in m || ListedIn(resourceData, k)
  {
    match SiteNames(nameData)
    case Err(e) => Refresh(m, Some(e))
    case Ok(names) =>
      match Parse(resourceData)
      case Err(e) => Refresh(m, Some(e))
      case Ok(resourceRows) => ApplyRows(m, names, resourceRows)
  }

  /** End to end: a storage element listed by resource row `i` and by no
      later row maps to the alias of the last site-name row about that row's
      site. */
  lemma LastRowDecides(m: map<String, String>, nameData: Payload<String>, resourceData: Payload<String>,
                       i: int, j: int, p: String)
    requires Init(m, nameData, resourceData).error.None?
    requires LastListing(Parse(resourceData).value, i, p)
    requires LastFor(Parse(nameData).value, j)
    requires NamesSite(Parse(resourceData).value[i], Parse(nameData).value[j]["site_name"])
    ensures var r := Init(m, nameData, resourceData).mapping;
      p in r && r[p] == Parse(nameData).value[j]["alias"]
  {
  }

  // ---------------------------------------------------------------------------
  // The manager

  datatype Manager = Manager(
    url: String,
    mapping: map<String, String>,
    timestamp: int,   // set once, when the manager is built
    threshold: int)   // seconds before a lookup refreshes the mapping

  const DEFAULT_BASE_URL: String := "https://cmsweb.cern.ch"
  const DEFAULT_THRESHOLD: int := 10800

  /** The constructor: `init` runs once on an empty mapping; its exception
      escapes the constructor. */
  function NewManager(baseUrl: String, threshold: int, now: int, nameData: Payload<String>, resourceData: Payload<String>): (r: Result<Manager, SiteDbError>)
    ensures r.Ok? <==> Init(map[], nameData, resourceData).error.None?
    ensures r.Ok? ==> (r.value.url == baseUrl + "/sitedb/data/prod/"
      && r.value.timestamp == now && r.value.threshold == threshold)
    ensures r.Err? ==> r == Err(Init(map[], nameData, resourceData).error.value)
  {
    var init := Init(map[], nameData, resourceData);
    if init.error.Some? then Err(init.error.value)
    else Ok(Manager(baseUrl + "/sitedb/data/prod/", init.mapping, now, threshold))
  }

  /** A `get_name` call: the manager afterwards, the answer or the exception
      of the refresh, and whether the mapping was refreshed. */
  datatype Lookup = Lookup(manager: Manager, answer: Result<Option<String>, SiteDbError>, refreshed: bool)

  /** `get_name`: an empty name is `None` at once; otherwise the mapping is
      refreshed when more than `threshold` seconds passed since the manager
      was built, and the name is looked up. The timestamp is never renewed. */
  function GetName(mgr: Manager, sename: String, now: int, nameData: Payload<String>, resourceData: Payload<String>): (r: Lookup)
    ensures r.refreshed <==> sename != [] && now - mgr.timestamp > mgr.threshold
    ensures r.manager.timestamp == mgr.timestamp && r.manager.threshold == mgr.threshold && r.manager.url == mgr.url
    ensures !r.refreshed ==> r.manager == mgr
    ensures mgr.mapping.Keys <= r.manager.mapping.Keys
    ensures sename == [] ==> r.answer == Ok(None)
    ensures r.answer == Ok(None) <==> (sename == [] || (r.answer.Ok? && sename !in r.manager.mapping))
    ensures r.answer.Ok? && r.answer.value.Some? ==> sename in r.manager.mapping && r.answer.value.value == r.manager.mapping[sename]
    ensures r.answer.Err? ==> r.refreshed
  {
    if sename == [] then Lookup(mgr, Ok(None), false)
    else if now - mgr.timestamp > mgr.threshold then
      var init := Init(mgr.mapping, nameData, resourceData);
      var m := mgr.(mapping := init.mapping);
      if init.error.Some? then Lookup(m, Err(init.error.value), true)
      else Lookup(m, Ok(if sename in m.mapping then Some(m.mapping[sename]) else None), true)
    else Lookup(mgr, Ok(if sename in mgr.mapping then Some(mgr.mapping[sename]) else None), false)
  }

  /** Because the timestamp is never renewed, once one lookup refreshes, every
      later lookup of a non-empty name refreshes too. */
  lemma OnceStaleAlwaysRefreshes(mgr: Manager, a: String, b: String, t1: int, t2: int,
                                 n1: Payload<String>, r1: Payload<String>, n2: Payload<String>, r2: Payload<String>)
    requires GetName(mgr, a, t1, n1, r1).refreshed && t1 <= t2 && b != []
    ensures GetName(GetName(mgr, a, t1, n1, r1).manager, b, t2, n2, r2).refreshed
  {
  }

  /** A stored storage element is found without a refresh while the mapping is fresh. */
  lemma FreshLookupFindsStored(mgr: Manager, sename: String, now: int, n: Payload<String>, res: Payload<String>)
    requires sename != [] && sename in mgr.mapping && now - mgr.timestamp <= mgr.threshold
    ensures GetName(mgr, sename, now, n, res) == Lookup(mgr, Ok(Some(mgr.mapping[sename])), false)
  {
  }
}

=== FILE: status.dfy ===
/** Status codes and messages of a transfer (fm/core/Status.py). */
module Status {
  import opened Wrappers

  const UNKNOWN: int := -1
  const DONE: int := 0
  const TRANSFER_PROCESS_NOT_STARTED: int := 1
  const SERVER_QUEUE: int := 2
  const FAILED: int := 3
  const TRANSFER_STATUS_UNKNOWN: int := 4
  const TRANSFER_FAILED: int := 5
  const TRANSFER_WRAPPER_NOT_LAUNCHED: int := 6
  const USER_QUEUE: int := 7
  const LFN_NOT_REQUESTED: int := 8
  const REQUESTED: int := 9
  const CANCELLED: int := 10
  const REMOVED: int := 11

  /** Every status code, in declaration order. */
  const AllCodes: seq<int> := [UNKNOWN, DONE, TRANSFER_PROCESS_NOT_STARTED, SERVER_QUEUE,
    FAILED, TRANSFER_STATUS_UNKNOWN, TRANSFER_FAILED, TRANSFER_WRAPPER_NOT_LAUNCHED,
    USER_QUEUE, LFN_NOT_REQUESTED, REQUESTED, CANCELLED, REMOVED]

  const MSG_TRANSFER_WRAPPER_NOT_LAUNCHED: string := "Transfer wrapper has not been launched."
  const MSG_OBJECT_IN_CACHE: string := "Object was in cache; transfer done."
  const MSG_TRANSFER_PROCESS_NOT_STARTED: string := "Transfer process has not started."
  const MSG_FILE_DONE: string := "File completed successfully."
  const MSG_LFN_NOT_REQUESTED: string := "This LFN has not been requested yet!"

  /** A `(code, message)` status tuple. */
  datatype StatusPair = StatusPair(code: int, msg: string)

  /** The error `isRunning` raises. */
  datatype StatusError = NotImplemented

  /** `StatusCode.isFailure`: only the generic FAILED code counts as a failure. */
  predicate IsFailure(code: int) {
    code == FAILED
  }

  /** `StatusCode.isRunning` is a stub that raises for every code. */
  function IsRunning(code: int): (r: Result<bool, StatusError>)
    ensures r == Err(NotImplemented)
  {
    Err(NotImplemented)
  }

  /** The codes are thirteen distinct integers covering -1 through 11. */
  lemma CodesDistinctAndDense()
    ensures |AllCodes| == 13
    ensures forall i, j :: 0 <= i < j < |AllCodes| ==> AllCodes[i] != AllCodes[j]
    ensures forall c :: c in AllCodes <==> -1 <= c <= 11
  {
    assert forall i :: 0 <= i < |AllCodes| ==> AllCodes[i] == i - 1;
    forall c | -1 <= c <= 11 ensures c in AllCodes {
      assert AllCodes[c + 1] == c;
    }
  }

  /** Exactly one code is a failure: FAILED; in particular TRANSFER_FAILED is not. */
  lemma FailureCodes()
    ensures forall c :: c in AllCodes ==> (IsFailure(c) <==> c == 3)
    ensures !IsFailure(TRANSFER_FAILED)
  {
  }
}

=== FILE: strings.dfy ===
/** The small part of Python's `str` behaviour that the source relies on:
    prefix/suffix tests, substring search, `replace`, `split`, `join`,
    `strip`, decimal conversion and the lexicographic order of `<=`. */
module Strings {
  import opened Wrappers

  type String = seq<char>

  predicate IsDigit(c: char) { '0' <= c <= '9' }
  predicate IsAlpha(c: char) { 'a' <= c <= 'z' || 'A' <= c <= 'Z' }
  predicate IsAlnum(c: char) { IsDigit(c) || IsAlpha(c) }

  /** The characters Python's argument-less `split()` and `strip()` treat as whitespace. */
  predicate IsSpace(c: char) {
    c == ' ' || c == '\t' || c == '\n' || c == '\r' || c == '\U{0B}' || c == '\U{0C}'
  }

  predicate StartsWith(s: String, p: String) { |p| <= |s| && s[..|p|] == p }
  predicate EndsWith(s: String, p: String) { |p| <= |s| && s[|s| - |p|..] == p }

  /** `p` occurs in `s` at position `i`. */
  ghost predicate OccursAt(s: String, p: String, i: int) {
    0 <= i && i + |p| <= |s| && s[i..i + |p|] == p
  }

  /** Python's `p in s` (equivalently `s.find(p) != -1`). */
  function Contains(s: String, p: String): (r: bool)
    ensures r <==> exists i :: OccursAt(s, p, i)
    decreases |s|
  {
    if StartsWith(s, p) then
      assert OccursAt(s, p, 0);
      true
    else if |s| == 0 then
      assert forall i :: !OccursAt(s, p, i);
      false
    else
      var r := Contains(s[1..], p);
      assert forall i :: OccursAt(s[1..], p, i) <==> OccursAt(s, p, i + 1) by {
        forall i ensures OccursAt(s[1..], p, i) <==> OccursAt(s, p, i + 1) {
          if 0 <= i && i + |p| <= |s| - 1 {
            assert s[1..][i..i + |p|] == s[i + 1..i + 1 + |p|];
          }
        }
      }
      assert forall i :: OccursAt(s, p, i) ==> i == 0 || OccursAt(s[1..], p, i - 1);
      r
  }

  // ---------------------------------------------------------------------------
  // str.replace

  /** Python's `s.replace(pat, rep)`: leftmost, non-overlapping occurrences,
      scanned once from the left. */
  function ReplaceAll(s: String, pat: String, rep: String): String
    requires |pat| > 0
    decreases |s|
  {
    if StartsWith(s, pat) then rep + ReplaceAll(s[|pat|..], pat, rep)
    else if |s| == 0 then []
    else [s[0]] + ReplaceAll(s[1..], pat, rep)
  }

  /** Replacing by something no longer than the pattern never lengthens the text. */
  lemma {:induction false} ReplaceAllShrinks(s: String, pat: String, rep: String)
    requires |pat| > 0 && |rep| <= |pat|
    ensures |ReplaceAll(s, pat, rep)| <= |s|
    decreases |s|
  {
    if StartsWith(s, pat) {
      ReplaceAllShrinks(s[|pat|..], pat, rep);
    } else if |s| > 0 {
      ReplaceAllShrinks(s[1..], pat, rep);
    }
  }

  /** Every character of the result comes from the input or from the replacement. */
  lemma {:induction false} ReplaceAllChars(s: String, pat: String, rep: String, c: char)
    requires |pat| > 0
    requires c in ReplaceAll(s, pat, rep)
    ensures c in s || c in rep
    decreases |s|
  {
    if StartsWith(s, pat) {
      if c !in rep {
        ReplaceAllChars(s[|pat|..], pat, rep, c);
      }
    } else if |s| > 0 {
      if c != s[0] {
        ReplaceAllChars(s[1..], pat, rep, c);
      }
    }
  }

  /** Replacing a single character by text without it removes that character. */
  lemma {:induction false} ReplaceAllRemovesChar(s: String, c: char, rep: String)
    requires c !in rep
    ensures c !in ReplaceAll(s, [c], rep)
    decreases |s|
  {
    if StartsWith(s, [c]) {
      ReplaceAllRemovesChar(s[1..], c, rep);
    } else if |s| > 0 {
      assert s[0] != c;
      ReplaceAllRemovesChar(s[1..], c, rep);
    }
  }

  /** A character that is neither in the text nor the replacement stays absent. */
  lemma ReplaceAllKeepsAbsent(s: String, pat: String, rep: String, c: char)
    requires |pat| > 0 && c !in s && c !in rep
    ensures c !in ReplaceAll(s, pat, rep)
  {
    if c in ReplaceAll(s, pat, rep) {
      ReplaceAllChars(s, pat, rep, c);
    }
  }

  /** An occurrence in the tail of a text is an occurrence in the text. */
  lemma TailOccurrence(s: String, p: String, i: int)
    requires |s| > 0 && OccursAt(s[1..], p, i)
    ensures OccursAt(s, p, i + 1)
  {
    assert s[1..][i..i + |p|] == s[i + 1..i + 1 + |p|];
  }

  /** Text without any occurrence of the pattern is left as it is. */
  lemma {:induction false} ReplaceAllNoOccurrence(s: String, pat: String, rep: String)
    requires |pat| > 0 && !Contains(s, pat)
    ensures ReplaceAll(s, pat, rep) == s
    decreases |s|
  {
    if |s| > 0 {
      assert !OccursAt(s, pat, 0);
      forall i | OccursAt(s[1..], pat, i) ensures OccursAt(s, pat, i + 1) {
        TailOccurrence(s, pat, i);
      }
      ReplaceAllNoOccurrence(s[1..], pat, rep);
    }
  }

  // ---------------------------------------------------------------------------
  // str.split(sep) and str.join

  /** Python's `s.split(sep)` for a non-empty separator. */
  function SplitOn(s: String, sep: String): (r: seq<String>)
    requires |sep| > 0
    ensures |r| >= 1
    decreases |s|
  {
    if |s| < |sep| then [s]
    else if s[..|sep|] == sep then [[]] + SplitOn(s[|sep|..], sep)
    else
      var rest := SplitOn(s[1..], sep);
      [[s[0]] + rest[0]] + rest[1..]
  }

  /** Python's `s.split(c)` for a one-character separator. */
  function Split(s: String, c: char): (r: seq<String>)
    ensures |r| >= 1
  {
    SplitOn(s, [c])
  }

  /** Python's `sep.join(parts)`. */
  function Join(sep: String, parts: seq<String>): String
    decreases |parts|
  {
    if |parts| == 0 then []
    else if |parts| == 1 then parts[0]
    else parts[0] + sep + Join(sep, parts[1..])
  }

  /** Joining the pieces of a split with the same separator gives the text back. */
  lemma {:induction false} JoinSplitOn(s: String, sep: String)
    requires |sep| > 0
    ensures Join(sep, SplitOn(s, sep)) == s
    decreases |s|
  {
    if |s| < |sep| {
    } else if s[..|sep|] == sep {
      var rest := SplitOn(s[|sep|..], sep);
      JoinSplitOn(s[|sep|..], sep);
      assert SplitOn(s, sep) == [[]] + rest;
      assert Join(sep, [[]] + rest) == [] + sep + Join(sep, rest);
      assert s == s[..|sep|] + s[|sep|..];
    } else {
      var rest := SplitOn(s[1..], sep);
      JoinSplitOn(s[1..], sep);
      assert SplitOn(s, sep) == [[s[0]] + rest[0]] + rest[1..];
      JoinFirstPieceCons(sep, s[0], rest);
      assert s == [s[0]] + s[1..];
    }
  }

  /** `s.replace(pat, rep)` is `rep.join(s.split(pat))`: both cut at the same
      leftmost, non-overlapping occurrences. */
  lemma {:induction false} ReplaceAllIsJoinSplit(s: String, pat: String, rep: String)
    requires |pat| > 0
    ensures ReplaceAll(s, pat, rep) == Join(rep, SplitOn(s, pat))
    decreases |s|
  {
    if |s| < |pat| {
      ReplaceAllShort(s, pat, rep);
    } else if s[..|pat|] == pat {
      var rest := SplitOn(s[|pat|..], pat);
      ReplaceAllIsJoinSplit(s[|pat|..], pat, rep);
      assert ([[]] + rest)[1..] == rest;
      assert Join(rep, [[]] + rest) == [] + rep + Join(rep, rest);
    } else {
      var rest := SplitOn(s[1..], pat);
      ReplaceAllIsJoinSplit(s[1..], pat, rep);
      JoinFirstPieceCons(rep, s[0], rest);
    }
  }

  /** Text shorter than the pattern is left as it is. */
  lemma {:induction false} ReplaceAllShort(s: String, pat: String, rep: String)
    requires 0 < |pat| && |s| < |pat|
    ensures ReplaceAll(s, pat, rep) == s
    decreases |s|
  {
    if |s| > 0 {
      ReplaceAllShort(s[1..], pat, rep);
      assert [s[0]] + s[1..] == s;
    }
  }

  /** A character put in front of the first piece comes first in the join. */
  lemma JoinFirstPieceCons(sep: String, c: char, parts: seq<String>)
    requires |parts| > 0
    ensures Join(sep, [[c] + parts[0]] + parts[1..]) == [c] + Join(sep, parts)
  {
    var first := [c] + parts[0];
    if |parts| == 1 {
      assert Join(sep, [first] + parts[1..]) == first;
    } else {
      assert ([first] + parts[1..])[1..] == parts[1..];
      assert Join(sep, [first] + parts[1..]) == first + sep + Join(sep, parts[1..]);
    }
  }

  /** No piece of a one-character split contains the separator. */
  lemma {:induction false} SplitPiecesAvoidSeparator(s: String, c: char)
    ensures forall p :: p in Split(s, c) ==> c !in p
    decreases |s|
  {
    if |s| < 1 {
    } else if s[..1] == [c] {
      SplitPiecesAvoidSeparator(s[1..], c);
      assert Split(s, c) == [[]] + Split(s[1..], c);
    } else {
      SplitPiecesAvoidSeparator(s[1..], c);
      var rest := Split(s[1..], c);
      assert s[0] != c by { assert s[..1] == [s[0]]; }
      assert Split(s, c) == [[s[0]] + rest[0]] + rest[1..];
      assert rest[0] in rest;
      forall p | p in rest[1..] ensures p in rest {
        var k :| 0 <= k < |rest[1..]| && rest[1..][k] == p;
        assert rest[k + 1] == p;
      }
    }
  }

  /** The last element of a non-empty list (Python `xs[-1]`). */
  function Last<T>(xs: seq<T>): T
    requires |xs| > 0
  {
    xs[|xs| - 1]
  }

  /** The position of the first occurrence of `x` (Python `xs.index(x)`). */
  function IndexOf<T(==)>(xs: seq<T>, x: T): (i: nat)
    requires x in xs
    ensures i < |xs| && xs[i] == x && x !in xs[..i]
    decreases |xs|
  {
    if xs[0] == x then 0 else 1 + IndexOf(xs[1..], x)
  }

  /** Text without the character splits into one piece: itself. */
  lemma {:induction false} SplitWithoutSeparator(s: String, c: char)
    requires c !in s
    ensures Split(s, c) == [s]
    decreases |s|
  {
    if |s| >= 1 {
      assert s[..1] != [c] by { assert s[..1][0] == s[0]; }
      SplitWithoutSeparator(s[1..], c);
      assert [s[0]] + s[1..] == s;
    }
  }

  /** A separator between two texts separates their pieces. */
  lemma {:induction false} SplitAround(x: String, c: char, y: String)
    ensures Split(x + [c] + y, c) == Split(x, c) + Split(y, c)
    decreases |x|
  {
    var s := x + [c] + y;
    if |x| == 0 {
      assert s[..1] == [c];
      assert s[1..] == y;
    } else {
      assert s[1..] == x[1..] + [c] + y;
      assert s[..1] == x[..1];
      SplitAround(x[1..], c, y);
    }
  }

  /** Splitting `a + [c] + b`, where `b` lacks `c`, ends with the piece `b`. */
  lemma SplitLastPiece(a: String, c: char, b: String)
    requires c !in b
    ensures Last(Split(a + [c] + b, c)) == b
  {
    SplitAround(a, c, b);
    SplitWithoutSeparator(b, c);
  }

  // ---------------------------------------------------------------------------
  // str.split() (whitespace) and str.strip()

  /** Length of the leading run of non-whitespace characters. */
  function WordLen(s: String): (k: nat)
    ensures k <= |s|
    ensures forall i :: 0 <= i < k ==> !IsSpace(s[i])
    ensures k < |s| ==> IsSpace(s[k])
    decreases |s|
  {
    if |s| == 0 || IsSpace(s[0]) then 0 else 1 + WordLen(s[1..])
  }

  /** Python's argument-less `s.split()`: maximal runs of non-whitespace. */
  function Words(s: String): (r: seq<String>)
    ensures forall w :: w in r ==> |w| > 0 && forall i :: 0 <= i < |w| ==> !IsSpace(w[i])
    decreases |s|
  {
    if |s| == 0 then []
    else if IsSpace(s[0]) then Words(s[1..])
    else
      var k := WordLen(s);
      [s[..k]] + Words(s[k..])
  }

  predicate IsWord(w: String) {
    |w| > 0 && forall i :: 0 <= i < |w| ==> !IsSpace(w[i])
  }

  lemma {:induction false} WordLenOfWord(w: String, rest: String)
    requires IsWord(w)
    requires |rest| == 0 || IsSpace(rest[0])
    ensures WordLen(w + rest) == |w|
    decreases |w|
  {
    if |w| > 1 {
      assert (w + rest)[1..] == w[1..] + rest;
      WordLenOfWord(w[1..], rest);
    } else {
      assert (w + rest)[1..] == rest;
    }
  }

  /** A word followed by whitespace or nothing is the first word. */
  lemma WordsOfWordThen(w: String, rest: String)
    requires IsWord(w)
    requires |rest| == 0 || IsSpace(rest[0])
    ensures Words(w + rest) == [w] + Words(rest)
  {
    WordLenOfWord(w, rest);
    var s := w + rest;
    assert s[..|w|] == w;
    assert s[|w|..] == rest;
  }

  /** Whitespace-splitting words joined by single spaces gives the words back. */
  lemma {:induction false} WordsOfJoin(ws: seq<String>)
    requires forall i :: 0 <= i < |ws| ==> IsWord(ws[i])
    ensures Words(Join(" ", ws)) == ws
    decreases |ws|
  {
    if |ws| == 1 {
      WordsOfWordThen(ws[0], []);
      assert ws[0] + [] == ws[0];
    } else if |ws| > 1 {
      var tail := Join(" ", ws[1..]);
      assert Join(" ", ws) == ws[0] + (" " + tail);
      WordsOfWordThen(ws[0], " " + tail);
      assert (" " + tail)[1..] == tail;
      WordsOfJoin(ws[1..]);
    }
  }

  /** Python's `s.lstrip()`. */
  function LStrip(s: String): String
    decreases |s|
  {
    if |s| > 0 && IsSpace(s[0]) then LStrip(s[1..]) else s
  }

  /** Python's `s.rstrip()`. */
  function RStrip(s: String): String
    decreases |s|
  {
    if |s| > 0 && IsSpace(s[|s| - 1]) then RStrip(s[..|s| - 1]) else s
  }

  /** Python's `s.strip()`. */
  function Strip(s: String): String {
    RStrip(LStrip(s))
  }

  /** `lstrip` removes exactly the leading whitespace. */
  lemma {:induction false} LStripSpec(s: String)
    ensures var r := LStrip(s);
      && |r| <= |s| && s[|s| - |r|..] == r
      && (|r| > 0 ==> !IsSpace(r[0]))
      && forall i :: 0 <= i < |s| - |r| ==> IsSpace(s[i])
    decreases |s|
  {
    if |s| > 0 && IsSpace(s[0]) {
      LStripSpec(s[1..]);
      var r := LStrip(s);
      assert s[1..][|s| - 1 - |r|..] == s[|s| - |r|..];
      forall i | 1 <= i < |s| - |r| ensures IsSpace(s[i]) {
        assert s[1..][i - 1] == s[i];
      }
    }
  }

  /** `rstrip` removes exactly the trailing whitespace. */
  lemma {:induction false} RStripSpec(s: String)
    ensures var r := RStrip(s);
      && |r| <= |s| && s[..|r|] == r
      && (|r| > 0 ==> !IsSpace(r[|r| - 1]))
      && forall i :: |r| <= i < |s| ==> IsSpace(s[i])
    decreases |s|
  {
    if |s| > 0 && IsSpace(s[|s| - 1]) {
      RStripSpec(s[..|s| - 1]);
      var r := RStrip(s);
      assert s[..|s| - 1][..|r|] == s[..|r|];
      forall i | |r| <= i < |s| - 1 ensures IsSpace(s[i]) {
        assert s[..|s| - 1][i] == s[i];
      }
    }
  }

  /** `strip` keeps a slice of the text whose ends are not whitespace and
      drops only whitespace around it. */
  lemma StripSpec(s: String) returns (a: nat, b: nat)
    ensures a <= b <= |s| && Strip(s) == s[a..b]
    ensures forall i :: 0 <= i < a || b <= i < |s| ==> IsSpace(s[i])
    ensures a < b ==> !IsSpace(s[a]) && !IsSpace(s[b - 1])
  {
    var l := LStrip(s);
    LStripSpec(s);
    RStripSpec(l);
    a := |s| - |l|;
    b := a + |RStrip(l)|;
    assert s[a..b] == l[..|RStrip(l)|];
    forall i | b <= i < |s| ensures IsSpace(s[i]) {
      assert s[i] == l[i - a];
    }
  }

  // ---------------------------------------------------------------------------
  // Decimal conversion: Python's `str(n)` / `"%i"` and `int(s)`

  function DigitChar(d: nat): char
    requires d < 10
  {
    ['0', '1', '2', '3', '4', '5', '6', '7', '8', '9'][d]
  }

  function DigitValue(c: char): nat
    requires IsDigit(c)
  {
    (c as int - '0' as int) as nat
  }

  predicate AllDigits(s: String) {
    forall i :: 0 <= i < |s| ==> IsDigit(s[i])
  }

  /** The value of a string of decimal digits. */
  function DigitsValue(s: String): nat
    requires AllDigits(s)
    decreases |s|
  {
    if |s| == 0 then 0 else DigitsValue(s[..|s| - 1]) * 10 + DigitValue(s[|s| - 1])
  }

  /** Python's `str(n)` for a natural number. */
  function NatToString(n: nat): (r: String)
    ensures |r| > 0 && AllDigits(r)
    decreases n
  {
    if n < 10 then [DigitChar(n)] else NatToString(n / 10) + [DigitChar(n % 10)]
  }

  /** Python's `str(i)` for any integer. */
  function IntToString(i: int): String {
    if i < 0 then "-" + NatToString(-i) else NatToString(i)
  }

  /** Python's `int(s)` restricted to an optional sign followed by decimal digits. */
  function ParseInt(s: String): Option<int> {
    if |s| > 0 && (s[0] == '-' || s[0] == '+') then
      if |s| > 1 && AllDigits(s[1..]) then
        var v: int := DigitsValue(s[1..]);
        Some(if s[0] == '-' then -v else v)
      else None
    else if |s| > 0 && AllDigits(s) then Some(DigitsValue(s))
    else None
  }

  lemma {:induction false} NatToStringValue(n: nat)
    ensures DigitsValue(NatToString(n)) == n
    decreases n
  {
    var r := NatToString(n);
    if n >= 10 {
      NatToStringValue(n / 10);
      assert r[..|r| - 1] == NatToString(n / 10);
    }
  }

  /** Reading back the decimal rendering of an integer yields that integer. */
  lemma ParseIntToString(i: int)
    ensures ParseInt(IntToString(i)) == Some(i)
  {
    var n: nat := if i < 0 then -i else i;
    var ds := NatToString(n);
    NatToStringValue(n);
    assert IsDigit(ds[0]);
    if i < 0 {
      var s := "-" + ds;
      assert s[1..] == ds;
      var v: int := DigitsValue(ds);
      assert ParseInt(s) == Some(-v);
    } else {
      assert ParseInt(ds) == Some(DigitsValue(ds));
    }
  }

  /** Numbers below 1000 render in at most three characters. */
  lemma {:induction false} NatToStringShort(n: nat)
    requires n < 1000
    ensures |NatToString(n)| <= 3
  {
    if n >= 10 {
      NatToStringShort(n / 10);
      if n / 10 >= 10 {
        assert |NatToString(n / 10)| == 1 + |NatToString(n / 100)| by {
          assert (n / 10) / 10 == n / 100;
        }
      }
    }
  }

  // ---------------------------------------------------------------------------
  // Python string ordering

  /** Python's `a <= b` on strings: code-point lexicographic order. */
  predicate LexLe(a: String, b: String)
    decreases |a|
  {
    if |a| == 0 then true
    else if |b| == 0 then false
    else if a[0] != b[0] then a[0] < b[0]
    else LexLe(a[1..], b[1..])
  }

  lemma {:induction false} LexLeTotal(a: String, b: String)
    ensures LexLe(a, b) || LexLe(b, a)
    decreases |a|
  {
    if |a| > 0 && |b| > 0 && a[0] == b[0] {
      LexLeTotal(a[1..], b[1..]);
    }
  }

  lemma {:induction false} LexLeTransitive(a: String, b: String, c: String)
    requires LexLe(a, b) && LexLe(b, c)
    ensures LexLe(a, c)
    decreases |a|
  {
    if |a| > 0 && |b| > 0 && |c| > 0 && a[0] == b[0] && b[0] == c[0] {
      LexLeTransitive(a[1..], b[1..], c[1..]);
    }
  }

  lemma {:induction false} LexLeAntisymmetric(a: String, b: String)
    requires LexLe(a, b) && LexLe(b, a)
    ensures a == b
    decreases |a|
  {
    if |a| > 0 && |b| > 0 {
      LexLeAntisymmetric(a[1..], b[1..]);
      assert a == [a[0]] + a[1..];
      assert b == [b[0]] + b[1..];
    }
  }

  // ---------------------------------------------------------------------------
  // posixpath.join

  /** Python's `os.path.join(a, b)` on POSIX. */
  function PathJoin(a: String, b: String): (r: String)
    ensures StartsWith(b, "/") ==> r == b
    ensures !StartsWith(b, "/") ==> EndsWith(r, b) && StartsWith(r, a)
  {
    if StartsWith(b, "/") then b
    else if |a| == 0 || EndsWith(a, "/") then a + b
    else a + "/" + b
  }
}

=== FILE: thread_pool.dfy ===
/** The worker pool's queue discipline (fm/core/ThreadPool.py; the class is
    repeated verbatim in fm/core/FileManager.py).

    Each method that runs under the pool's condition lock is one atomic
    transition on an immutable `Pool`. A worker's loop iteration is split at
    the point where it releases the lock to run the taken object's `start()`:
    `Take` is the locked part, `Finish` is what happens after `start()`
    returns or raises. */
module ThreadPool {
  import opened Wrappers

  /** Name of a worker thread (the key of `_thread_map`). */
  type WorkerId = nat

  datatype Pool<T> = Pool(
    queue: seq<T>,               // `_queue`, head first
    running: map<WorkerId, T>,   // `_thread_map`
    killflag: bool,              // `_killflag`
    graceful: bool,              // `_graceful`
    threads: nat)                // number of worker threads started

  /** The error `queue` raises while the pool drains. */
  datatype PoolError = Draining

  /** What a worker does on one pass through its loop. */
  datatype Step<T> =
    | ExitKilled      // the kill flag is set: leave without taking work
    | ExitDrained     // draining and nothing left to do
    | Idle            // nothing queued: keep waiting on the condition
    | Took(item: T)   // took the head of the queue and runs its `start()`

  /** A freshly constructed pool with `threads` workers. */
  function NewPool<T>(threads: nat): (p: Pool<T>)
    ensures p.queue == [] && p.running == map[] && !p.killflag && !p.graceful
    ensures p.threads == threads
  {
    Pool([], map[], false, false, threads)
  }

  /** `queue`: refused while draining, otherwise the object joins the tail. */
  function Queue<T>(p: Pool<T>, x: T): (r: Result<Pool<T>, PoolError>)
    ensures p.graceful <==> r.Err?
    ensures r.Ok? ==> r.value.queue == p.queue + [x]
    ensures r.Ok? ==> r.value == p.(queue := p.queue + [x])
  {
    if p.graceful then Err(Draining) else Ok(p.(queue := p.queue + [x]))
  }

  /** `evaluate`: the default policy pops the head of the queue. */
  function Evaluate<T>(q: seq<T>): (r: (T, seq<T>))
    requires |q| > 0
    ensures [r.0] + r.1 == q
  {
    (q[0], q[1..])
  }

  /** `kill`: only sets the kill flag. */
  function Kill<T>(p: Pool<T>): (r: Pool<T>)
    ensures r.killflag && r.graceful == p.graceful
    ensures r.queue == p.queue && r.running == p.running && r.threads == p.threads
  {
    p.(killflag := true)
  }

  /** `drain`: only sets the graceful flag. */
  function Drain<T>(p: Pool<T>): (r: Pool<T>)
    ensures r.graceful && r.killflag == p.killflag
    ensures r.queue == p.queue && r.running == p.running && r.threads == p.threads
  {
    p.(graceful := true)
  }

  /** The locked part of one iteration of `thread_runner` for worker `w`. */
  function Take<T>(p: Pool<T>, w: WorkerId): (r: (Pool<T>, Step<T>))
    ensures p.killflag ==> r == (p, ExitKilled)
    ensures !p.killflag && |p.queue| == 0 ==> r == (p, if p.graceful then ExitDrained else Idle)
    ensures !p.killflag && |p.queue| > 0 ==>
      && r.1 == Took(p.queue[0])
      && r.0 == p.(queue := p.queue[1..], running := p.running[w := p.queue[0]])
  {
    if p.killflag then (p, ExitKilled)
    else if |p.queue| == 0 then (p, if p.graceful then ExitDrained else Idle)
    else
      var (x, rest) := Evaluate(p.queue);
      (p.(queue := rest, running := p.running[w := x]), Took(x))
  }

  /** After the taken object's `start()` returns (`raised` false) or raises
      (`raised` true) the worker forgets it; an exception is only logged. */
  function Finish<T>(p: Pool<T>, w: WorkerId, raised: bool): (r: Pool<T>)
    ensures r.running == p.running - {w}
    ensures r.queue == p.queue && r.killflag == p.killflag && r.graceful == p.graceful
  {
    p.(running := p.running - {w})
  }

  /** A whole iteration: whether `start()` returned or raised, the worker
      stays in its loop and the running map is back to what it was. */
  lemma IterationSurvivesExceptions<T>(p: Pool<T>, w: WorkerId, raised: bool)
    requires !p.killflag && |p.queue| > 0 && w !in p.running
    ensures var (q, step) := Take(p, w);
      && step == Took(p.queue[0])
      && w in q.running && q.running[w] == p.queue[0]
      && Finish(q, w, raised).running == p.running
      && Finish(q, w, raised).queue == p.queue[1..]
  {
    var (q, step) := Take(p, w);
    assert q.running - {w} == p.running;
  }

  /** The objects one worker takes in `n` consecutive iterations, each
      `start()` ending normally. */
  function Serve<T>(p: Pool<T>, w: WorkerId, n: nat): seq<T>
    decreases n
  {
    if n == 0 then []
    else
      var (q, step) := Take(p, w);
      if step.Took? then [step.item] + Serve(Finish(q, w, false), w, n - 1) else []
  }

  /** Work is taken in FIFO order: a worker's first `n` iterations take
      exactly the first `n` queued objects. */
  lemma {:induction false} ServeIsFifo<T>(p: Pool<T>, w: WorkerId, n: nat)
    requires !p.killflag && n <= |p.queue|
    ensures Serve(p, w, n) == p.queue[..n]
    decreases n
  {
    if n > 0 {
      var (q, step) := Take(p, w);
      var p' := Finish(q, w, false);
      assert p'.queue == p.queue[1..];
      ServeIsFifo(p', w, n - 1);
      assert p.queue[..n] == [p.queue[0]] + p.queue[1..][..n - 1];
    }
  }

  /** Queueing a list of objects one by one. */
  function QueueAll<T>(p: Pool<T>, xs: seq<T>): Result<Pool<T>, PoolError>
    decreases |xs|
  {
    if |xs| == 0 then Ok(p)
    else match Queue(p, xs[0])
      case Err(e) => Err(e)
      case Ok(p') => QueueAll(p', xs[1..])
  }

  /** Outside drain mode every object is appended in submission order. */
  lemma {:induction false} QueueAllAppends<T>(p: Pool<T>, xs: seq<T>)
    requires !p.graceful
    ensures QueueAll(p, xs).Ok?
    ensures QueueAll(p, xs).value.queue == p.queue + xs
    ensures QueueAll(p, xs).value.killflag == p.killflag
    decreases |xs|
  {
    if |xs| > 0 {
      var p' := Queue(p, xs[0]).value;
      QueueAllAppends(p', xs[1..]);
      assert p.queue + [xs[0]] + xs[1..] == p.queue + xs;
    }
  }

  /** Submitted objects on an idle pool are served in submission order. */
  lemma SubmissionOrder<T>(p: Pool<T>, w: WorkerId, xs: seq<T>)
    requires !p.graceful && !p.killflag && p.queue == []
    ensures QueueAll(p, xs).Ok?
    ensures Serve(QueueAll(p, xs).value, w, |xs|) == xs
  {
    QueueAllAppends(p, xs);
    ServeIsFifo(QueueAll(p, xs).value, w, |xs|);
    assert [] + xs == xs;
  }

  /** A kill stops a worker at its next check even with work still queued. */
  lemma KillStopsWorkers<T>(p: Pool<T>, w: WorkerId)
    ensures Take(Kill(p), w) == (Kill(p), ExitKilled)
    ensures Kill(p).queue == p.queue
  {
  }

  /** In drain mode the backlog queued before `drain` is still served, and
      only then does the worker exit. */
  lemma DrainServesBacklog<T>(p: Pool<T>, w: WorkerId)
    requires !p.killflag
    ensures Serve(Drain(p), w, |p.queue|) == p.queue
  {
    ServeIsFifo(Drain(p), w, |p.queue|);
  }

  /** Once the queue is empty a draining worker leaves the loop. */
  lemma DrainedWorkerExits<T>(p: Pool<T>, w: WorkerId)
    requires p.graceful && !p.killflag && p.queue == []
    ensures Take(p, w).1 == ExitDrained
  {
  }
}

=== FILE: utils.dfy ===
/** Helpers of fm/utils/Utils.py: natural sorting, the percentage shown for a
    running transfer, the display name taken from a certificate DN, and the
    per-day cache of file sizes. */
module Utils {
  import opened Wrappers
  import opened Strings

  // ---------------------------------------------------------------------------
  // Natural sorting

  /** Width the run lengths are padded to. */
  const D_LEN: nat := 3

  /** Length of the run of digits at the start of `s` (the `\d+` match). */
  function DigitRun(s: String): (k: nat)
    ensures k <= |s|
    ensures forall i :: 0 <= i < k ==> IsDigit(s[i])
    ensures k < |s| ==> !IsDigit(s[k])
    decreases |s|
  {
    if |s| == 0 || !IsDigit(s[0]) then 0 else 1 + DigitRun(s[1..])
  }

  /** `str.zfill(width)` on a string of digits. */
  function ZFill(t: String, width: nat): (r: String)
    ensures |r| == if |t| >= width then |t| else width
    ensures r[|r| - |t|..] == t
    ensures forall i :: 0 <= i < |r| - |t| ==> r[i] == '0'
  {
    if |t| >= width then t else seq(width - |t|, _ => '0') + t
  }

  /** The tag `decor` puts in front of a digit run of length `n`. */
  function RunTag(n: nat): (r: String)
    ensures AllDigits(r)
    ensures n < 1000 ==> |r| == D_LEN
  {
    var t := NatToString(n);
    assert n < 1000 ==> |t| <= D_LEN by {
      if n < 1000 { NatToStringShort(n); }
    }
    var r := ZFill(t, D_LEN);
    assert forall i :: 0 <= i < |r| ==> IsDigit(r[i]) by {
      forall i | 0 <= i < |r| ensures IsDigit(r[i]) {
        if i >= |r| - |t| {
          assert r[i] == r[|r| - |t|..][i - (|r| - |t|)];
        }
      }
    }
    r
  }

  /** `decor`: every maximal run of digits gets its length, zero-padded to
      three digits, put in front of it. */
  function Decor(s: String): (r: String)
    ensures |r| >= |s|
    decreases |s|
  {
    if |s| == 0 then []
    else if IsDigit(s[0]) then
      var k := DigitRun(s);
      RunTag(k) + s[..k] + Decor(s[k..])
    else [s[0]] + Decor(s[1..])
  }

  /** `undecor`: every maximal run of digits loses its first three characters. */
  function Undecor(s: String): (r: String)
    ensures |r| <= |s|
    decreases |s|
  {
    if |s| == 0 then []
    else if IsDigit(s[0]) then
      var k := DigitRun(s);
      s[if k < D_LEN then k else D_LEN..k] + Undecor(s[k..])
    else [s[0]] + Undecor(s[1..])
  }

  /** Every digit run is shorter than a thousand characters, so its length
      fits the three-digit tag. */
  ghost predicate ShortRuns(s: String) {
    forall i :: 0 <= i < |s| ==> RunFrom(s, i) < 1000
  }

  /** Length of the digit run starting at position `i`. */
  function RunFrom(s: String, i: nat): nat
    requires i <= |s|
  {
    DigitRun(s[i..])
  }

  lemma ShortRunsTail(s: String, k: nat)
    requires ShortRuns(s) && k <= |s|
    ensures ShortRuns(s[k..])
  {
    var t := s[k..];
    forall i | 0 <= i < |t| ensures RunFrom(t, i) < 1000 {
      assert t[i..] == s[k + i..];
      assert RunFrom(s, k + i) < 1000;
    }
  }

  /** A digit run followed by a non-digit is measured exactly. */
  lemma {:induction false} DigitRunOf(a: String, rest: String)
    requires AllDigits(a)
    requires |rest| == 0 || !IsDigit(rest[0])
    ensures DigitRun(a + rest) == |a|
    decreases |a|
  {
    if |a| > 0 {
      assert (a + rest)[1..] == a[1..] + rest;
      DigitRunOf(a[1..], rest);
    } else {
      assert a + rest == rest;
    }
  }

  /** `decor` rewrites a maximal digit run `g` as the tag for `|g|` followed by `g`. */
  lemma DecorRun(g: String, rest: String)
    requires |g| > 0 && AllDigits(g)
    requires |rest| == 0 || !IsDigit(rest[0])
    ensures Decor(g + rest) == RunTag(|g|) + g + Decor(rest)
  {
    DigitRunOf(g, rest);
    var s := g + rest;
    assert s[..|g|] == g && s[|g|..] == rest;
  }

  /** `decor` copies a non-digit character. */
  lemma DecorOther(c: char, rest: String)
    requires !IsDigit(c)
    ensures Decor([c] + rest) == [c] + Decor(rest)
  {
    assert ([c] + rest)[1..] == rest;
  }

  /** Text without digits is left alone. */
  lemma {:induction false} DecorNoDigits(s: String)
    requires forall i :: 0 <= i < |s| ==> !IsDigit(s[i])
    ensures Decor(s) == s
    decreases |s|
  {
    if |s| > 0 {
      DecorNoDigits(s[1..]);
      assert s == [s[0]] + s[1..];
    }
  }

  /** `undecor` strips the three-digit tag in front of a maximal digit run. */
  lemma UndecorTagged(tag: String, g: String, d: String)
    requires |tag| == D_LEN && AllDigits(tag) && AllDigits(g)
    requires |d| == 0 || !IsDigit(d[0])
    ensures Undecor(tag + g + d) == g + Undecor(d)
  {
    var a := tag + g;
    assert AllDigits(a);
    DigitRunOf(a, d);
    var t := a + d;
    assert t[D_LEN..|a|] == g;
    assert t[|a|..] == d;
  }

  /** `undecor` inverts `decor` as long as every digit run is shorter than a
      thousand characters. */
  lemma {:induction false} UndecorDecor(s: String)
    requires ShortRuns(s)
    ensures Undecor(Decor(s)) == s
    decreases |s|
  {
    if |s| > 0 {
      if IsDigit(s[0]) {
        var k := DigitRun(s);
        assert k < 1000 by {
          assert RunFrom(s, 0) < 1000;
          assert s[0..] == s;
        }
        var g, rest := s[..k], s[k..];
        assert s == g + rest;
        DecorRun(g, rest);
        ShortRunsTail(s, k);
        UndecorDecor(rest);
        var d := Decor(rest);
        if |rest| > 0 {
          DecorOther(rest[0], rest[1..]);
          assert rest == [rest[0]] + rest[1..];
        }
        UndecorTagged(RunTag(k), g, d);
      } else {
        ShortRunsTail(s, 1);
        UndecorDecor(s[1..]);
        var d := Decor(s[1..]);
        assert ([s[0]] + d)[1..] == d;
        assert s == [s[0]] + s[1..];
      }
    }
  }

  /** Applies `f` to every element. */
  function MapSeq<A, B>(f: A -> B, xs: seq<A>): (r: seq<B>)
    ensures |r| == |xs|
    decreases |xs|
  {
    if |xs| == 0 then [] else [f(xs[0])] + MapSeq(f, xs[1..])
  }

  lemma {:induction false} MapSeqAt<A, B>(f: A -> B, xs: seq<A>, i: nat)
    requires i < |xs|
    ensures MapSeq(f, xs)[i] == f(xs[i])
    decreases i
  {
    if i > 0 {
      MapSeqAt(f, xs[1..], i - 1);
    }
  }

  predicate SortedLex(xs: seq<String>) {
    forall i, j :: 0 <= i < j < |xs| ==> LexLe(xs[i], xs[j])
  }

  function InsertLex(x: String, xs: seq<String>): seq<String>
    decreases |xs|
  {
    if |xs| == 0 || LexLe(x, xs[0]) then [x] + xs else [xs[0]] + InsertLex(x, xs[1..])
  }

  lemma {:induction false} InsertLexPermutes(x: String, xs: seq<String>)
    ensures multiset(InsertLex(x, xs)) == multiset(xs) + multiset{x}
    decreases |xs|
  {
    if |xs| > 0 && !LexLe(x, xs[0]) {
      InsertLexPermutes(x, xs[1..]);
      assert xs == [xs[0]] + xs[1..];
    }
  }

  lemma {:induction false} InsertLexSorted(x: String, xs: seq<String>)
    requires SortedLex(xs)
    ensures SortedLex(InsertLex(x, xs))
    decreases |xs|
  {
    if |xs| == 0 {
    } else if LexLe(x, xs[0]) {
      var r := [x] + xs;
      forall i, j | 0 <= i < j < |r| ensures LexLe(r[i], r[j]) {
        if i == 0 && j > 1 {
          LexLeTransitive(x, xs[0], xs[j - 1]);
        }
      }
    } else {
      LexLeTotal(x, xs[0]);
      InsertLexSorted(x, xs[1..]);
      InsertLexPermutes(x, xs[1..]);
      var rest := InsertLex(x, xs[1..]);
      forall i | 0 <= i < |rest| ensures LexLe(xs[0], rest[i]) {
        assert rest[i] in multiset(rest);
        assert rest[i] == x || rest[i] in multiset(xs[1..]);
        if rest[i] != x {
          var j :| 0 <= j < |xs[1..]| && xs[1..][j] == rest[i];
          assert xs[j + 1] == rest[i];
        }
      }
    }
  }

  /** Python's `list.sort()` on strings. */
  function SortLex(xs: seq<String>): seq<String>
    decreases |xs|
  {
    if |xs| == 0 then [] else InsertLex(xs[0], SortLex(xs[1..]))
  }

  /** The sort yields an ordered permutation of its input. */
  lemma {:induction false} SortLexSpec(xs: seq<String>)
    ensures multiset(SortLex(xs)) == multiset(xs) && SortedLex(SortLex(xs))
    decreases |xs|
  {
    if |xs| > 0 {
      var rest := SortLex(xs[1..]);
      SortLexSpec(xs[1..]);
      InsertLexPermutes(xs[0], rest);
      InsertLexSorted(xs[0], rest);
      assert xs == [xs[0]] + xs[1..];
    }
  }

  /** `natsort` (both the 2.3 and the 2.4 variant): sort the decorated
      strings, then undecorate them. */
  function NatSort(xs: seq<String>): seq<String> {
    MapSeq(Undecor, SortLex(MapSeq(Decor, xs)))
  }

  lemma {:induction false} MapInsertLex(f: String -> String, x: String, xs: seq<String>)
    ensures multiset(MapSeq(f, InsertLex(x, xs))) == multiset(MapSeq(f, xs)) + multiset{f(x)}
    decreases |xs|
  {
    if |xs| > 0 && !LexLe(x, xs[0]) {
      MapInsertLex(f, x, xs[1..]);
      assert MapSeq(f, xs) == [f(xs[0])] + MapSeq(f, xs[1..]);
    }
  }

  /** Decorating, sorting and undecorating permutes a list whenever the
      undecoration inverts the decoration on its elements. */
  lemma {:induction false} DecoratedSortPermutes(d: String -> String, u: String -> String, xs: seq<String>)
    requires forall i :: 0 <= i < |xs| ==> u(d(xs[i])) == xs[i]
    ensures multiset(MapSeq(u, SortLex(MapSeq(d, xs)))) == multiset(xs)
    decreases |xs|
  {
    if |xs| > 0 {
      var rest := MapSeq(d, xs[1..]);
      var ds := [d(xs[0])] + rest;
      assert MapSeq(d, xs) == ds;
      assert ds[1..] == rest;
      var tail := SortLex(rest);
      assert SortLex(ds) == InsertLex(ds[0], tail);
      DecoratedSortPermutes(d, u, xs[1..]);
      MapInsertLex(u, ds[0], tail);
      assert xs == [xs[0]] + xs[1..];
    }
  }

  /** `natsort` returns a permutation of its input when no digit run reaches a
      thousand characters. */
  lemma NatSortPermutes(xs: seq<String>)
    requires forall i :: 0 <= i < |xs| ==> ShortRuns(xs[i])
    ensures multiset(NatSort(xs)) == multiset(xs)
  {
    forall i | 0 <= i < |xs| ensures Undecor(Decor(xs[i])) == xs[i] {
      UndecorDecor(xs[i]);
    }
    DecoratedSortPermutes(Decor, Undecor, xs);
  }

  /** `natsort` orders its result by decorated string, under the same condition. */
  lemma NatSortOrdered(xs: seq<String>)
    requires forall i :: 0 <= i < |xs| ==> ShortRuns(xs[i])
    ensures forall i, j :: 0 <= i < j < |NatSort(xs)| ==> LexLe(Decor(NatSort(xs)[i]), Decor(NatSort(xs)[j]))
  {
    var ds := MapSeq(Decor, xs);
    var ts := SortLex(ds);
    var r := NatSort(xs);
    SortLexSpec(ds);
    forall i | 0 <= i < |ts| ensures Decor(r[i]) == ts[i] {
      assert ts[i] in multiset(ds);
      var k :| 0 <= k < |ds| && ds[k] == ts[i];
      MapSeqAt(Decor, xs, k);
      MapSeqAt(Undecor, ts, i);
      UndecorDecor(xs[k]);
    }
  }

  lemma SmallRunTags()
    ensures RunTag(1) == "001" && RunTag(2) == "002"
  {
    assert NatToString(1) == "1" && NatToString(2) == "2";
    var one, two := RunTag(1), RunTag(2);
    assert one[2..] == "1" && two[2..] == "2";
  }

  lemma DecorA2()
    ensures Decor("a2") == "a0012"
  {
    assert "a2" == ['a'] + "2";
    DecorOther('a', "2");
    assert "2" == "2" + "";
    DecorRun("2", "");
    SmallRunTags();
  }

  lemma DecorA10()
    ensures Decor("a10") == "a00210"
  {
    assert "a10" == ['a'] + "10";
    DecorOther('a', "10");
    assert "10" == "10" + "";
    DecorRun("10", "");
    SmallRunTags();
  }

  /** "a2" sorts before "a10": the digit runs are tagged with their lengths. */
  lemma NatSortExample()
    ensures Decor("a2") == "a0012" && Decor("a10") == "a00210"
    ensures LexLe(Decor("a2"), Decor("a10")) && !LexLe(Decor("a10"), Decor("a2"))
  {
    DecorA2();
    DecorA10();
  }

  // ---------------------------------------------------------------------------
  // Progress percentage

  /** A value handed to `getPercentageDone`: a number or its text. */
  datatype PyValue = PyInt(i: int) | PyStr(s: String)

  /** Python 2's `long(v)`: the number itself, or the text's decimal value
      with surrounding whitespace ignored. */
  function Long(v: PyValue): Option<int> {
    match v
    case PyInt(i) => Some(i)
    case PyStr(s) => ParseInt(Strip(s))
  }

  /** Python's `"%s" % v`. */
  function Str(v: PyValue): String {
    match v
    case PyInt(i) => IntToString(i)
    case PyStr(s) => s
  }

  /** `q` is the floor of `a / b`. */
  ghost predicate IsFloorQuotient(q: int, a: int, b: int) {
    (b > 0 && b * q <= a < b * q + b) || (b < 0 && b * q >= a > b * q + b)
  }

  /** Python's `/` on longs, which rounds towards minus infinity. */
  function FloorDiv(a: int, b: int): (q: int)
    requires b != 0
    ensures IsFloorQuotient(q, a, b)
  {
    if b > 0 then a / b
    else
      var q := (-a) / (-b);
      assert (-b) * q <= -a < (-b) * q + (-b);
      q
  }

  /** `getPercentageDone`: the floored percentage with one decimal, or
      `t/f` when either value is not a number or `f` is zero. */
  function GetPercentageDone(t: PyValue, f: PyValue): (r: String)
    ensures (Long(t).None? || Long(f).None? || Long(f) == Some(0)) ==> r == Str(t) + "/" + Str(f)
    ensures (Long(t).Some? && Long(f).Some? && Long(f).value != 0) ==>
      && |r| > 2 && r[|r| - 2..] == ".0"
      && ParseInt(r[..|r| - 2]).Some?
      && IsFloorQuotient(ParseInt(r[..|r| - 2]).value, Long(t).value * 100, Long(f).value)
  {
    if Long(t).None? || Long(f).None? || Long(f) == Some(0) then Str(t) + "/" + Str(f)
    else
      var q := FloorDiv(Long(t).value * 100, Long(f).value);
      var digits := IntToString(q);
      ParseIntToString(q);
      var r := digits + ".0";
      assert r[..|r| - 2] == digits;
      r
  }

  lemma FloorPercentBounded(t: int, f: int, q: int)
    requires 0 < f && 0 <= t <= f
    requires IsFloorQuotient(q, t * 100, f)
    ensures 0 <= q <= 100
  {
    if q > 100 {
      MulNonneg(f, q - 101);
    }
    if q < 0 {
      MulNonneg(f, -q - 1);
    }
  }

  lemma MulNonneg(a: int, b: int)
    requires a >= 0 && b >= 0
    ensures a * b >= 0
  {
  }

  /** While the transferred size is at most the file size, the percentage
      lies between 0 and 100. */
  lemma PercentageBounded(t: nat, f: nat)
    requires 0 < f && t <= f
    ensures var r := GetPercentageDone(PyInt(t), PyInt(f));
      0 <= ParseInt(r[..|r| - 2]).value <= 100
  {
    var r := GetPercentageDone(PyInt(t), PyInt(f));
    FloorPercentBounded(t, f, ParseInt(r[..|r| - 2]).value);
  }

  // ---------------------------------------------------------------------------
  // Certificate names

  /** A token the pattern `^[0-9-]$|^[0-9-][0-9]*$` matches. */
  predicate NumericToken(w: String) {
    |w| > 0 && (IsDigit(w[0]) || w[0] == '-') && AllDigits(w[1..])
  }

  /** The tokens that are not numeric, in order. */
  function KeepNames(ws: seq<String>): (r: seq<String>)
    ensures forall i :: 0 <= i < |r| ==> r[i] in ws && !NumericToken(r[i])
    ensures forall w :: w in ws && !NumericToken(w) ==> w in r
    decreases |ws|
  {
    if |ws| == 0 then []
    else if NumericToken(ws[0]) then KeepNames(ws[1..])
    else [ws[0]] + KeepNames(ws[1..])
  }

  /** The name half of `parse_dn`: the last `/` part with `CN=` removed, its
      numeric tokens dropped and the rest joined by single spaces. */
  function DnName(dn: String): String {
    var name := ReplaceAll(Last(Split(dn, '/')), "CN=", "");
    Join(" ", KeepNames(Words(name)))
  }

  /** The words of the name are exactly the non-numeric tokens of the last
      part of the DN, once `CN=` is removed. */
  lemma DnNameWords(dn: String)
    ensures var name := ReplaceAll(Last(Split(dn, '/')), "CN=", "");
      && Words(DnName(dn)) == KeepNames(Words(name))
      && (forall w :: w in Words(DnName(dn)) ==> !NumericToken(w))
      && (forall w :: w in Words(name) && !NumericToken(w) ==> w in Words(DnName(dn)))
  {
    var name := ReplaceAll(Last(Split(dn, '/')), "CN=", "");
    var ws := KeepNames(Words(name));
    forall i | 0 <= i < |ws| ensures IsWord(ws[i]) {
      assert ws[i] in Words(name);
    }
    WordsOfJoin(ws);
  }

  /** The name never contains a `/`. */
  lemma DnNameHasNoSlash(dn: String)
    ensures '/' !in DnName(dn)
  {
    var parts := Split(dn, '/');
    SplitPiecesAvoidSeparator(dn, '/');
    assert Last(parts) in parts;
    var name := ReplaceAll(Last(parts), "CN=", "");
    ReplaceAllKeepsAbsent(Last(parts), "CN=", "", '/');
    var ws := KeepNames(Words(name));
    forall i | 0 <= i < |ws| ensures '/' !in ws[i] {
      assert ws[i] in Words(name);
      WordsAvoid(name, '/', ws[i]);
    }
    JoinAvoids(ws, '/');
  }

  lemma {:induction false} WordsAvoid(s: String, c: char, w: String)
    requires c !in s && w in Words(s)
    ensures c !in w
    decreases |s|
  {
    if |s| > 0 && !IsSpace(s[0]) {
      var k := WordLen(s);
      if w != s[..k] {
        WordsAvoid(s[k..], c, w);
      }
    } else if |s| > 0 {
      WordsAvoid(s[1..], c, w);
    }
  }

  lemma {:induction false} JoinAvoids(ws: seq<String>, c: char)
    requires c != ' '
    requires forall i :: 0 <= i < |ws| ==> c !in ws[i]
    ensures c !in Join(" ", ws)
    decreases |ws|
  {
    if |ws| > 1 {
      JoinAvoids(ws[1..], c);
    }
  }

  // ---------------------------------------------------------------------------
  // Size cache

  /** `LfnInfoCache`: sizes by LFN and the day the cache was created. */
  datatype InfoCache<V> = InfoCache(day: String, sizes: map<String, V>)

  function NewInfoCache<V>(today: String): (c: InfoCache<V>)
    ensures c.day == today && c.sizes == map[]
  {
    InfoCache(today, map[])
  }

  /** `getSize`: `today` is the clock's date and `fetched` what PhEDEx answers
      when asked. Returns the new cache, the size, and whether PhEDEx was asked.
      The stored day is never advanced. */
  function GetSize<V>(c: InfoCache<V>, lfn: String, today: String, fetched: V): (r: (InfoCache<V>, V, bool))
    ensures r.0.day == c.day
    ensures lfn in r.0.sizes && r.0.sizes[lfn] == r.1
    ensures r.2 <==> (c.day != today || lfn !in c.sizes)
    ensures !r.2 ==> r == (c, c.sizes[lfn], false)
    ensures r.2 ==> r.1 == fetched
    ensures c.day != today ==> r.0.sizes.Keys == {lfn}
    ensures c.day == today ==> forall k :: k in c.sizes ==> k in r.0.sizes && r.0.sizes[k] == c.sizes[k]
  {
    var sizes := if c.day != today then map[] else c.sizes;
    if lfn in sizes then (c, sizes[lfn], false)
    else (InfoCache(c.day, sizes[lfn := fetched]), fetched, true)
  }

  /** On the cache's own day, asking twice for the same LFN asks PhEDEx at most
      once and gives the same answer. */
  lemma SameDayRepeatIsCached<V>(c: InfoCache<V>, lfn: String, today: String, v1: V, v2: V)
    requires c.day == today
    ensures var (c1, s1, _) := GetSize(c, lfn, today, v1);
      GetSize(c1, lfn, today, v2) == (c1, s1, false)
  {
  }

  /** Once the date has moved on, every call empties the cache and asks
      PhEDEx again, even for the LFN it just asked about. */
  lemma StaleCacheAlwaysFetches<V>(c: InfoCache<V>, lfn: String, today: String, v1: V, v2: V)
    requires c.day != today
    ensures var (c1, _, asked1) := GetSize(c, lfn, today, v1);
      asked1 && GetSize(c1, lfn, today, v2).2 && GetSize(c1, lfn, today, v2).1 == v2
  {
  }
}

=== FILE: wrappers.dfy ===
/** Failure-carrying datatypes shared by every module of the model.
    A Python exception raised by the source becomes an `Err`/`Fail` value here. */
module Wrappers {

  /** A value that may be missing (Python `None`). */
  datatype Option<+T> = None | Some(value: T)

  /** Either a result or the error the source would have raised. */
  datatype Result<+T, +E> = Ok(value: T) | Err(error: E)

  /** An operation that returns nothing but may raise. */
  datatype Outcome<+E> = Pass | Fail(error: E)
}
